=== FILE: README.md ===
# lin-proj Schur core, modelled in Dafny

This project models the exact-arithmetic skeleton of `lin-proj`, a Rust library for dense real Schur decomposition, Hessenberg reduction, QR decomposition and eigenvalue computation.

**The public interface.** `schur_form*`, `hessenberg_form*`, `qr_decomposition*` and `eigenvalues*` are modelled in module `Schur`:
- validation runs in a fixed order: finite entries, then a square shape, then symmetry for the symmetric algorithm;
- the match over the four `QRAlgorithm` variants;
- zeroing of sub-eps entries;
- the convergence gate `diff < sqrt(eps)`;
- the copy-then-in-place wrappers.

**The QR iterations.** Each variant has its own module: `QRBasic` (Gram-Schmidt QR and the naive iteration), `Hessenberg` (Householder reduction and Givens sweeps), `Francis` (the implicit double-shift iteration, its bulge chase and the 2x2 block walk) and `SymmetricQR` (the Wilkinson shift and the implicit tridiagonal sweep). Their deflation loops carry termination measures and budget accounting. Every step carries a frame: which rows and columns it may write, what it leaves untouched, and that `U` is left alone when accumulation is off.

**Kernels and checks.** `Givens`, `Blocks` and `Householder` hold the rotation and reflection kernels, with their exact-real identities:
- Givens zeroing;
- the triangularising 2x2 rotation;
- Householder annihilation.

`Common` holds the post-processing: sub-eps zeroing, the stable descending sort, and the eigenvalue walk. `Checks` holds the structural checks: the masked copies behind `diff_triag`, `diff_subtriag` and `diff_symm`, the relative deviation, `finite_entries` and `subdiag_convergence`.

**How numbers are modelled.** Matrix entries are exact `real`s, in square `seq<seq<real>>` matrices. The library's floating-point primitives are parameters, collected in a `Numerics` record:
- `sqrt`;
- `hypot`;
- the angle-based rotation of `rot_2by2_complex`;
- the Gram-Schmidt `orthonormalize`.

Properties that need them to be exact say so (`ExactSqrt`, `ExactHypot`). Divisions by `hypot` only need it to be positive off the origin (`HypotPositive`, bundled as `Valid`).

`Double` models the places where a NaN or an infinity is observable:
- an input entry;
- the `0 / 0` of `diff_rel`;
- `sqrt` of a negative number;
- IEEE comparisons with NaN.

**How the kernels are modelled.** The Householder reflections are modelled exactly, given the opaque `sqrt`. `householder_refl_left` computes `m -= 2 u (u^T m)` on a block. `ReflLeft` computes the same matrix column by column, as `x - 2 u <u, x>` for each column segment `x`; in exact arithmetic the two are equal. `ReflRight` does the same row by row. The order of floating-point operations is not modelled.

The in-place updates are modelled as functions returning the new matrix. A method's frame is an `ensures` clause saying which entries are equal before and after.

**Where the code and its comments disagree, the code is followed.**
- `types.rs:43` says `U` is the identity when `accumulate_sim_transforms` is off. But `reduce_to_hessenberg_form`, `qr_algorithm_hessenberg` and `symmetric_qr_step` reflect and rotate `U` without consulting the flag. So with the flag off, only the naive path is guaranteed to return the identity (`Schur.RunAlgorithm`, `Schur.SchurFormInplaceOpts`). The other paths may still return it on some inputs, for example the zero matrix, or a 2x2 input on the Francis path.
- `schur.rs` and `interface/hessenberg.rs` call the reduction `hessenberg_form`, while `implementation/hessenberg.rs` defines it as `reduce_to_hessenberg_form`. Both are read as the same function, `Hessenberg.ReduceToHessenbergForm`.

## Model

| member | source | states |
|---|---|---|
| Types.DefaultOptsValues | src/interface/types.rs:55-62 | The default options are Francis, `eps = 1e-8`, 100000 iterations, with checks, zeroing and accumulation all on. |
| Types.SymmetricOptsOnlyChangeAlgorithm | src/interface/types.rs:65-72 | The symmetric preset is the default preset with only the algorithm replaced by `Symmetric`. |
| Types.EigenvalueOptsOnlyDropOutputs | src/interface/types.rs:75-82 | The eigenvalue preset is the default preset with zeroing and accumulation turned off; it still runs Francis with the checks on. |
| Checks.TriagMask | src/implementation/checks.rs:16-23 | The copy `diff_triag` compares against is upper triangular and agrees with `m` on and above the diagonal. |
| Checks.SubtriagMask | src/implementation/checks.rs:27-34 | The copy `diff_subtriag` compares against is upper Hessenberg and agrees with `m` on and above the first subdiagonal. |
| Checks.SymmMask | src/implementation/checks.rs:38-45 | The copy `diff_symm` compares against is symmetric and agrees with `m` on and above the diagonal. |
| Checks.TriagMaskFixesExactlyTriangular | src/implementation/checks.rs:16-25 | The triangular mask leaves `m` unchanged if and only if `m` is upper triangular. |
| Checks.SubtriagMaskFixesExactlyHessenberg | src/implementation/checks.rs:27-36 | The sub-triangular mask leaves `m` unchanged if and only if `m` is upper Hessenberg. |
| Checks.SymmMaskFixesExactlySymmetric | src/implementation/checks.rs:38-47 | The symmetric mask leaves `m` unchanged if and only if `m` is symmetric. |
| Checks.FrobSqZero | src/implementation/checks.rs:3-5 | The squared Frobenius norm is zero exactly on the zero matrix. |
| Checks.DiffRelAsWritten | src/implementation/checks.rs:7-10 | As written, the relative deviation of a zero matrix from itself is NaN: `0 / 0` in IEEE arithmetic. |
| Checks.DiffRel | src/implementation/checks.rs:7-10 | The corrected relative deviation agrees with the written one whenever `orig` is not the zero matrix. |
| Checks.UnchangedByMaskIsExact | src/implementation/checks.rs:7-10 | With an exact `sqrt`, a matrix equal to its mask deviates from it by exactly 0, the zero matrix included. |
| Checks.TriangularPassesGate | src/implementation/checks.rs:16-25 | With the corrected quotient, an upper-triangular matrix passes `diff_triag(m) < sqrt(eps)` for every positive `eps`. |
| Checks.HessenbergPassesGate | src/implementation/checks.rs:27-36 | With the corrected quotient, an upper-Hessenberg matrix passes `diff_subtriag(m) < sqrt(eps)` for every positive `eps`. |
| Checks.SymmetricPassesGate | src/implementation/checks.rs:38-47 | With the corrected quotient, a symmetric matrix passes `diff_symm(m) < sqrt(eps)` for every positive `eps`. |
| Checks.ZeroMatrixFailsGateAsWritten | src/implementation/checks.rs:7-10 | As written, with an exact `sqrt`, the zero matrix of any size, though triangular, fails the gate whatever `eps` is. |
| Checks.DiffRelZero | src/implementation/checks.rs:7-10 | With an exact `sqrt`, the corrected relative deviation is exactly 0 if and only if the two matrices are equal. |
| Checks.DiffTriag | src/implementation/checks.rs:16-25 | With an exact `sqrt`, `diff_triag(m)` (corrected quotient) is exactly 0 if and only if `m` is upper triangular. |
| Checks.DiffSubtriag | src/implementation/checks.rs:27-36 | With an exact `sqrt`, `diff_subtriag(m)` (corrected quotient) is exactly 0 if and only if `m` is upper Hessenberg. |
| Checks.DiffSymm | src/implementation/checks.rs:38-47 | With an exact `sqrt`, `diff_symm(m)` (corrected quotient) is exactly 0 if and only if `m` is symmetric. |
| Checks.Below | src/interface/schur.rs:64 | The gate `!(diff < eps.sqrt())` refuses a NaN or `+inf` deviation, and refuses every deviation for `eps < 0`, whose square root is NaN. With an exact `sqrt` and `eps > 0`, a deviation of 0 passes. |
| Checks.FiniteEntries | src/implementation/checks.rs:49-51 | The scan returns true if and only if every entry is finite. |
| Checks.SubdiagConvergenceAsWritten | src/implementation/checks.rs:53-61 | The test as written returns true if and only if every subdiagonal entry, as a signed number, is below `eps`. |
| Checks.SubdiagConvergence | src/implementation/checks.rs:53-61 | The corrected test returns true if and only if every subdiagonal entry is below `eps` in magnitude. |
| Checks.ConvergedImpliesSignedBelow | src/implementation/checks.rs:53-61 | The magnitude test is stronger than the signed one: whatever it accepts, the signed test accepts. |
| Checks.SignedTestAcceptsMinusOne | src/implementation/checks.rs:56 | The signed test accepts a subdiagonal entry of -1 as converged; the magnitude test refuses it. |
| Common.EigvalCollapsed | src/implementation/common.rs:24-26 | A collapse needs a positive `eps` and a non-zero diagonal neighbour, so it never fires between two zero diagonal entries. Conversely, a zero subdiagonal entry collapses whenever `eps > 0` and a neighbour is non-zero. |
| Common.ZeroSubeps | src/implementation/common.rs:48-50 | The shape is kept. Every entry below `eps` in magnitude becomes 0, and every other entry keeps its value. |
| Common.ZeroSubepsLeavesNoSubeps | src/implementation/common.rs:48-50 | After zeroing, every entry is either 0 or at least `eps` in magnitude. |
| Common.ZeroSubepsIdempotent | src/implementation/common.rs:48-50 | Zeroing twice gives the same matrix as zeroing once. |
| Common.SortPermutation | src/implementation/common.rs:29-30 | The sort order is a permutation of the indices. It orders them by descending value, ties in index order, and reads out the same multiset of values. |
| Common.SortDiagonalValues | src/implementation/common.rs:28-36 | `z` comes out non-increasing and as a permutation of its input, equal values in their original order. Column `a` of the new `U` is column `perm[a]` of the old one, for the same permutation. |
| Common.EigenWalkAsWritten | src/implementation/common.rs:52-71 | As written, the walk returns nothing for at most one row; otherwise it returns `n - i - 1` or `n - i` values. |
| Common.AsWrittenLosesLastEigenvalue | src/implementation/common.rs:56-70 | As written, the walk over an upper-triangular matrix returns its diagonal without the last entry. |
| Common.Diag123LosesThree | src/implementation/common.rs:56-70 | On `diag(1, 2, 3)`, the walk as written returns only 1 and 2; the corrected walk returns 1, 2 and 3. |
| Common.QuarterTurnGivesNaN | src/implementation/common.rs:64 | As written, the complex pair of `[[0, 1], [-1, 0]]` comes out with a NaN imaginary part. |
| Common.EigenWalk | src/implementation/common.rs:52-71 | The corrected walk returns exactly one value per remaining diagonal entry. |
| Common.ExtractEigenvalues | src/implementation/common.rs:52-71 | The loop returns exactly the corrected recursive walk `Common.EigenWalk`, one value per row. |
| Common.TriangularEigenvaluesAreDiagonal | src/implementation/common.rs:56-62 | For an upper-triangular matrix, the corrected walk returns the diagonal as real eigenvalues. |
| Common.StandardPairIsRoot | src/implementation/common.rs:64-66 | Take a standardised block `[[a, b], [c, a]]` with `b c < 0` and an exact `sqrt`. The corrected pair is `a +- i w` with `w` finite and `w^2 = -(b c) > 0`. Its two values share the real part and have opposite imaginary parts. |
| Givens.Givens | src/implementation/givens.rs:4-11 | `givens(a, 0)` is the identity rotation. For `b != 0` it is `(a, -b)` divided by `hypot(a, b)`. |
| Givens.GivensZeroesSecond | src/implementation/givens.rs:4-17 | Left-applying `givens(a, b)` to the column `(a, b)` zeroes its second component, and leaves `a` alone when `b == 0`. |
| Givens.GivensFirstIsHypot | src/implementation/givens.rs:4-17 | With an exact `hypot` and `b != 0`, the first component becomes `hypot(a, b)`. |
| Givens.GivensUnit | src/implementation/givens.rs:4-11 | With an exact `hypot`, `givens` returns a unit pair: `c^2 + s^2 == 1`. |
| Givens.RotLeft | src/implementation/givens.rs:14-17 | Only rows `r, r + 1` from column `c0` on change, each column pair by `[[c, -s], [s, c]]`. |
| Givens.RotRight | src/implementation/givens.rs:20-23 | Only columns `c, c + 1` in the rows above `r1` change, each row pair by `[[c, s], [-s, c]]`. |
| Givens.RightIsTransposeOfLeft | src/implementation/givens.rs:15-21 | The right-rotation matrix is the transpose of the left-rotation matrix. |
| Givens.RotRightIsTransposedRotLeft | src/implementation/givens.rs:14-23 | Rotating two full columns on the right is the transpose of rotating the same two rows of the transpose on the left. |
| Givens.RotLeftZeroes | src/implementation/givens.rs:4-17 | At matrix level, `givens_rot_left` with `givens(m[r][k], m[r + 1][k])` zeroes `m[r + 1][k]`. |
| Blocks.RealAxis | src/implementation/blocks.rs:5-9 | The axis comes from the first row when `b != 0`, from the second when only `c != 0`, and it is never the zero vector. |
| Blocks.Rot2x2Real | src/implementation/blocks.rs:4-12 | The normaliser `hypot(v)` is positive, so there is no division by zero. The rotation times it is `(v0, -v1)`. |
| Blocks.Rot2x2 | src/implementation/blocks.rs:23-32 | A negative discriminant `p^2 - 4q` hands the block to the angle-based rotation `rot_2by2_complex`. |
| Blocks.ComplexPairHasOppositeOffDiagonals | src/implementation/blocks.rs:24-28 | When the complex branch is taken, the off-diagonal entries have opposite signs. |
| Blocks.LargerEigenvalueIsRoot | src/implementation/blocks.rs:24-30 | With an exact `sqrt`, `e = (sqrt(d) + p) / 2` solves the block's characteristic equation. |
| Blocks.RealAxisIsEigenvector | src/implementation/blocks.rs:5-9 | For an eigenvalue `e` of a block that is not diagonal, the chosen axis is an eigenvector: `B v = e v`. |
| Blocks.Rot2x2RealTriangularizes | src/implementation/blocks.rs:23-32 | For real eigenvalues and an exact `sqrt`, rotating the block with `rot_2by2` from both sides zeroes its lower-left entry. |
| Blocks.DiagonalBlockGetsIdentity | src/implementation/blocks.rs:5-11 | With an exact `hypot`, a block with both off-diagonals zero gets the identity rotation. |
| Blocks.Rot2x2RealUnit | src/implementation/blocks.rs:10-11 | With an exact `hypot`, the real-branch rotation is a unit pair. |
| Blocks.RotatedBlockAt | src/implementation/francis.rs:91-93 | Rotating rows `i, i + 1` and then columns `i, i + 1` transforms the diagonal block at `i` as the 2x2 rotation `G B G^T`. |
| Householder.ShiftedAxis | src/implementation/householder.rs:6-7 | Only the first entry changes, and it moves away from zero by `norm(x)`. |
| Householder.HouseholderVec | src/implementation/householder.rs:5-13 | The vector has the length of `x`. When the shifted axis has norm 0, it is returned unnormalised. |
| Householder.HouseholderVecScaled | src/implementation/householder.rs:8-11 | Otherwise the vector, multiplied back by the norm, is the shifted axis. |
| Householder.DividedScales | src/implementation/householder.rs:10 | `u /= n` is undone entry by entry by multiplying by `n`. |
| Householder.ReflLeft | src/implementation/householder.rs:16-19 | Only rows `r0 .. r0 + |u|` from column `c0` on change. Each column segment `x` there becomes `(I - 2 u u^T) x`. |
| Householder.ReflRight | src/implementation/householder.rs:22-25 | Only columns `c0 .. c0 + |u|` in the rows above `r1` change. Each row segment `x` there becomes `(I - 2 u u^T) x`. |
| Householder.ShiftedAxisNorm | src/implementation/householder.rs:6-8 | With an exact `sqrt`, the shifted axis `w` satisfies `|w|^2 == 2 <w, x>`. |
| Householder.ReflectionSubtractsAxis | src/implementation/householder.rs:5-19 | With an exact `sqrt`, reflecting `x` in `householder_vec(x)` subtracts the shifted axis from it, normalised or not. |
| Householder.HouseholderAnnihilates | src/implementation/householder.rs:5-19 | With an exact `sqrt`, the reflection leaves `-signum(x0) norm(x)` in the first entry and zero in all the others. |
| Householder.ReflLeftAnnihilates | src/implementation/householder.rs:16-19 | At matrix level, reflecting rows in the Householder vector of a column segment zeroes that segment below its head. |
| Hessenberg.ReductionStepsAsWritten | src/implementation/hessenberg.rs:8 | As written, the loop bound `n - 2` exists only for `n >= 2`; smaller sizes panic. |
| Hessenberg.OneByOnePanicsAsWritten | src/implementation/hessenberg.rs:8 | A 1x1 matrix, which passes every validation check, makes the loop header panic. |
| Hessenberg.ReductionSteps | src/implementation/hessenberg.rs:8 | The corrected bound agrees with the written one for `n >= 2`, and runs no step below that. |
| Hessenberg.ReductionStep | src/implementation/hessenberg.rs:9-11 | Step `k` never touches the columns before `k`, nor column `k` on or above its diagonal. |
| Hessenberg.ReductionStepOnU | src/implementation/hessenberg.rs:12 | The reflection of `U` never touches columns `0 ..= k`. |
| Hessenberg.ReductionStepClearsColumn | src/implementation/hessenberg.rs:9-11 | With an exact `sqrt`, step `k` zeroes column `k` below its subdiagonal and keeps the earlier columns clean, so one more column is in Hessenberg form. |
| Hessenberg.ReduceColumn | src/implementation/hessenberg.rs:9-12 | One iteration extends the Hessenberg columns by one (exact `sqrt`), and keeps column 0 of `U` and the corner `m[0][0]`. |
| Hessenberg.ReduceToHessenbergForm | src/implementation/hessenberg.rs:6-14 | The result is upper Hessenberg with an exact `sqrt`. `U`'s column 0 and `m[0][0]` are never touched, and a matrix below 2x2 is returned unchanged. |
| Hessenberg.LeftPass | src/implementation/hessenberg.rs:25-28 | The left rotations of a sweep, built from the entries they zero, turn an upper-Hessenberg matrix into an upper-triangular one. |
| Hessenberg.RightPass | src/implementation/hessenberg.rs:29-32 | The right rotations never write below the first subdiagonal, so Hessenberg form is kept. |
| Hessenberg.QRAlgorithmHessenberg | src/implementation/hessenberg.rs:16-33 | At most `iterations` sweeps run. With the corrected magnitude test `Checks.SubdiagConvergence`, an early stop means the subdiagonal has converged, and an input that has already converged is returned unchanged. Hessenberg form is kept. |
| QRBasic.GramSchmidtQ | src/implementation/qr_basic.rs:9-11 | Column `c` of `Q` is vector `c` of `orthonormalize` applied to the columns of `m`. |
| QRBasic.RFactor | src/implementation/qr_basic.rs:13-18 | `R` is upper triangular, and `R[j][i]` is `<Q col j, M col i>` on and above the diagonal. |
| QRBasic.FillColumn | src/implementation/qr_basic.rs:15-17 | The inner loop fills entries `0 ..= i` of column `i` and nothing else. |
| QRBasic.QRDecomposition | src/implementation/qr_basic.rs:6-21 | `qr_decomposition` returns the Gram-Schmidt `Q` and an `R` with those entries and zeros strictly below the diagonal. |
| QRBasic.RFactorIsQTransposeM | src/implementation/qr_basic.rs:13-18 | `R` equals `Q^T M` on and above the diagonal. It equals `Q^T M` everywhere when later columns of `Q` are orthogonal to earlier columns of `M`. |
| QRBasic.RFactorUnique | src/implementation/qr_basic.rs:13-18 | Any matrix with the properties of an `R` factor is `RFactor(Q, M)`. |
| QRBasic.NaiveIterate | src/implementation/qr_basic.rs:24-29 | Every number of `M := R Q` steps keeps the shape, and leaves `U` alone when accumulation is off. |
| QRBasic.QRAlgorithmNaive | src/implementation/qr_basic.rs:23-31 | Exactly `iterations` steps run, with no early exit; `U` is unchanged when accumulation is off. |
| Francis.ReflectionAxis | src/implementation/francis.rs:11-21 | The axis has three entries, read within the matrix for `2 <= p < n`. |
| Francis.AxisIsShiftPolynomialColumn | src/implementation/francis.rs:11-21 | For an upper-Hessenberg `m`, the axis is the head of the first column of `M^2 - t M + d I`, for the trailing block's trace `t` and determinant `d`. |
| Francis.BulgeStep | src/implementation/francis.rs:26-32 | A bulge step writes no row below `p`, no entry more than three places below the diagonal, and no column before `k - 1`. |
| Francis.BulgeStepClearsColumn | src/implementation/francis.rs:26-32 | With an exact `sqrt`, a step reflecting in the Householder vector of the bulge column zeroes that column's two entries below the subdiagonal. |
| Francis.NextAxis | src/implementation/francis.rs:38-42 | The next vector is column `k` from row `k + 1`. Row `k + 3` is read only when `k + 2 < p`; otherwise the old third entry is kept. |
| Francis.ChaseStep | src/implementation/francis.rs:25-32 | One bulge step keeps the frame below row `p`. With an exact `sqrt` and a Hessenberg input, it extends the columns that are clean below the subdiagonal by one. |
| Francis.GivensFinish | src/implementation/francis.rs:45-47 | The closing rotation zeroes `m[p][p - 2]` and keeps the frame. After a full chase, with an exact `sqrt` and a Hessenberg input, it restores Hessenberg form. |
| Francis.ChaseBulge | src/implementation/francis.rs:25-43 | The reflection loop keeps the frame and leaves the head of the last bulge column in `v`. `U` changes only in columns up to `p`, and not at all when `acc` is off. |
| Francis.ChaseOnce | src/implementation/francis.rs:26-42 | One iteration of the chase moves every invariant on by one column. |
| Francis.FrancisQRStep | src/implementation/francis.rs:23-52 | Only rows up to `p` and entries at most three places below the diagonal change, and `m[p][p - 2]` ends zero. Hessenberg form is kept with an exact `sqrt`. `U` changes only in columns up to `p`, and not at all when `acc` is off. |
| Francis.QRAlgorithmFrancis | src/implementation/francis.rs:54-82 | The loop terminates under the measure `(iterations - i, p)` and ends with `p <= 1` or the budget spent. Below the window every subdiagonal entry has deflated into 1x1 and 2x2 blocks. With an exact `sqrt`, a Hessenberg input stays Hessenberg. `U` is kept when accumulation is off. |
| Francis.RotateBlockAt | src/implementation/francis.rs:91-93 | Rotating the block at `i` touches no row from `i + 2` on and no column before `i`, and acts on the block as `G B G^T`. |
| Francis.RotatedStarts | src/implementation/francis.rs:85-99 | Every block the walk rotates starts at a subdiagonal entry of at least `eps` in magnitude. |
| Francis.RotatedStartsCover | src/implementation/francis.rs:86-98 | Rotated blocks never overlap, since a start is never followed by another at the next index. Every subdiagonal entry of at least `eps` starts a rotated block or lies just after one. |
| Francis.BlockWalkStep | src/implementation/francis.rs:91-98 | Rotating the block at `i`, whose subdiagonal entry is at least `eps`, records it as done. The walk's invariant then holds two indices further on: rows from there untouched, and a done real-eigenvalue block with a zero subdiagonal entry (exact `sqrt`). |
| Francis.FrancisBlockReduction | src/implementation/francis.rs:84-100 | With an exact `sqrt`, every rotated block whose eigenvalues are real ends with a zero subdiagonal entry. Every subdiagonal entry that starts no rotated block keeps its value, as do the sub-`eps` ones and all entries two or more below the diagonal. `U` is kept when accumulation is off. |
| SymmetricQR.WilkinsonShift | src/implementation/qr_symmetric.rs:9-18 | With an exact `hypot`, the shift (the degenerate `a - abs(b)` branch included) is a root of the trailing block's characteristic polynomial, no farther from the last diagonal entry `m[p][p]` than from `m[p - 1][p - 1]`. |
| SymmetricQR.ShiftDenominator | src/implementation/qr_symmetric.rs:16 | For `d != 0`, `d + signum(d) hypot(d, b)` is non-zero, so the division is safe. |
| SymmetricQR.ShiftIsNearerRoot | src/implementation/qr_symmetric.rs:12-17 | The algebra of the shift: with `hypot^2 = d^2 + b^2`, `a - b^2 / den` solves `(c - x)(a - x) = b^2` and lies nearer `a`. |
| SymmetricQR.TridiagonalRotation | src/implementation/qr_symmetric.rs:21-50 | Only band entries within one place before `k` and two after it, inside the window, change. The new `x` is the new subdiagonal entry. Entry `(k, k - 1)` receives the rotated old pair, and the new bulge is `-s m[k + 2][k + 1]`, or the old one on the last step. |
| SymmetricQR.BandUpdate | src/implementation/qr_symmetric.rs:34-49 | The entries the update writes all lie in the band, inside the window. |
| SymmetricQR.RotationKeepsTrace | src/implementation/qr_symmetric.rs:34-35 | The implicit rotation keeps the trace. |
| SymmetricQR.RotationKeepsSymmetry | src/implementation/qr_symmetric.rs:36-49 | The implicit rotation keeps a symmetric matrix symmetric. |
| SymmetricQR.RotationKeepsBand | src/implementation/qr_symmetric.rs:34-49 | The implicit rotation keeps a tridiagonal matrix tridiagonal. |
| SymmetricQR.RotationKeepsHessenberg | src/implementation/qr_symmetric.rs:34-49 | The implicit rotation writes only band entries, so an upper Hessenberg matrix stays upper Hessenberg. |
| SymmetricQR.UnitSimilarity | src/implementation/qr_symmetric.rs:30-36 | For a unit rotation, the implicit update formulas are the entries of `G B G^T` for the symmetric block `B`. |
| SymmetricQR.ImplicitRotationIsSimilarity | src/implementation/qr_symmetric.rs:30-37 | For a unit rotation and a symmetric block at `k`, the implicit update of that block is the explicit similarity the Givens kernels compute. |
| SymmetricQR.GivensAbsorbsBulge | src/implementation/qr_symmetric.rs:30-42 | With the Givens rotation of `(x, y)`, the bulge component vanishes, and `(k, k - 1)` receives the rotated `x`. |
| SymmetricQR.SweepRotation | src/implementation/qr_symmetric.rs:58-62 | `givens(x, y)` is used when `p > 1`, and `rot_2by2` of the leading block when `p == 1`. |
| SymmetricQR.SymmetricQRStep | src/implementation/qr_symmetric.rs:52-67 | A sweep keeps the trace, symmetry, the band and Hessenberg form, and never touches rows or columns after `p`. `U` changes only in columns up to `p`. |
| SymmetricQR.QRAlgorithmSymmetric | src/implementation/qr_symmetric.rs:69-82 | At most `iterations` sweeps run, `p` drops by at most one per sweep (`p + i >= n - 1`), and the loop ends with `p == 0` or the budget spent. The trace, symmetry, tridiagonal form and Hessenberg form are kept. |
| Schur.Validate | src/interface/schur.rs:20-32 | Checks on: `NotFinite` exactly for a non-finite input; then `NotSquare` exactly for a finite non-square one; then `NotSymmetric` exactly for the symmetric algorithm failing `diff_symm < sqrt(eps)`. Checks off: always accepted. The symmetry test uses the corrected quotient. |
| Schur.ValidateInput | src/interface/schur.rs:20-32 | The imperative validation block returns exactly the result of `Validate`. |
| Schur.SymmetricInputAccepted | src/interface/schur.rs:29-31 | With the corrected quotient, a finite, square, exactly symmetric input is never refused as non-symmetric (exact `sqrt`, `eps > 0`). |
| Schur.ZeroSubepsKeepsHessenberg | src/interface/schur.rs:54-56 | Zeroing after the iteration keeps Hessenberg form. |
| Schur.GateDiff | src/interface/schur.rs:58-62 | The gate measures `diff_subtriag` for Francis and `diff_triag` otherwise. With an exact `sqrt`, the measure is exactly 0 if and only if `T` is upper Hessenberg (Francis) or upper triangular (the rest). |
| Schur.RunAlgorithm | src/interface/schur.rs:34-52 | Naive skips the reduction and returns exactly `QRBasic.NaiveIterate` of `m` and the identity. With an exact `sqrt`, the Francis, Hessenberg and Symmetric paths, which reduce first, end in Hessenberg form. With accumulation off, the naive path returns `U` as the identity. The other paths reflect and rotate `U` whatever the flag says, so they carry no such guarantee. On the Francis path with accumulation off, `U`'s first column is still the first unit vector, because the reduction reflects only columns 1.. of `U`. |
| Schur.SchurFormInplaceOpts | src/interface/schur.rs:19-70 | Validation errors come first and unchanged. After them, the only error is `ConvergenceFailed`, exactly when the checks are on and the gate refuses `T`. Zeroing leaves no sub-eps entry; checks off always gives `Ok`. With an exact `sqrt` and `eps > 0`, the corrected model's Francis path fails only on validation. |
| Schur.SchurFormInplace | src/interface/schur.rs:77-79 | With the default options, only a non-finite or non-square input is refused for its input. With an exact `sqrt`, every other input succeeds in the corrected model. |
| Schur.SchurFormOpts | src/interface/schur.rs:85-89 | The copy-then-in-place form returns `(T, U)` of the input's size, and propagates the errors unchanged. |
| Schur.SchurForm | src/interface/schur.rs:96-98 | A non-finite input gives `NotFinite`, and only a non-finite or non-square input gives a validation error. With an exact `sqrt`, the corrected model succeeds on every other input, with a Hessenberg result and no sub-eps entry. |
| Schur.EigenvaluesOpts | src/interface/eigenvalues.rs:4-7 | The errors are those of the Schur form. The result, read by the corrected `Common.EigenWalk`, has one value per row. |
| Schur.Eigenvalues | src/interface/eigenvalues.rs:9-11 | With the eigenvalue options, only a non-finite or non-square input fails for its input. The result, read by the corrected walk, has one value per row. |
| Schur.HessenbergFormInplaceOpts | src/interface/hessenberg.rs:5-23 | Validation runs without the symmetry test. There is no gate, so every validated input succeeds. Zeroing applies to `H` only, `U` keeps `e_0` as its first column, and, under the corrected `Hessenberg.ReductionSteps`, a matrix below 2x2 comes back as it was (zeroed when asked) with `U` the identity. |
| Schur.HessenbergFormInplace | src/interface/hessenberg.rs:25-28 | With the default options, exactly the finite square inputs succeed, and `H` has no sub-eps entry. |
| Schur.HessenbergFormOpts | src/interface/hessenberg.rs:31-35 | The copy form returns `(H, U)` of the input's size, and propagates the validation errors. |
| Schur.HessenbergForm | src/interface/hessenberg.rs:38-40 | Exactly the finite square inputs succeed; otherwise the result is `NotFinite` before `NotSquare`. |
| Schur.QRDecompositionOpts | src/interface/qr_decomposition.rs:5-22 | The result is `Ok` exactly when validation passes. `Q` is the Gram-Schmidt factor with only its sub-eps entries zeroed. `R` is built from the unzeroed `Q` and is not zeroed. |
| Schur.QRDecomposition | src/interface/qr_decomposition.rs:24-26 | With the default options, exactly the finite square inputs succeed, with an `R` factor of the Gram-Schmidt `Q`. |

## Left out

- Floating-point rounding: entries are exact reals. `sqrt`, `hypot`, `rot_2by2_complex` (atan2, cos, sin) and `orthonormalize` (with `norm` and `proj`) are opaque parameters, so their values are not computed. The operation order of the Householder rank-one updates is not modelled.
- Convergence of any QR variant: the library does not promise it. Only the budget, the loop exits and the structure kept are stated.
- SVD (`src/implementation/svd.rs`, `src/interface/svd.rs`): not part of this model.
- The superseded duplicates of an earlier version (`src/algorithms.rs`, `src/interface/interface.rs`, `src/interface/schur_form.rs`, `src/checks.rs`, `src/qr.rs`, `src/types.rs`): not part of this model.
- `diff_unit` (`src/implementation/checks.rs:12-14`) is not called by the modelled interface.
- The `Display` messages of `QRError`: only the four variants are modelled.
- `stack_owned`, ndarray views and slicing are plain sequence operations here.
- Schur.SchurFormInplaceOpts: on a validation error the model returns an empty `t`. The library leaves the caller's matrix untouched; the model has no real matrix for a non-finite or non-square input.
- Schur.SchurFormInplaceOpts: a 0x0 input with a non-naive algorithm is excluded (`SizeSupported`). Every non-naive path starts from `n - 1` in `usize` and panics there.
- Schur.SchurFormInplaceOpts: with the checks off, the input must be finite and square (`Runnable`), because a model `Matrix` holds reals only and is square. The library accepts a square input with NaN or infinite entries when the checks are off: no kernel panics on it, and it returns `Ok` with non-finite entries. A non-square input is processed over the index range of its row count.
- Schur.SchurFormInplaceOpts: the similarity `A = U T U^T` and the orthogonality of `U` (schur.rs:13) are not stated, since the kernels that build `U` are opaque parameters. The per-step facts are stated: Blocks.RotatedBlockAt and Francis.RotateBlockAt for the Givens similarities, and SymmetricQR.ImplicitRotationIsSimilarity for the implicit symmetric update.
- Schur.SchurFormInplaceOpts and Schur.SchurFormOpts: "Francis fails only on validation" holds for the corrected model, which uses Checks.DiffRel and Hessenberg.ReductionSteps. The library returns `ConvergenceFailed` for the zero matrix, and for any input that zeroing turns all-zero, because `diff_rel` is `0 / 0 = NaN` there. With a non-naive algorithm it panics on every 1x1 input (hessenberg.rs:8).
- Schur.SchurFormInplace and Schur.SchurForm: "every finite square input succeeds" is a statement about the corrected model (Checks.DiffRel, Hessenberg.ReductionSteps). The library fails the zero matrix with `ConvergenceFailed` and panics on 1x1 inputs.
- Schur.Validate and Schur.SymmetricInputAccepted: the symmetry test uses the corrected Checks.DiffRel. With `SYMMETRIC_OPTS`, the library returns `NotSymmetric` for the zero matrix, which is symmetric.
- Checks.SymmetricPassesGate, Checks.TriangularPassesGate and Checks.HessenbergPassesGate: stated of the corrected quotient. For the zero matrix the library's quotient is NaN and the gate refuses it (Checks.ZeroMatrixFailsGateAsWritten).
- Schur.HessenbergFormInplaceOpts, Schur.HessenbergFormInplace, Schur.HessenbergFormOpts and Schur.HessenbergForm: success on every finite square input, and the unchanged result below 2x2, hold under the corrected Hessenberg.ReductionSteps. The library panics on a 0x0 or 1x1 input.
- Hessenberg.QRAlgorithmHessenberg: uses the corrected magnitude test Checks.SubdiagConvergence. The library's signed test stops at once on a matrix such as `[[0, 0], [-1, 0]]`, which has not converged, and the gate then refuses it.
- Common.ExtractEigenvalues, Schur.EigenvaluesOpts and Schur.Eigenvalues: the result has one value per row because they use the corrected Common.EigenWalk. The library returns `n - 1` values when the last diagonal entry stands alone: `diag(1, 2, 3)` gives two. It also gives a NaN imaginary part for every complex pair.
- Schur.EigenvaluesOpts: states only the length and the errors. The composition has no properties of its own beyond those of the Schur form and the walk.
- Hessenberg.QRAlgorithmHessenberg, SymmetricQR.QRAlgorithmSymmetric and Francis.QRAlgorithmFrancis: require `n >= 1`, as their `n - 1` in `usize` does (`francis.rs:56` for the Francis one).
- Francis.ReflectionAxis: states the length and, separately, the polynomial meaning. The axis values are the exact-real formulas of `francis_reflection_axis`.
- SymmetricQR.SymmetricQRStep: the sweep's effect on the eigenvalues (a similarity) is stated per rotation by SymmetricQR.ImplicitRotationIsSimilarity, not for the whole sweep.
- Common.SortDiagonalValues: `partial_cmp(..).unwrap_or(Equal)` on NaN is not modelled, since entries are reals.

## Findings

| source | as written | input that shows it | evidently intended | confidence | as-written member | corrected member |
|---|---|---|---|---|---|---|
| src/implementation/common.rs:56-70 | The walk stops when fewer than two rows remain, so a diagonal entry reached on its own at the end is never emitted. | `diag(1, 2, 3)` gives only `1, 2`. | One eigenvalue per diagonal entry, the last one included. | high; not executed | Common.Diag123LosesThree | Common.TriangularEigenvaluesAreDiagonal |
| src/implementation/common.rs:64 | The imaginary part is `sqrt(sub * super)`, and `sub * super < 0` for every genuine complex pair, so it is NaN. | `[[0, 1], [-1, 0]]` gives `0 +- NaN i`. | `sqrt(-(sub * super))`, giving `0 +- i` here. | high; not executed | Common.QuarterTurnGivesNaN | Common.StandardPairIsRoot |
| src/implementation/hessenberg.rs:8 | The loop header `0..n - 2` underflows `usize` for `n < 2`, and a 1x1 matrix passes validation. | A 1x1 matrix given to `schur_form` or `hessenberg_form`. | No reduction step for `n < 2`. | high; not executed | Hessenberg.OneByOnePanicsAsWritten | Hessenberg.ReductionSteps |
| src/implementation/checks.rs:7-10 | `frob_norm(res - orig) / frob_norm(orig)` is `0 / 0 = NaN` for the zero matrix, and NaN fails `diff < sqrt(eps)`. | The zero matrix given to `schur_form` gives `ConvergenceFailed`, or `NotSymmetric` with the symmetric options. | A deviation of 0 when both norms are 0, so the zero matrix passes. | medium; not executed | Checks.ZeroMatrixFailsGateAsWritten | Checks.TriangularPassesGate |
| src/implementation/checks.rs:53-61 | The convergence test compares the signed subdiagonal entry with `eps`. | `[[0, 0], [-1, 0]]` is reported converged for any `0 < eps < 1`. | A comparison of the magnitude `abs(m[i + 1][i]) < eps`. | medium; not executed | Checks.SignedTestAcceptsMinusOne | Checks.SubdiagConvergence |

The corrected members are the ones the rest of the model uses:
- `Common.EigenWalk` in `Common.ExtractEigenvalues` and `Schur.EigenvaluesOpts`;
- `Hessenberg.ReductionSteps` in `Hessenberg.ReduceToHessenbergForm`;
- `Checks.DiffRel` in every gate;
- `Checks.SubdiagConvergence` in `Hessenberg.QRAlgorithmHessenberg`.

=== FILE: blocks.dfy ===
/**
 * Rotations that reduce a 2x2 diagonal block: `rot_2by2` chooses between an
 * eigenvector-based rotation (real eigenvalues) and an angle-based one
 * (complex pair) from the sign of the characteristic discriminant.
 */
module Blocks {

  import opened Floats
  import opened Matrices
  import opened Givens

  /** The 2x2 block `m[i..i + 2, i..i + 2]`. */
  function BlockAt(m: Matrix, i: nat): Block2
    requires IsSquare(m) && i + 1 < |m|
  {
    Block2(m[i][i], m[i][i + 1], m[i + 1][i], m[i + 1][i + 1])
  }

  /** The block's characteristic polynomial is `x^2 - p x + q` with `p` the trace ... */
  function TraceOf(blk: Block2): real
  {
    blk.a + blk.d
  }

  /** ... and `q` the determinant. */
  function DetOf(blk: Block2): real
  {
    blk.a * blk.d - blk.b * blk.c
  }

  /** `p * p - 4 q`: negative exactly when the eigenvalues form a complex pair. */
  function Discriminant(blk: Block2): real
  {
    Sq(TraceOf(blk)) - 4.0 * DetOf(blk)
  }

  /**
   * The (unnormalised) eigenvector guess of `rot_2by2_real` for the
   * eigenvalue `e`: taken from the first row when `b != 0`, from the second
   * when `c != 0`, and `(1, 0)` for a diagonal block. Never the zero vector.
   */
  function RealAxis(blk: Block2, e: real): (v: (real, real))
    ensures v.0 != 0.0 || v.1 != 0.0
    ensures blk.b != 0.0 ==> v.0 == blk.b
    ensures blk.b == 0.0 && blk.c != 0.0 ==> v.1 == blk.c
  {
    if blk.b != 0.0 then (blk.b, e - blk.a)
    else if blk.c != 0.0 then (e - blk.d, blk.c)
    else (1.0, 0.0)
  }

  /**
   * `rot_2by2_real(m, e)`: the rotation `(v0 / h, -v1 / h)` whose first
   * column of the right factor is the normalised axis `v`. The division is
   * safe because the axis is never zero and `hypot` is positive off the origin.
   */
  function Rot2x2Real(blk: Block2, e: real, hypot: (real, real) -> real): (g: Rot)
    requires HypotPositive(hypot)
    ensures var v := RealAxis(blk, e);
      hypot(v.0, v.1) > 0.0 && g.c * hypot(v.0, v.1) == v.0 && g.s * hypot(v.0, v.1) == -v.1
  {
    var v := RealAxis(blk, e);
    var h := hypot(v.0, v.1);
    Rot(v.0 / h, -v.1 / h)
  }

  /** `(sqrt(p * p - 4 q) + p) / 2`: the larger real eigenvalue when the discriminant is non-negative. */
  function LargerEigenvalue(blk: Block2, root: real -> real): real
  {
    (root(Discriminant(blk)) + TraceOf(blk)) / 2.0
  }

  /**
   * `rot_2by2(m)`: the angle-based rotation for a complex pair, otherwise the
   * eigenvector rotation for the larger real eigenvalue.
   */
  function Rot2x2(blk: Block2, nm: Numerics): (g: Rot)
    requires Valid(nm)
    ensures Discriminant(blk) < 0.0 ==> g == nm.rotComplex(blk)
  {
    if Discriminant(blk) < 0.0 then nm.rotComplex(blk)
    else Rot2x2Real(blk, LargerEigenvalue(blk, nm.sqrt), nm.hypot)
  }

  /**
   * The block `G B G^T` after the left rotation of its two rows and the right
   * rotation of its two columns, as the kernels apply them.
   */
  function RotateBlock(g: Rot, blk: Block2): (r: Block2)
  {
    var l0 := ApplyLeft(g, blk.a, blk.c);
    var l1 := ApplyLeft(g, blk.b, blk.d);
    var r0 := ApplyLeft(g, l0.0, l1.0);
    var r1 := ApplyLeft(g, l0.1, l1.1);
    Block2(r0.0, r0.1, r1.0, r1.1)
  }

  /**
   * At matrix level: `givens_rot_left` on rows `i, i + 1` from column `i`
   * followed by `givens_rot_right` on columns `i, i + 1` of the rows above
   * `i + 2` turns the diagonal block at `i` into `RotateBlock(g, ..)`.
   */
  lemma RotatedBlockAt(g: Rot, m: Matrix, i: nat)
    requires IsSquare(m) && i + 1 < |m|
    ensures BlockAt(RotRight(g, RotLeft(g, m, i, i), i + 2, i), i) == RotateBlock(g, BlockAt(m, i))
  {
    var l := RotLeft(g, m, i, i);
    var l0 := ApplyLeft(g, m[i][i], m[i + 1][i]);
    var l1 := ApplyLeft(g, m[i][i + 1], m[i + 1][i + 1]);
    assert l[i][i] == l0.0 && l[i + 1][i] == l0.1;
    assert l[i][i + 1] == l1.0 && l[i + 1][i + 1] == l1.1;
  }

  /** A complex pair is only possible when the off-diagonal entries have opposite signs. */
  lemma ComplexPairHasOppositeOffDiagonals(blk: Block2)
    requires Discriminant(blk) < 0.0
    ensures blk.b * blk.c < 0.0
  {
    DiscriminantSplit(blk.a, blk.b, blk.c, blk.d);
    SqNonneg(blk.a - blk.d);
  }

  lemma DiscriminantSplit(a: real, b: real, c: real, d: real)
    ensures Sq(a + d) - 4.0 * (a * d - b * c) == Sq(a - d) + 4.0 * (b * c)
  {
    assert Id(a + d) == a + d;
    assert Id(a - d) == a - d;
  }

  /** `e = (s + p) / 2` with `s * s == p * p - 4 q` is a root of `x^2 - p x + q`. */
  lemma RootOfCharacteristic(p: real, q: real, s: real)
    requires Sq(s) == Sq(p) - 4.0 * q
    ensures var e := (s + p) / 2.0; Sq(e) - p * e + q == 0.0
  {
    var e := (s + p) / 2.0;
    assert Id(e) == e;
    assert Id(s) == s;
    assert Id(p) == p;
  }

  /**
   * With exact square roots, the eigenvalue `rot_2by2` uses for a real pair
   * satisfies the characteristic equation of the block.
   */
  lemma LargerEigenvalueIsRoot(blk: Block2, root: real -> real)
    requires ExactSqrt(root) && Discriminant(blk) >= 0.0
    ensures var e := LargerEigenvalue(blk, root); Sq(e) - TraceOf(blk) * e + DetOf(blk) == 0.0
  {
    RootOfCharacteristic(TraceOf(blk), DetOf(blk), root(Discriminant(blk)));
  }

  /** When `e` is an eigenvalue, `B v = e v` for the axis `rot_2by2_real` picks. */
  lemma {:induction false} RealAxisIsEigenvector(blk: Block2, e: real)
    requires Sq(e) - TraceOf(blk) * e + DetOf(blk) == 0.0
    requires blk.b != 0.0 || blk.c != 0.0
    ensures var v := RealAxis(blk, e);
      blk.a * v.0 + blk.b * v.1 == e * v.0 && blk.c * v.0 + blk.d * v.1 == e * v.1
  {
    var a, b, c, d := blk.a, blk.b, blk.c, blk.d;
    assert Id(e) == e;
    if b != 0.0 {
      FirstRowAxis(a, b, c, d, e);
    } else {
      SecondRowAxis(a, c, d, e);
    }
  }

  lemma FirstRowAxis(a: real, b: real, c: real, d: real, e: real)
    requires e * e - (a + d) * e + (a * d - b * c) == 0.0
    ensures a * b + b * (e - a) == e * b
    ensures c * b + d * (e - a) == e * (e - a)
  {
  }

  lemma SecondRowAxis(a: real, c: real, d: real, e: real)
    requires e * e - (a + d) * e + (a * d - 0.0 * c) == 0.0
    ensures a * (e - d) + 0.0 * c == e * (e - d)
    ensures c * (e - d) + d * c == e * c
  {
  }

  /** Dividing an eigen-equation `B v = e v` by `h` keeps it: `B (v / h) = e (v / h)`. */
  lemma ScaledEigen(a: real, b: real, c: real, d: real, e: real, x: real, y: real, h: real)
    requires h != 0.0
    requires a * x + b * y == e * x && c * x + d * y == e * y
    ensures a * (x / h) + b * (y / h) == e * (x / h)
    ensures c * (x / h) + d * (y / h) == e * (y / h)
  {
    assert a * (x / h) + b * (y / h) == (a * x + b * y) / h;
    assert c * (x / h) + d * (y / h) == (c * x + d * y) / h;
  }

  /**
   * The lower-left entry of `G B G^T` is `s (B w)_0 + c (B w)_1` with
   * `w = (c, -s)`, which vanishes when `w` is an eigenvector of `B`.
   */
  lemma LowerLeftVanishes(g: Rot, blk: Block2, e: real)
    requires blk.a * g.c - blk.b * g.s == e * g.c
    requires blk.c * g.c - blk.d * g.s == -(e * g.s)
    ensures RotateBlock(g, blk).c == 0.0
  {
    var c, s := g.c, g.s;
    var a, b, cc, d := blk.a, blk.b, blk.c, blk.d;
    assert RotateBlock(g, blk).c == c * (s * a + c * cc) - s * (s * b + c * d);
    assert c * (s * a + c * cc) - s * (s * b + c * d) == s * (a * c - b * s) + c * (cc * c - d * s);
    assert s * (e * c) + c * (-(e * s)) == 0.0;
  }

  /**
   * For a block with real eigenvalues, the rotation `rot_2by2` returns makes
   * the block upper triangular: the lower-left entry of `G B G^T` is zero
   * (with exact `sqrt`; `hypot` only needs to be positive off the origin).
   */
  lemma {:induction false} Rot2x2RealTriangularizes(blk: Block2, nm: Numerics)
    requires Valid(nm) && ExactSqrt(nm.sqrt)
    requires Discriminant(blk) >= 0.0
    ensures RotateBlock(Rot2x2(blk, nm), blk).c == 0.0
  {
    var e := LargerEigenvalue(blk, nm.sqrt);
    assert Rot2x2(blk, nm) == Rot2x2Real(blk, e, nm.hypot);
    if blk.b == 0.0 && blk.c == 0.0 {
      DiagonalStaysTriangular(blk, e, nm.hypot);
    } else {
      LargerEigenvalueIsRoot(blk, nm.sqrt);
      EigenRotationTriangularizes(blk, e, nm.hypot);
    }
  }

  lemma DiagonalStaysTriangular(blk: Block2, e: real, hypot: (real, real) -> real)
    requires HypotPositive(hypot)
    requires blk.b == 0.0 && blk.c == 0.0
    ensures RotateBlock(Rot2x2Real(blk, e, hypot), blk).c == 0.0
  {
    var g := Rot2x2Real(blk, e, hypot);
    assert g.s == 0.0;
  }

  lemma EigenRotationTriangularizes(blk: Block2, e: real, hypot: (real, real) -> real)
    requires HypotPositive(hypot)
    requires blk.b != 0.0 || blk.c != 0.0
    requires Sq(e) - TraceOf(blk) * e + DetOf(blk) == 0.0
    ensures RotateBlock(Rot2x2Real(blk, e, hypot), blk).c == 0.0
  {
    var g := Rot2x2Real(blk, e, hypot);
    RealAxisIsEigenvector(blk, e);
    var v := RealAxis(blk, e);
    var h := hypot(v.0, v.1);
    assert g.c == v.0 / h && -g.s == v.1 / h;
    ScaledEigen(blk.a, blk.b, blk.c, blk.d, e, v.0, v.1, h);
    LowerLeftVanishes(g, blk, e);
  }

  /** For a diagonal block with an exact `hypot`, `rot_2by2` is the identity rotation. */
  lemma DiagonalBlockGetsIdentity(blk: Block2, nm: Numerics)
    requires ExactHypot(nm.hypot)
    requires blk.b == 0.0 && blk.c == 0.0
    ensures HypotPositive(nm.hypot)
    ensures Rot2x2(blk, nm) == Rot(1.0, 0.0)
  {
    ExactHypotIsPositive(nm.hypot);
    DiscriminantSplit(blk.a, 0.0, 0.0, blk.d);
    SqNonneg(blk.a - blk.d);
    var h := nm.hypot(1.0, 0.0);
    assert Sq(h) == 1.0 && h > 0.0;
    UnitSquareRoot(h);
  }

  /** The only positive square root of 1 is 1. */
  lemma UnitSquareRoot(h: real)
    requires h > 0.0 && Sq(h) == 1.0
    ensures h == 1.0
  {
    if h < 1.0 {
      SqBelowOne(h);
    } else if h > 1.0 {
      SqAboveOne(h);
    }
  }

  lemma SqBelowOne(h: real)
    requires 0.0 < h < 1.0
    ensures Sq(h) < 1.0
  {
    assert h * h < 1.0 * h;
  }

  lemma SqAboveOne(h: real)
    requires h > 1.0
    ensures Sq(h) > 1.0
  {
    assert h * h > 1.0 * h;
  }

  /** With an exact `hypot`, the real-branch rotation is a unit pair. */
  lemma Rot2x2RealUnit(blk: Block2, e: real, hypot: (real, real) -> real)
    requires ExactHypot(hypot)
    ensures HypotPositive(hypot)
    ensures var g := Rot2x2Real(blk, e, hypot); Sq(g.c) + Sq(g.s) == 1.0
  {
    ExactHypotIsPositive(hypot);
    var v := RealAxis(blk, e);
    var h := hypot(v.0, v.1);
    UnitFromNorm(v.0, -v.1, h);
    SqNeg(v.1);
  }
}

=== FILE: checks.dfy ===
/**
 * Structural checks: relative deviations of a matrix from its masked
 * copies (upper triangular, upper Hessenberg, symmetric), the input test
 * for non-finite entries and the subdiagonal convergence test of the
 * Hessenberg QR iteration.
 */
module Checks {

  import opened Floats
  import opened Matrices

  /** The masked copy of `diff_triag`: zero strictly below the diagonal, `m` elsewhere. */
  function TriagMask(m: Matrix): (t: Matrix)
    requires IsSquare(m)
    ensures SameShape(m, t) && UpperTriangular(t)
    ensures forall i, j :: 0 <= i <= j < |m| ==> t[i][j] == m[i][j]
  {
    seq(|m|, i requires 0 <= i < |m| => seq(|m|, j requires 0 <= j < |m| => if j < i then 0.0 else m[i][j]))
  }

  /** The masked copy of `diff_subtriag`: zero below the first subdiagonal, `m` elsewhere. */
  function SubtriagMask(m: Matrix): (t: Matrix)
    requires IsSquare(m)
    ensures SameShape(m, t) && UpperHessenberg(t)
    ensures forall i, j :: 0 <= i < |m| && 0 <= j < |m| && i <= j + 1 ==> t[i][j] == m[i][j]
  {
    seq(|m|, i requires 0 <= i < |m| => seq(|m|, j requires 0 <= j < |m| => if j + 1 < i then 0.0 else m[i][j]))
  }

  /** The masked copy of `diff_symm`: the upper triangle mirrored into the lower one. */
  function SymmMask(m: Matrix): (t: Matrix)
    requires IsSquare(m)
    ensures SameShape(m, t) && Symmetric(t)
    ensures forall i, j :: 0 <= i <= j < |m| ==> t[i][j] == m[i][j]
  {
    seq(|m|, i requires 0 <= i < |m| => seq(|m|, j requires 0 <= j < |m| => if j < i then m[j][i] else m[i][j]))
  }

  /** Extensional equality of two square matrices of one size. */
  lemma MatrixExt(a: Matrix, b: Matrix)
    requires SameShape(a, b)
    requires forall i, j :: 0 <= i < |a| && 0 <= j < |a| ==> a[i][j] == b[i][j]
    ensures a == b
  {
    forall i | 0 <= i < |a|
      ensures a[i] == b[i]
    {
    }
  }

  /** The triangular mask leaves `m` unchanged exactly when `m` is upper triangular. */
  lemma TriagMaskFixesExactlyTriangular(m: Matrix)
    requires IsSquare(m)
    ensures TriagMask(m) == m <==> UpperTriangular(m)
  {
    if UpperTriangular(m) {
      MatrixExt(TriagMask(m), m);
    }
  }

  /** The sub-triangular mask leaves `m` unchanged exactly when `m` is upper Hessenberg. */
  lemma SubtriagMaskFixesExactlyHessenberg(m: Matrix)
    requires IsSquare(m)
    ensures SubtriagMask(m) == m <==> UpperHessenberg(m)
  {
    if UpperHessenberg(m) {
      MatrixExt(SubtriagMask(m), m);
    }
  }

  /** The symmetric mask leaves `m` unchanged exactly when `m` is symmetric. */
  lemma SymmMaskFixesExactlySymmetric(m: Matrix)
    requires IsSquare(m)
    ensures SymmMask(m) == m <==> Symmetric(m)
  {
    if Symmetric(m) {
      MatrixExt(SymmMask(m), m);
    }
  }

  /** The squared Frobenius norm: the sum of the squares of all entries. */
  function FrobSq(m: Matrix): real
  {
    if |m| == 0 then 0.0 else SumSquares(m[0]) + FrobSq(m[1..])
  }

  lemma {:induction false} FrobSqNonneg(m: Matrix)
    ensures FrobSq(m) >= 0.0
  {
    if |m| > 0 {
      SumSquaresNonneg(m[0]);
      FrobSqNonneg(m[1..]);
    }
  }

  /** A vector of zeros has zero sum of squares. */
  lemma {:induction false} SumSquaresOfZeros(v: seq<real>)
    requires forall t :: 0 <= t < |v| ==> v[t] == 0.0
    ensures SumSquares(v) == 0.0
  {
    if |v| > 0 {
      SumSquaresOfZeros(v[1..]);
    }
  }

  predicate IsZero(m: Matrix)
  {
    forall i, j :: 0 <= i < |m| && 0 <= j < |m[i]| ==> m[i][j] == 0.0
  }

  /** The squared Frobenius norm vanishes exactly on the zero matrix. */
  lemma {:induction false} FrobSqZero(m: Matrix)
    ensures FrobSq(m) == 0.0 <==> IsZero(m)
  {
    if |m| > 0 {
      FrobSqZero(m[1..]);
      SumSquaresNonneg(m[0]);
      FrobSqNonneg(m[1..]);
      if FrobSq(m) == 0.0 {
        SumSquaresZero(m[0]);
        forall i, j | 1 <= i < |m| && 0 <= j < |m[i]|
          ensures m[i][j] == 0.0
        {
          assert m[i] == m[1..][i - 1];
        }
      }
      if IsZero(m) {
        SumSquaresOfZeros(m[0]);
        assert IsZero(m[1..]) by {
          forall i, j | 0 <= i < |m[1..]| && 0 <= j < |m[1..][i]|
            ensures m[1..][i][j] == 0.0
          {
            assert m[1..][i] == m[i + 1];
          }
        }
      }
    }
  }

  /** `res - orig`, entry-wise. */
  function Diff(res: Matrix, orig: Matrix): (d: Matrix)
    requires SameShape(res, orig)
    ensures SameShape(res, d)
    ensures forall i, j :: 0 <= i < |res| && 0 <= j < |res| ==> d[i][j] == res[i][j] - orig[i][j]
  {
    seq(|res|, i requires 0 <= i < |res| => seq(|res|, j requires 0 <= j < |res| => res[i][j] - orig[i][j]))
  }

  /**
   * `diff_rel(orig, res)` as written: `frob_norm(res - orig) / frob_norm(orig)`
   * in IEEE arithmetic, so `0 / 0` is NaN.
   */
  function DiffRelAsWritten(orig: Matrix, res: Matrix, root: real -> real): (r: Double)
    requires SameShape(orig, res)
    ensures FrobSq(orig) == 0.0 && root(0.0) == 0.0 && root(FrobSq(Diff(res, orig))) == 0.0 ==> r == NaN
  {
    Div(root(FrobSq(Diff(res, orig))), root(FrobSq(orig)))
  }

  /**
   * `diff_rel` with the `0 / 0` case read as no deviation: the relative
   * deviation of the zero matrix from itself is 0.
   */
  function DiffRel(orig: Matrix, res: Matrix, root: real -> real): (r: Double)
    requires SameShape(orig, res)
    ensures FrobSq(orig) != 0.0 ==> r == DiffRelAsWritten(orig, res, root)
  {
    if FrobSq(orig) == 0.0 && FrobSq(Diff(res, orig)) == 0.0 then Finite(0.0)
    else DiffRelAsWritten(orig, res, root)
  }

  /**
   * With an exact `sqrt`, the corrected relative deviation is exactly 0 if
   * and only if the two matrices are equal.
   */
  lemma DiffRelZero(orig: Matrix, res: Matrix, root: real -> real)
    requires SameShape(orig, res)
    ensures ExactSqrt(root) ==> (DiffRel(orig, res, root) == Finite(0.0) <==> res == orig)
  {
    if ExactSqrt(root) {
      if res == orig {
        UnchangedByMaskIsExact(orig, res, root);
      }
      if DiffRel(orig, res, root) == Finite(0.0) {
        var d := Diff(res, orig);
        FrobSqNonneg(d);
        if !(FrobSq(orig) == 0.0 && FrobSq(d) == 0.0) {
          var r := Div(root(FrobSq(d)), root(FrobSq(orig)));
          assert r == Finite(0.0);
          assert root(FrobSq(d)) == 0.0;
          assert Sq(root(FrobSq(d))) == FrobSq(d);
        }
        FrobSqZero(d);
        forall i, j | 0 <= i < |res| && 0 <= j < |res|
          ensures res[i][j] == orig[i][j]
        {
          assert d[i][j] == 0.0;
        }
        MatrixExt(res, orig);
      }
    }
  }

  /** `diff_triag(m)`: with an exact `sqrt`, exactly 0 if and only if `m` is upper triangular. */
  function DiffTriag(m: Matrix, root: real -> real): (r: Double)
    requires IsSquare(m)
    ensures ExactSqrt(root) ==> (r == Finite(0.0) <==> UpperTriangular(m))
  {
    DiffRelZero(TriagMask(m), m, root);
    TriagMaskFixesExactlyTriangular(m);
    DiffRel(TriagMask(m), m, root)
  }

  /** `diff_subtriag(m)`: with an exact `sqrt`, exactly 0 if and only if `m` is upper Hessenberg. */
  function DiffSubtriag(m: Matrix, root: real -> real): (r: Double)
    requires IsSquare(m)
    ensures ExactSqrt(root) ==> (r == Finite(0.0) <==> UpperHessenberg(m))
  {
    DiffRelZero(SubtriagMask(m), m, root);
    SubtriagMaskFixesExactlyHessenberg(m);
    DiffRel(SubtriagMask(m), m, root)
  }

  /** `diff_symm(m)`: with an exact `sqrt`, exactly 0 if and only if `m` is symmetric. */
  function DiffSymm(m: Matrix, root: real -> real): (r: Double)
    requires IsSquare(m)
    ensures ExactSqrt(root) ==> (r == Finite(0.0) <==> Symmetric(m))
  {
    DiffRelZero(SymmMask(m), m, root);
    SymmMaskFixesExactlySymmetric(m);
    DiffRel(SymmMask(m), m, root)
  }

  /**
   * The gate `diff < sqrt(eps)` in IEEE arithmetic: a NaN or infinite
   * deviation never passes, nor does any deviation when `eps < 0` (its
   * square root is NaN); with an exact `sqrt` and `eps > 0`, a deviation of
   * 0 passes.
   */
  function Below(diff: Double, eps: real, root: real -> real): (b: bool)
    ensures diff == NaN || diff == PosInf || eps < 0.0 ==> !b
    ensures ExactSqrt(root) && eps > 0.0 && diff == Finite(0.0) ==> b
  {
    RootOfPositive(eps, root);
    Lt(diff, SqrtD(eps, root))
  }

  /** An exact square root of a positive number is positive. */
  lemma RootOfPositive(x: real, root: real -> real)
    ensures ExactSqrt(root) && x > 0.0 ==> root(x) > 0.0
  {
    if ExactSqrt(root) && x > 0.0 {
      assert Sq(root(x)) == x;
    }
  }

  /** A matrix that its mask leaves unchanged deviates by exactly 0 from it (exact `sqrt`). */
  lemma {:induction false} UnchangedByMaskIsExact(t: Matrix, m: Matrix, root: real -> real)
    requires SameShape(t, m) && t == m && ExactSqrt(root)
    ensures DiffRel(t, m, root) == Finite(0.0)
  {
    FrobSqZero(Diff(m, t));
    ExactSqrtOfZero(root);
    FrobSqNonneg(t);
    if FrobSq(t) != 0.0 {
      assert Sq(root(FrobSq(t))) != 0.0;
    }
  }

  /** An upper-triangular matrix passes the triangularity gate (exact `sqrt`, positive `eps`). */
  lemma TriangularPassesGate(m: Matrix, eps: real, root: real -> real)
    requires IsSquare(m) && UpperTriangular(m) && eps > 0.0 && ExactSqrt(root)
    ensures Below(DiffTriag(m, root), eps, root)
  {
    TriagMaskFixesExactlyTriangular(m);
    UnchangedByMaskIsExact(TriagMask(m), m, root);
  }

  /** An upper-Hessenberg matrix passes the quasi-triangularity gate. */
  lemma HessenbergPassesGate(m: Matrix, eps: real, root: real -> real)
    requires IsSquare(m) && UpperHessenberg(m) && eps > 0.0 && ExactSqrt(root)
    ensures Below(DiffSubtriag(m, root), eps, root)
  {
    SubtriagMaskFixesExactlyHessenberg(m);
    UnchangedByMaskIsExact(SubtriagMask(m), m, root);
  }

  /** A symmetric matrix passes the symmetry gate. */
  lemma SymmetricPassesGate(m: Matrix, eps: real, root: real -> real)
    requires IsSquare(m) && Symmetric(m) && eps > 0.0 && ExactSqrt(root)
    ensures Below(DiffSymm(m, root), eps, root)
  {
    SymmMaskFixesExactlySymmetric(m);
    UnchangedByMaskIsExact(SymmMask(m), m, root);
  }

  function Zeros(n: nat): (m: Matrix)
    ensures IsSquare(m) && |m| == n && IsZero(m) && UpperTriangular(m)
  {
    seq(n, i => seq(n, j => 0.0))
  }

  /**
   * As written, the zero matrix, already triangular, fails the gate:
   * `frob_norm(0) / frob_norm(0)` is NaN and NaN is not below anything.
   */
  lemma ZeroMatrixFailsGateAsWritten(n: nat, eps: real, root: real -> real)
    requires ExactSqrt(root)
    ensures DiffRelAsWritten(TriagMask(Zeros(n)), Zeros(n), root) == NaN
    ensures !Below(DiffRelAsWritten(TriagMask(Zeros(n)), Zeros(n), root), eps, root)
  {
    var z := Zeros(n);
    TriagMaskFixesExactlyTriangular(z);
    FrobSqZero(z);
    FrobSqZero(Diff(z, z));
    ExactSqrtOfZero(root);
  }

  /** A raw input matrix: `rows x cols` entries, each a double that may be non-finite. */
  datatype RawMatrix = RawMatrix(rows: nat, cols: nat, entries: seq<seq<Double>>)
  {
    /** The shape an ndarray guarantees. */
    predicate WellFormed()
    {
      |entries| == rows && forall i :: 0 <= i < rows ==> |entries[i]| == cols
    }

    predicate IsSquareShape()
    {
      rows == cols
    }
  }

  predicate AllFinite(a: RawMatrix)
    requires a.WellFormed()
  {
    forall i, j :: 0 <= i < a.rows && 0 <= j < a.cols ==> a.entries[i][j].Finite?
  }

  /** `finite_entries(m)`: a scan of every entry that stops at the first non-finite one. */
  method FiniteEntries(a: RawMatrix) returns (ok: bool)
    requires a.WellFormed()
    ensures ok <==> AllFinite(a)
  {
    var i := 0;
    while i < a.rows
      invariant i <= a.rows
      invariant forall i', j :: 0 <= i' < i && 0 <= j < a.cols ==> a.entries[i'][j].Finite?
    {
      var j := 0;
      while j < a.cols
        invariant j <= a.cols
        invariant forall j' :: 0 <= j' < j ==> a.entries[i][j'].Finite?
      {
        if !a.entries[i][j].Finite? {
          return false;
        }
        j := j + 1;
      }
      i := i + 1;
    }
    return true;
  }

  /** The real matrix of a finite square input. */
  function ToReal(a: RawMatrix): (m: Matrix)
    requires a.WellFormed() && a.IsSquareShape() && AllFinite(a)
    ensures IsSquare(m) && |m| == a.rows
    ensures forall i, j :: 0 <= i < a.rows && 0 <= j < a.rows ==> Finite(m[i][j]) == a.entries[i][j]
  {
    seq(a.rows, i requires 0 <= i < a.rows => seq(a.rows, j requires 0 <= j < a.rows => a.entries[i][j].value))
  }

  /** Every subdiagonal entry is below `eps` as a signed number, as `subdiag_convergence` tests it. */
  predicate SubdiagSignedBelow(m: Matrix, eps: real)
    requires IsSquare(m)
  {
    forall i :: 1 <= i < |m| ==> m[i][i - 1] < eps
  }

  /** Every subdiagonal entry is below `eps` in magnitude. */
  predicate SubdiagConverged(m: Matrix, eps: real)
    requires IsSquare(m)
  {
    forall i :: 1 <= i < |m| ==> Abs(m[i][i - 1]) < eps
  }

  /**
   * `subdiag_convergence(m, eps)` as written: the loop over `0..n - 1`
   * (which needs `n >= 1`) compares the subdiagonal entries signed.
   */
  method SubdiagConvergenceAsWritten(m: Matrix, eps: real) returns (ok: bool)
    requires IsSquare(m) && |m| >= 1
    ensures ok <==> SubdiagSignedBelow(m, eps)
  {
    var i := 0;
    while i < |m| - 1
      invariant i <= |m| - 1
      invariant forall i' :: 1 <= i' <= i ==> m[i'][i' - 1] < eps
    {
      if m[i + 1][i] >= eps {
        return false;
      }
      i := i + 1;
    }
    return true;
  }

  /** `subdiag_convergence` comparing magnitudes, as a convergence test must. */
  method SubdiagConvergence(m: Matrix, eps: real) returns (ok: bool)
    requires IsSquare(m) && |m| >= 1
    ensures ok <==> SubdiagConverged(m, eps)
  {
    var i := 0;
    while i < |m| - 1
      invariant i <= |m| - 1
      invariant forall i' :: 1 <= i' <= i ==> Abs(m[i'][i' - 1]) < eps
    {
      if Abs(m[i + 1][i]) >= eps {
        return false;
      }
      i := i + 1;
    }
    return true;
  }

  /** Magnitude convergence implies the signed test, never the other way round in general. */
  lemma ConvergedImpliesSignedBelow(m: Matrix, eps: real)
    requires IsSquare(m)
    ensures SubdiagConverged(m, eps) ==> SubdiagSignedBelow(m, eps)
  {
  }

  /** `[[0, 0], [-1, 0]]`: its subdiagonal entry is as large as the diagonal scale, but negative. */
  function NegativeSubdiagonal(): (m: Matrix)
    ensures IsSquare(m) && |m| == 2
  {
    [[0.0, 0.0], [-1.0, 0.0]]
  }

  /** The signed test accepts a subdiagonal entry of -1 as converged; the magnitude test does not. */
  lemma SignedTestAcceptsMinusOne(eps: real)
    requires 0.0 < eps < 1.0
    ensures SubdiagSignedBelow(NegativeSubdiagonal(), eps)
    ensures !SubdiagConverged(NegativeSubdiagonal(), eps)
  {
    var m := NegativeSubdiagonal();
    assert Abs(m[1][1 - 1]) == 1.0;
  }
}

=== FILE: common.dfy ===
/**
 * Helpers shared by the QR variants and the post-processing of a Schur
 * form: the deflation test, zeroing of negligible entries, the descending
 * sort of a diagonal with the columns of `U` moved along, and the walk that
 * reads eigenvalues off a quasi-triangular matrix.
 */
module Common {

  import opened Floats
  import opened Matrices

  /**
   * `eigval_collapsed`: the subdiagonal entry is negligible next to its two
   * diagonal neighbours. A collapse needs a positive `eps` and a non-zero
   * neighbour, so it never fires between two zero diagonal entries;
   * conversely an exactly zero subdiagonal entry collapses as soon as
   * `eps > 0` and a neighbour is non-zero.
   */
  function EigvalCollapsed(eps: real, sub: real, upper: real, lower: real): (c: bool)
    ensures c ==> eps > 0.0 && (upper != 0.0 || lower != 0.0)
    ensures sub == 0.0 && eps > 0.0 && (upper != 0.0 || lower != 0.0) ==> c
  {
    ScaleBound(eps, Abs(upper) + Abs(lower));
    Abs(sub) < eps * (Abs(upper) + Abs(lower))
  }

  /** The sign of `eps * t` for a non-negative scale `t`. */
  lemma ScaleBound(eps: real, t: real)
    ensures t >= 0.0 && (eps <= 0.0 || t == 0.0) ==> eps * t <= 0.0
    ensures eps > 0.0 && t > 0.0 ==> eps * t > 0.0
  {
    if eps > 0.0 && t > 0.0 {
      MulPos(eps, t);
    }
  }

  /** `zero_subeps_entries(m, eps)`: every entry of magnitude below `eps` becomes 0; the others are kept. */
  function ZeroSubeps(m: Matrix, eps: real): (r: Matrix)
    ensures |r| == |m| && forall i :: 0 <= i < |m| ==> |r[i]| == |m[i]|
    ensures IsSquare(m) ==> SameShape(m, r)
    ensures forall i, j :: 0 <= i < |m| && 0 <= j < |m[i]| ==>
      (Abs(m[i][j]) < eps ==> r[i][j] == 0.0) && (Abs(m[i][j]) >= eps ==> r[i][j] == m[i][j])
  {
    seq(|m|, i requires 0 <= i < |m| => seq(|m[i]|, j requires 0 <= j < |m[i]| =>
      if Abs(m[i][j]) < eps then 0.0 else m[i][j]))
  }

  /** After zeroing, no entry is non-zero and below `eps` in magnitude. */
  lemma ZeroSubepsLeavesNoSubeps(m: Matrix, eps: real)
    ensures var r := ZeroSubeps(m, eps);
      forall i, j :: 0 <= i < |r| && 0 <= j < |r[i]| ==> r[i][j] == 0.0 || Abs(r[i][j]) >= eps
  {
  }

  /** Zeroing twice is zeroing once. */
  lemma ZeroSubepsIdempotent(m: Matrix, eps: real)
    ensures ZeroSubeps(ZeroSubeps(m, eps), eps) == ZeroSubeps(m, eps)
  {
    var r := ZeroSubeps(m, eps);
    var rr := ZeroSubeps(r, eps);
    forall i | 0 <= i < |m|
      ensures rr[i] == r[i]
    {
      forall j | 0 <= j < |m[i]|
        ensures rr[i][j] == r[i][j]
      {
        if Abs(m[i][j]) < eps {
          assert r[i][j] == 0.0;
        }
      }
    }
  }

  /** `i` is placed before `j`: the larger value first, ties in index order (a stable descending sort). */
  predicate Before(z: seq<real>, i: nat, j: nat)
    requires i < |z| && j < |z|
  {
    z[i] > z[j] || (z[i] == z[j] && i < j)
  }

  /** `perm` lists each of `0 .. n` exactly once. */
  predicate IsPermutation(perm: seq<nat>, n: nat)
  {
    |perm| == n
    && (forall a :: 0 <= a < n ==> perm[a] < n)
    && (forall a, b :: 0 <= a < b < n ==> perm[a] != perm[b])
  }

  predicate InRange(perm: seq<nat>, n: nat)
  {
    forall a :: 0 <= a < |perm| ==> perm[a] < n
  }

  /** Any two positions of `perm` are in `Before` order. */
  predicate SortedBy(z: seq<real>, perm: seq<nat>)
    requires InRange(perm, |z|)
  {
    forall a, b :: 0 <= a < b < |perm| ==> Before(z, perm[a], perm[b])
  }

  /** `z` read through `perm`. */
  function Permute(z: seq<real>, perm: seq<nat>): (r: seq<real>)
    requires InRange(perm, |z|)
    ensures |r| == |perm| && forall a :: 0 <= a < |perm| ==> r[a] == z[perm[a]]
  {
    seq(|perm|, a requires 0 <= a < |perm| => z[perm[a]])
  }

  /** The columns of `u` read through `perm`: column `a` of the result is column `perm[a]` of `u`. */
  function PermuteColumns(u: Matrix, perm: seq<nat>, n: nat): (r: Matrix)
    requires forall i :: 0 <= i < |u| ==> |u[i]| == n
    requires InRange(perm, n)
    ensures |r| == |u|
    ensures forall i :: 0 <= i < |u| ==> |r[i]| == |perm| && forall a :: 0 <= a < |perm| ==> r[i][a] == u[i][perm[a]]
  {
    seq(|u|, i requires 0 <= i < |u| => Permute(u[i], perm))
  }

  /** Inserting `k` at `pos` keeps a `Before`-sorted list sorted when `pos` separates the values `>= z[k]` from the smaller ones. */
  lemma InsertKeepsSorted(z: seq<real>, perm: seq<nat>, k: nat, pos: nat)
    requires k < |z| && pos <= |perm| && InRange(perm, k) && SortedBy(z, perm)
    requires forall a :: 0 <= a < pos ==> z[perm[a]] >= z[k]
    requires pos < |perm| ==> z[perm[pos]] < z[k]
    ensures var p' := perm[..pos] + [k] + perm[pos..]; InRange(p', |z|) && SortedBy(z, p')
  {
    var p' := perm[..pos] + [k] + perm[pos..];
    assert forall a :: 0 <= a < pos ==> p'[a] == perm[a];
    assert p'[pos] == k;
    assert forall a :: pos < a < |p'| ==> p'[a] == perm[a - 1];
    forall a, b | 0 <= a < b < |p'|
      ensures Before(z, p'[a], p'[b])
    {
      if b < pos {
      } else if b == pos {
      } else if a < pos {
        assert Before(z, perm[a], perm[b - 1]);
      } else if a == pos {
        if b - 1 > pos {
          assert Before(z, perm[pos], perm[b - 1]);
        }
      } else {
        assert Before(z, perm[a - 1], perm[b - 1]);
      }
    }
  }

  /** Inserting a fresh index `k` into a duplicate-free list of indices below `k` keeps it duplicate-free. */
  lemma InsertKeepsDistinct(perm: seq<nat>, k: nat, pos: nat)
    requires pos <= |perm| && InRange(perm, k)
    requires forall a, b :: 0 <= a < b < |perm| ==> perm[a] != perm[b]
    ensures var p' := perm[..pos] + [k] + perm[pos..];
      forall a, b :: 0 <= a < b < |p'| ==> p'[a] != p'[b]
  {
    var p' := perm[..pos] + [k] + perm[pos..];
    assert forall a :: 0 <= a < pos ==> p'[a] == perm[a];
    assert forall a :: pos < a < |p'| ==> p'[a] == perm[a - 1];
  }

  /** Inserting index `k` at `pos` inserts the value `z[k]` at `pos` among the permuted values. */
  lemma InsertPermuted(z: seq<real>, perm: seq<nat>, k: nat, pos: nat)
    requires k < |z| && pos <= |perm| && InRange(perm, |z|)
    ensures var p' := perm[..pos] + [k] + perm[pos..]; var zs := Permute(z, perm);
      InRange(p', |z|) && Permute(z, p') == zs[..pos] + [z[k]] + zs[pos..]
      && multiset(Permute(z, p')) == multiset(zs) + multiset{z[k]}
  {
    var p' := perm[..pos] + [k] + perm[pos..];
    var zs := Permute(z, perm);
    PermuteInserted(z, perm, k, pos);
    MultisetInsert(zs, pos, z[k]);
  }

  /** Reading through `perm` with `k` inserted at `pos` inserts `z[k]` at `pos`. */
  lemma PermuteInserted(z: seq<real>, perm: seq<nat>, k: nat, pos: nat)
    requires k < |z| && pos <= |perm| && InRange(perm, |z|)
    ensures InRange(perm[..pos] + [k] + perm[pos..], |z|)
    ensures Permute(z, perm[..pos] + [k] + perm[pos..]) == Permute(z, perm)[..pos] + [z[k]] + Permute(z, perm)[pos..]
  {
    var p' := perm[..pos] + [k] + perm[pos..];
    assert forall a :: 0 <= a < pos ==> p'[a] == perm[a];
    assert forall a :: pos < a < |p'| ==> p'[a] == perm[a - 1];
  }

  /** Inserting `x` anywhere adds one `x` to the multiset. */
  lemma MultisetInsert(s: seq<real>, pos: nat, x: real)
    requires pos <= |s|
    ensures multiset(s[..pos] + [x] + s[pos..]) == multiset(s) + multiset{x}
  {
    assert s == s[..pos] + s[pos..];
  }

  /** The first position of `perm` whose value is below `z[k]`, or the end. */
  method InsertPosition(z: seq<real>, perm: seq<nat>, k: nat) returns (pos: nat)
    requires k < |z| && InRange(perm, |z|)
    ensures pos <= |perm|
    ensures forall a :: 0 <= a < pos ==> z[perm[a]] >= z[k]
    ensures pos < |perm| ==> z[perm[pos]] < z[k]
  {
    pos := 0;
    while pos < |perm| && z[perm[pos]] >= z[k]
      invariant pos <= |perm|
      invariant forall a :: 0 <= a < pos ==> z[perm[a]] >= z[k]
    {
      pos := pos + 1;
    }
  }

  /** `perm` sorts the first `k` indices of `z`. */
  predicate SortsPrefix(z: seq<real>, perm: seq<nat>, k: nat)
    requires k <= |z|
  {
    |perm| == k && InRange(perm, k)
    && (forall a, b :: 0 <= a < b < k ==> perm[a] != perm[b])
    && SortedBy(z, perm)
    && multiset(Permute(z, perm)) == multiset(z[..k])
  }

  /** One step of the insertion sort: inserting index `k` where it belongs extends the sorted prefix by one. */
  lemma InsertStep(z: seq<real>, perm: seq<nat>, k: nat, pos: nat)
    requires k < |z| && SortsPrefix(z, perm, k) && pos <= |perm|
    requires forall a :: 0 <= a < pos ==> z[perm[a]] >= z[k]
    requires pos < |perm| ==> z[perm[pos]] < z[k]
    ensures SortsPrefix(z, perm[..pos] + [k] + perm[pos..], k + 1)
  {
    InsertKeepsSorted(z, perm, k, pos);
    InsertKeepsDistinct(perm, k, pos);
    InsertPermuted(z, perm, k, pos);
    assert z[..k + 1] == z[..k] + [z[k]];
  }

  /**
   * The permutation `sort_diagonal_values` sorts by: indices of `z` in
   * descending order of value, ties in index order (the order a stable
   * sort produces). The values read through it are the values of `z`.
   */
  method SortPermutation(z: seq<real>) returns (perm: seq<nat>)
    ensures IsPermutation(perm, |z|) && SortedBy(z, perm)
    ensures multiset(Permute(z, perm)) == multiset(z)
  {
    perm := [];
    var k := 0;
    while k < |z|
      invariant k <= |z| && SortsPrefix(z, perm, k)
    {
      var pos := InsertPosition(z, perm, k);
      InsertStep(z, perm, k, pos);
      perm := perm[..pos] + [k] + perm[pos..];
      k := k + 1;
    }
    assert z[..k] == z;
  }

  /**
   * `sort_diagonal_values(z, u)`: `z` in non-increasing order, equal values
   * in their original order, and the columns of `u` moved by the same
   * permutation. The permutation is returned as well.
   */
  method SortDiagonalValues(z: seq<real>, u: Matrix) returns (z': seq<real>, u': Matrix, perm: seq<nat>)
    requires forall i :: 0 <= i < |u| ==> |u[i]| == |z|
    ensures IsPermutation(perm, |z|)
    ensures |z'| == |z| && forall a :: 0 <= a < |z| ==> z'[a] == z[perm[a]]
    ensures multiset(z') == multiset(z)
    ensures forall a, b :: 0 <= a < b < |z| ==> z'[a] >= z'[b]
    ensures forall a, b :: 0 <= a < b < |z| && z'[a] == z'[b] ==> perm[a] < perm[b]
    ensures |u'| == |u|
    ensures forall i :: 0 <= i < |u| ==> |u'[i]| == |z| && forall a :: 0 <= a < |z| ==> u'[i][a] == u[i][perm[a]]
  {
    perm := SortPermutation(z);
    z' := Permute(z, perm);
    u' := PermuteColumns(u, perm, |z|);
  }

  /** A complex number whose imaginary part comes out of `f64::sqrt` and may be NaN. */
  datatype Complex = Complex(re: real, im: Double)

  /**
   * The walk of `extract_eigenvalues` from index `i`, as written: it stops
   * as soon as fewer than two rows remain, reads a zero subdiagonal entry as
   * a real eigenvalue and anything else as a pair with imaginary part
   * `sqrt(sub * super)`.
   */
  function EigenWalkAsWritten(m: Matrix, root: real -> real, i: nat): (r: seq<Complex>)
    requires IsSquare(m) && i <= |m|
    ensures |m| <= i + 1 ==> r == []
    ensures i < |m| ==> |r| == |m| - i - 1 || |r| == |m| - i
    decreases |m| - i
  {
    if i + 1 >= |m| then []
    else if m[i + 1][i] == 0.0 then [Complex(m[i][i], Finite(0.0))] + EigenWalkAsWritten(m, root, i + 1)
    else
      var im := SqrtD(m[i + 1][i] * m[i][i + 1], root);
      [Complex(m[i][i], im), Complex(m[i][i], Neg(im))] + EigenWalkAsWritten(m, root, i + 2)
  }

  /**
   * The walk as evidently intended: a diagonal entry reached on its own is
   * a real eigenvalue even when it is the last one, and a pair's imaginary
   * part is `sqrt(-(sub * super))`.
   */
  function EigenWalk(m: Matrix, root: real -> real, i: nat): (r: seq<Complex>)
    requires IsSquare(m) && i <= |m|
    ensures |r| == |m| - i
    decreases |m| - i
  {
    if i == |m| then []
    else if i + 1 == |m| || m[i + 1][i] == 0.0 then [Complex(m[i][i], Finite(0.0))] + EigenWalk(m, root, i + 1)
    else
      var im := SqrtD(-(m[i + 1][i] * m[i][i + 1]), root);
      [Complex(m[i][i], im), Complex(m[i][i], Neg(im))] + EigenWalk(m, root, i + 2)
  }

  /** `extract_eigenvalues(m)` with both defects corrected, as a loop: one value per diagonal entry. */
  method ExtractEigenvalues(m: Matrix, root: real -> real) returns (eigs: seq<Complex>)
    requires IsSquare(m)
    ensures eigs == EigenWalk(m, root, 0)
    ensures |eigs| == |m|
  {
    var i := 0;
    eigs := [];
    while i < |m|
      invariant i <= |m|
      invariant eigs + EigenWalk(m, root, i) == EigenWalk(m, root, 0)
      decreases |m| - i
    {
      var re := m[i][i];
      if i + 1 == |m| || m[i + 1][i] == 0.0 {
        eigs := eigs + [Complex(re, Finite(0.0))];
        i := i + 1;
      } else {
        var im := SqrtD(-(m[i + 1][i] * m[i][i + 1]), root);
        eigs := eigs + [Complex(re, im), Complex(re, Neg(im))];
        i := i + 2;
      }
    }
  }

  /** The diagonal of `m` from index `i` on, as real eigenvalues. */
  function RealDiagonal(m: Matrix, i: nat): (r: seq<Complex>)
    requires IsSquare(m) && i <= |m|
    ensures |r| == |m| - i
    ensures forall t :: 0 <= t < |m| - i ==> r[t] == Complex(m[i + t][i + t], Finite(0.0))
  {
    seq(|m| - i, t requires 0 <= t < |m| - i => Complex(m[i + t][i + t], Finite(0.0)))
  }

  /** For an upper-triangular matrix the walk returns exactly its diagonal. */
  lemma {:induction false} TriangularEigenvaluesAreDiagonal(m: Matrix, root: real -> real, i: nat)
    requires IsSquare(m) && UpperTriangular(m) && i <= |m|
    ensures EigenWalk(m, root, i) == RealDiagonal(m, i)
    decreases |m| - i
  {
    if i < |m| {
      TriangularEigenvaluesAreDiagonal(m, root, i + 1);
      assert RealDiagonal(m, i) == [Complex(m[i][i], Finite(0.0))] + RealDiagonal(m, i + 1);
    }
  }

  /** As written, the walk over an upper-triangular matrix loses its last diagonal entry. */
  lemma {:induction false} AsWrittenLosesLastEigenvalue(m: Matrix, root: real -> real, i: nat)
    requires IsSquare(m) && UpperTriangular(m) && i < |m|
    ensures EigenWalkAsWritten(m, root, i) == RealDiagonal(m, i)[..|m| - i - 1]
    decreases |m| - i
  {
    if i + 1 < |m| {
      AsWrittenLosesLastEigenvalue(m, root, i + 1);
      assert RealDiagonal(m, i)[..|m| - i - 1] == [Complex(m[i][i], Finite(0.0))] + RealDiagonal(m, i + 1)[..|m| - i - 2];
    }
  }

  /** `diag(1, 2, 3)`. */
  function Diag123(): (m: Matrix)
    ensures IsSquare(m) && |m| == 3 && UpperTriangular(m)
  {
    [[1.0, 0.0, 0.0], [0.0, 2.0, 0.0], [0.0, 0.0, 3.0]]
  }

  /** `extract_eigenvalues(diag(1, 2, 3))` returns only `1` and `2`; the corrected walk returns all three. */
  lemma Diag123LosesThree(root: real -> real)
    ensures EigenWalkAsWritten(Diag123(), root, 0) == [Complex(1.0, Finite(0.0)), Complex(2.0, Finite(0.0))]
    ensures EigenWalk(Diag123(), root, 0) == [Complex(1.0, Finite(0.0)), Complex(2.0, Finite(0.0)), Complex(3.0, Finite(0.0))]
  {
    AsWrittenLosesLastEigenvalue(Diag123(), root, 0);
    TriangularEigenvaluesAreDiagonal(Diag123(), root, 0);
  }

  /** The rotation block `[[0, 1], [-1, 0]]`, whose eigenvalues are `i` and `-i`. */
  function QuarterTurn(): (m: Matrix)
    ensures IsSquare(m) && |m| == 2
  {
    [[0.0, 1.0], [-1.0, 0.0]]
  }

  /** As written, the imaginary part of a genuine complex pair is `sqrt` of a negative number: NaN. */
  lemma QuarterTurnGivesNaN(root: real -> real)
    ensures EigenWalkAsWritten(QuarterTurn(), root, 0) == [Complex(0.0, NaN), Complex(0.0, NaN)]
  {
  }

  /**
   * With an exact `sqrt`, the corrected pair read off a standardised block
   * `[[a, b], [c, a]]` with `b c < 0` is `a +- i w` with `w^2 == -(b c) > 0`:
   * both real and imaginary parts of the characteristic polynomial
   * `(x - a)^2 - b c` vanish at it.
   */
  lemma StandardPairIsRoot(m: Matrix, root: real -> real, i: nat)
    requires IsSquare(m) && i + 1 < |m| && ExactSqrt(root)
    requires m[i][i] == m[i + 1][i + 1] && m[i + 1][i] * m[i][i + 1] < 0.0
    ensures var r := EigenWalk(m, root, i);
      r[0].im.Finite? && r[1].im == Neg(r[0].im) && r[0].re == r[1].re == m[i][i]
      && Sq(r[0].im.value) > 0.0 && Sq(r[0].im.value) + m[i + 1][i] * m[i][i + 1] == 0.0
  {
    var w := root(-(m[i + 1][i] * m[i][i + 1]));
    assert Sq(w) == -(m[i + 1][i] * m[i][i + 1]);
  }
}

=== FILE: floats.dfy ===
/**
 * The parts of IEEE-754 double arithmetic the Schur engine's control flow
 * depends on, and the numeric kernels the model treats as opaque.
 *
 * Matrix entries are exact `real`s. Only the places where the library can
 * observe a non-finite value are modelled with `Double`: the input check
 * `finite_entries`, the relative deviations computed by `diff_rel` (which can
 * divide by zero) and `sqrt` of a negative number.
 */
module Floats {

  /** A double-precision value: finite, an infinity, or NaN. Signed zero is not distinguished. */
  datatype Double = Finite(value: real) | PosInf | NegInf | NaN

  function Id(x: real): real
  {
    x
  }

  /**
   * `x * x`. The second factor goes through `Id` so that the solver sees a
   * product of two terms rather than a power, which it handles poorly.
   */
  function Sq(x: real): real
  {
    x * Id(x)
  }

  function Abs(x: real): (r: real)
    ensures r >= 0.0
    ensures r == x || r == -x
  {
    if x < 0.0 then -x else x
  }

  /** Rust's `f64::signum` on a non-NaN value: +0.0 has sign 1.0. */
  function Signum(x: real): (r: real)
    ensures r == 1.0 || r == -1.0
    ensures r * x == Abs(x)
  {
    if x >= 0.0 then 1.0 else -1.0
  }

  /** IEEE-754 `<`: every comparison involving NaN is false. */
  predicate Lt(x: Double, y: Double)
  {
    match (x, y)
    case (NaN, _) => false
    case (_, NaN) => false
    case (Finite(a), Finite(b)) => a < b
    case (NegInf, _) => y != NegInf
    case (_, PosInf) => x != PosInf
    case _ => false
  }

  /** IEEE-754 division of two finite values: `0/0` is NaN, `a/0` an infinity. */
  function Div(a: real, b: real): (r: Double)
    ensures b != 0.0 <==> r.Finite?
    ensures b != 0.0 ==> r.value * b == a
    ensures b == 0.0 && a == 0.0 ==> r == NaN
  {
    if b != 0.0 then Finite(a / b)
    else if a == 0.0 then NaN
    else if a > 0.0 then PosInf
    else NegInf
  }

  /** `f64::sqrt`: NaN below zero, otherwise the value of the opaque kernel `root`. */
  function SqrtD(x: real, root: real -> real): (r: Double)
    ensures r == NaN <==> x < 0.0
    ensures x >= 0.0 ==> r == Finite(root(x))
  {
    if x < 0.0 then NaN else Finite(root(x))
  }

  function Neg(x: Double): Double
  {
    match x
    case Finite(v) => Finite(-v)
    case PosInf => NegInf
    case NegInf => PosInf
    case NaN => NaN
  }

  /** A 2x2 block `[[a, b], [c, d]]`. */
  datatype Block2 = Block2(a: real, b: real, c: real, d: real)

  /** A plane rotation `(cos, sin)`, as returned by `givens` and `rot_2by2`. */
  datatype Rot = Rot(c: real, s: real)

  /**
   * The numeric kernels the model does not compute: `f64::sqrt` on
   * non-negative arguments, `f64::hypot`, the angle-based rotation of
   * `rot_2by2_complex` (atan2, cos, sin), and classical Gram-Schmidt
   * `orthonormalize`, given entry-wise (entry `j` of vector `i`).
   */
  datatype Numerics = Numerics(
    sqrt: real -> real,
    hypot: (real, real) -> real,
    rotComplex: Block2 -> Rot,
    orthonormalize: (seq<seq<real>>, nat, nat) -> real)

  /** `hypot` is positive away from the origin: what every division by it relies on. */
  ghost predicate HypotPositive(h: (real, real) -> real)
  {
    forall x, y :: (x != 0.0 || y != 0.0) ==> h(x, y) > 0.0
  }

  /** `hypot` computed without rounding. */
  ghost predicate ExactHypot(h: (real, real) -> real)
  {
    forall x, y :: h(x, y) >= 0.0 && Sq(h(x, y)) == Sq(x) + Sq(y)
  }

  /** `sqrt` computed without rounding. */
  ghost predicate ExactSqrt(root: real -> real)
  {
    forall x :: x >= 0.0 ==> root(x) >= 0.0 && Sq(root(x)) == x
  }

  /** The assumption every kernel of the engine makes of its numerics. */
  ghost predicate Valid(nm: Numerics)
  {
    HypotPositive(nm.hypot)
  }

  lemma MulPos(a: real, b: real)
    requires a > 0.0 && b > 0.0
    ensures a * b > 0.0
  {
  }

  lemma SqPos(x: real)
    requires x != 0.0
    ensures Sq(x) > 0.0
  {
    if x > 0.0 {
      MulPos(x, Id(x));
    } else {
      MulPos(-x, -Id(x));
      assert (-x) * (-Id(x)) == x * Id(x);
    }
  }

  lemma SqNonneg(x: real)
    ensures Sq(x) >= 0.0
  {
    if x != 0.0 {
      SqPos(x);
    }
  }

  lemma SqMul(a: real, b: real)
    ensures Sq(a * b) == Sq(a) * Sq(b)
  {
  }

  lemma SqNeg(a: real)
    ensures Sq(-a) == Sq(a)
  {
  }

  /** `c2 + s2 == 1` from `c2 * n == x2`, `s2 * n == y2` and `n == x2 + y2 != 0`. */
  lemma UnitCore(c2: real, s2: real, n: real, x2: real, y2: real)
    requires c2 * n == x2 && s2 * n == y2 && n == x2 + y2 && n != 0.0
    ensures c2 + s2 == 1.0
  {
    SumScaled(c2, s2, n, x2, y2);
    CancelEq(c2 + s2, n, x2 + y2);
  }

  lemma SumScaled(c2: real, s2: real, n: real, x2: real, y2: real)
    requires c2 * n == x2 && s2 * n == y2
    ensures (c2 + s2) * n == x2 + y2
  {
  }

  lemma CancelEq(u: real, n: real, t: real)
    requires n != 0.0 && u * n == t && t == n
    ensures u == 1.0
  {
    assert u == (u * n) / n;
  }

  lemma ExactHypotIsPositive(h: (real, real) -> real)
    requires ExactHypot(h)
    ensures HypotPositive(h)
  {
    forall x, y | x != 0.0 || y != 0.0
      ensures h(x, y) > 0.0
    {
      SqNonneg(x);
      SqNonneg(y);
      if x != 0.0 {
        SqPos(x);
      } else {
        SqPos(y);
      }
      if h(x, y) == 0.0 {
        assert Sq(h(x, y)) == 0.0;
      }
    }
  }

  lemma ExactSqrtOfZero(root: real -> real)
    requires ExactSqrt(root)
    ensures root(0.0) == 0.0
  {
    if root(0.0) != 0.0 {
      SqPos(root(0.0));
    }
  }
}

=== FILE: francis.dfy ===
/**
 * The implicit double-shift (Francis) QR iteration on an upper-Hessenberg
 * matrix: the bulge-chasing step, the deflation loop around it, and the
 * final walk that rotates the remaining 2x2 diagonal blocks.
 */
module Francis {

  import opened Floats
  import opened Matrices
  import opened Givens
  import opened Householder
  import opened Blocks
  import opened Common
  import opened Types

  /**
   * `francis_reflection_axis(m, p)`: the first three entries of the first
   * column of `M^2 - t M + d I`, where `t` and `d` are the trace and the
   * determinant of the trailing block at `p - 1`. Reading `m[2][1]` needs
   * three rows, which `2 <= p < n` guarantees.
   */
  function ReflectionAxis(m: Matrix, p: nat): (v: seq<real>)
    requires IsSquare(m) && 2 <= p < |m|
    ensures |v| == 3
  {
    var blk := BlockAt(m, p - 1);
    var t := TraceOf(blk);
    var d := DetOf(blk);
    [m[0][0] * m[0][0] + m[0][1] * m[1][0] - t * m[0][0] + d,
     m[1][0] * (m[0][0] + m[1][1] - t),
     m[1][0] * m[2][1]]
  }

  /** The dot product of row `r` with a column that vanishes below its second entry. */
  lemma DotTwoTerms(a: seq<real>, b: seq<real>)
    requires |a| == |b| >= 2
    requires forall k :: 2 <= k < |b| ==> b[k] == 0.0
    ensures Dot(a, b) == a[0] * b[0] + a[1] * b[1]
  {
    DotCons(a, b);
    DotCons(a[1..], b[1..]);
    DotZeroRight(a[2..], b[2..]);
    assert a[1..][1..] == a[2..] && b[1..][1..] == b[2..];
  }

  /** A dot product with the zero vector vanishes. */
  lemma {:induction false} DotZeroRight(a: seq<real>, b: seq<real>)
    requires |a| == |b| && forall k :: 0 <= k < |b| ==> b[k] == 0.0
    ensures Dot(a, b) == 0.0
  {
    if |a| > 0 {
      DotCons(a, b);
      DotZeroRight(a[1..], b[1..]);
    }
  }

  /**
   * For an upper-Hessenberg `m`, the axis is the first column of the double
   * shift polynomial `M^2 - t M + d I`: entry `r` is row `r` of `M` dotted
   * with column 0 of `M`, minus `t m[r][0]`, plus `d` on the diagonal.
   */
  lemma AxisIsShiftPolynomialColumn(m: Matrix, p: nat, r: nat)
    requires IsSquare(m) && 2 <= p < |m| && UpperHessenberg(m) && r < 3
    ensures var blk := BlockAt(m, p - 1);
      ReflectionAxis(m, p)[r]
        == Dot(m[r], Column(m, 0)) - TraceOf(blk) * m[r][0] + (if r == 0 then DetOf(blk) else 0.0)
  {
    var col := Column(m, 0);
    assert forall k :: 2 <= k < |m| ==> col[k] == 0.0;
    DotTwoTerms(m[r], col);
    if r == 2 {
      assert m[2][0] == 0.0;
    }
  }

  /** `max(1, k) - 1`: the first column a bulge step reflects. */
  function FirstColumn(k: nat): nat
  {
    if k >= 1 then k - 1 else 0
  }

  /** `min(k + 4, p + 1)`: the number of rows a bulge step reflects on the right. */
  function RowLimit(k: nat, p: nat): nat
  {
    if k + 4 <= p + 1 then k + 4 else p + 1
  }

  /** Entries below row `p`, or more than three places below the diagonal, agree. */
  predicate FrameOfStep(a: Matrix, b: Matrix, p: nat)
    requires SameShape(a, b)
  {
    forall i, j :: 0 <= i < |a| && 0 <= j < |a| && (i > p || i > j + 3) ==> a[i][j] == b[i][j]
  }

  /** Columns after `p` agree. */
  predicate ColumnsAfterAgree(a: Matrix, b: Matrix, p: nat)
    requires SameShape(a, b)
  {
    forall i, j :: 0 <= i < |a| && p < j < |a| ==> a[i][j] == b[i][j]
  }

  /** Every column before `c` is zero from two places below the diagonal on. */
  predicate CleanColumns(m: Matrix, c: int)
    requires IsSquare(m)
  {
    forall i, j :: 0 <= j < c && j + 2 <= i < |m| ==> m[i][j] == 0.0
  }

  /**
   * Step `k` of the bulge chase: reflect rows `k .. k + 3` from column
   * `max(1, k) - 1` on, then columns `k .. k + 3` in the rows above
   * `min(k + 4, p + 1)`. Rows below `p`, entries more than three places
   * below the diagonal and the columns before `k - 1` are left alone.
   */
  function BulgeStep(refl: seq<real>, m: Matrix, k: nat, p: nat): (m': Matrix)
    requires IsSquare(m) && |refl| == 3 && k + 2 <= p < |m|
    ensures SameShape(m, m')
    ensures forall i, j :: 0 <= i < |m| && 0 <= j < |m| && (i > p || i > j + 3 || j + 1 < k) ==> m'[i][j] == m[i][j]
  {
    ReflRight(refl, ReflLeft(refl, m, k, FirstColumn(k)), RowLimit(k, p), k)
  }

  /**
   * With an exact square root, the step reflecting in the Householder
   * vector of the bulge column `m[k .. k + 3, k - 1]` pushes the bulge out
   * of that column: its two entries below the subdiagonal become zero.
   */
  lemma BulgeStepClearsColumn(m: Matrix, k: nat, p: nat, root: real -> real)
    requires IsSquare(m) && 1 <= k && k + 2 <= p < |m| && ExactSqrt(root)
    ensures var m' := BulgeStep(HouseholderVec(ColSegment(m, k, 3, k - 1), root), m, k, p);
      m'[k + 1][k - 1] == 0.0 && m'[k + 2][k - 1] == 0.0
  {
    var v := HouseholderVec(ColSegment(m, k, 3, k - 1), root);
    var l := ReflLeft(v, m, k, k - 1);
    ReflLeftAnnihilates(m, k, 3, k - 1, k - 1, root, l);
    BulgeStepKeepsLeftColumn(v, m, k, p);
  }

  /**
   * The right reflection of a bulge step writes only columns `k ..`, so
   * column `k - 1` below the diagonal is as the left reflection left it.
   */
  lemma BulgeStepKeepsLeftColumn(v: seq<real>, m: Matrix, k: nat, p: nat)
    requires IsSquare(m) && |v| == 3 && 1 <= k && k + 2 <= p < |m|
    ensures var l := ReflLeft(v, m, k, k - 1);
      var r := BulgeStep(v, m, k, p);
      r[k + 1][k - 1] == l[k + 1][k - 1] && r[k + 2][k - 1] == l[k + 2][k - 1]
  {
    var l := ReflLeft(v, m, k, FirstColumn(k));
    var r := ReflRight(v, l, RowLimit(k, p), k);
    assert AgreeOutside(l, r, 0, RowLimit(k, p), k, k + |v|);
    assert r[k + 1][k - 1] == l[k + 1][k - 1] && r[k + 2][k - 1] == l[k + 2][k - 1];
  }

  /** A three-entry column segment, entry by entry. */
  lemma ThreeSegment(m: Matrix, r0: nat, j: nat)
    requires IsSquare(m) && r0 + 3 <= |m| && j < |m|
    ensures ColSegment(m, r0, 3, j) == [m[r0][j], m[r0 + 1][j], m[r0 + 2][j]]
  {
  }

  /**
   * The vector the next bulge step reflects: column `k` from row `k + 1`,
   * keeping the previous third entry on the last step, where row `k + 3`
   * lies outside the window.
   */
  function NextAxis(m: Matrix, v: seq<real>, k: nat, p: nat): (v': seq<real>)
    requires IsSquare(m) && |v| == 3 && k + 2 <= p < |m|
    ensures |v'| == 3 && v'[0] == m[k + 1][k] && v'[1] == m[k + 2][k]
    ensures k + 2 < p ==> v'[2] == m[k + 3][k]
    ensures k + 2 == p ==> v'[2] == v[2]
  {
    if k + 2 < p then [m[k + 1][k], m[k + 2][k], m[k + 3][k]]
    else [m[k + 1][k], m[k + 2][k], v[2]]
  }

  /** A three-entry vector holding column `k - 1` from row `k` on is that column segment. */
  lemma AxisIsSegment(m: Matrix, v: seq<real>, k: nat)
    requires IsSquare(m) && |v| == 3 && 1 <= k && k + 3 <= |m|
    requires v[0] == m[k][k - 1] && v[1] == m[k + 1][k - 1] && v[2] == m[k + 2][k - 1]
    ensures v == ColSegment(m, k, 3, k - 1)
  {
    ThreeSegment(m, k, k - 1);
    assert v == [v[0], v[1], v[2]];
  }

  /** What holds at the head of step `k` of the bulge chase. */
  ghost predicate ChaseInvariant(m: Matrix, m': Matrix, p: nat, k: nat, root: real -> real)
    requires SameShape(m, m')
  {
    FrameOfStep(m, m', p)
    && (ExactSqrt(root) && UpperHessenberg(m) ==> CleanColumns(m', k - 1))
  }

  /**
   * The cleaning half of the invariant: a step that touches no column before
   * `k - 1` and clears the bulge out of column `k - 1` extends the clean
   * columns by one.
   */
  lemma CleanStep(m: Matrix, m': Matrix, m2: Matrix, p: nat, k: nat)
    requires SameShape(m, m') && SameShape(m, m2) && IsSquare(m) && p < |m| && k + 2 < |m|
    requires UpperHessenberg(m) && FrameOfStep(m, m', p) && CleanColumns(m', k - 1)
    requires forall i, j :: 0 <= i < |m| && 0 <= j < |m| && (i > j + 3 || j + 1 < k) ==> m2[i][j] == m'[i][j]
    requires k >= 1 ==> m2[k + 1][k - 1] == 0.0 && m2[k + 2][k - 1] == 0.0
    ensures CleanColumns(m2, k)
  {
    forall i, j | 0 <= j < k && j + 2 <= i < |m|
      ensures m2[i][j] == 0.0
    {
      if j + 1 < k {
        assert m2[i][j] == m'[i][j];
      } else if i > j + 3 {
        assert m2[i][j] == m'[i][j] == m[i][j];
      } else {
        assert j == k - 1 && (i == k + 1 || i == k + 2);
      }
    }
  }

  /** One bulge step keeps the invariant, moving it on by one column. */
  lemma ChaseStep(m: Matrix, m': Matrix, refl: seq<real>, p: nat, k: nat, root: real -> real)
    requires SameShape(m, m') && IsSquare(m) && |refl| == 3 && k + 2 <= p < |m|
    requires ChaseInvariant(m, m', p, k, root)
    requires k >= 1 ==> refl == HouseholderVec(ColSegment(m', k, 3, k - 1), root)
    ensures SameShape(m, BulgeStep(refl, m', k, p))
    ensures ChaseInvariant(m, BulgeStep(refl, m', k, p), p, k + 1, root)
  {
    var m2 := BulgeStep(refl, m', k, p);
    if ExactSqrt(root) && UpperHessenberg(m) {
      if k >= 1 {
        BulgeStepClearsColumn(m', k, p, root);
      }
      CleanStep(m, m', m2, p, k);
    }
  }

  /**
   * The closing Givens rotation of rows and columns `p - 1, p`, built from
   * the last bulge column, zeroes `m[p][p - 2]` and keeps the frame; after
   * a complete chase it leaves the matrix upper Hessenberg again.
   */
  lemma GivensFinish(m: Matrix, m': Matrix, p: nat, nm: Numerics)
    requires SameShape(m, m') && IsSquare(m) && 2 <= p < |m| && Valid(nm)
    requires ChaseInvariant(m, m', p, p - 1, nm.sqrt)
    ensures var rot := Givens.Givens(m'[p - 1][p - 2], m'[p][p - 2], nm.hypot);
      var m2 := RotRight(rot, RotLeft(rot, m', p - 1, p - 2), p + 1, p - 1);
      FrameOfStep(m, m2, p) && m2[p][p - 2] == 0.0
      && (ExactSqrt(nm.sqrt) && UpperHessenberg(m) ==> UpperHessenberg(m2))
  {
    var rot := Givens.Givens(m'[p - 1][p - 2], m'[p][p - 2], nm.hypot);
    RotLeftZeroes(m', p - 1, p - 2, p - 2, nm.hypot);
    var m2 := RotRight(rot, RotLeft(rot, m', p - 1, p - 2), p + 1, p - 1);
    if ExactSqrt(nm.sqrt) && UpperHessenberg(m) {
      forall i, j | 0 <= j && j + 1 < i < |m|
        ensures m2[i][j] == 0.0
      {
        if j + 2 < p {
          assert m2[i][j] == m'[i][j];
        } else if i > p {
          assert m2[i][j] == m[i][j];
        }
      }
    }
  }

  /**
   * `francis_qr_step(m, u, v, p, acc)`: chase the bulge created by the
   * reflection in `householder_vec(v)` down the active window `0 ..= p`,
   * then finish with a Givens rotation of rows and columns `p - 1, p`.
   *
   * Only rows up to `p` and entries at most three places below the diagonal
   * change, and `m[p][p - 2]` ends exactly zero; with an exact square root
   * an upper-Hessenberg input stays upper Hessenberg. `u` changes only in
   * columns up to `p`, and not at all when `acc` is off.
   */
  method FrancisQRStep(m: Matrix, u: Matrix, v0: seq<real>, p: nat, acc: bool, nm: Numerics)
    returns (m': Matrix, u': Matrix)
    requires IsSquare(m) && SameShape(m, u) && 2 <= p < |m| && |v0| == 3 && Valid(nm)
    ensures SameShape(m, m') && SameShape(u, u')
    ensures FrameOfStep(m, m', p)
    ensures m'[p][p - 2] == 0.0
    ensures ExactSqrt(nm.sqrt) && UpperHessenberg(m) ==> UpperHessenberg(m')
    ensures ColumnsAfterAgree(u, u', p)
    ensures !acc ==> u' == u
  {
    var v;
    m', u', v := ChaseBulge(m, u, v0, p, acc, nm);
    GivensFinish(m, m', p, nm);
    var rot := Givens.Givens(v[0], v[1], nm.hypot);
    m' := RotLeft(rot, m', p - 1, p - 2);
    m' := RotRight(rot, m', p + 1, p - 1);
    if acc {
      u' := RotRight(rot, u', |m|, p - 1);
    }
  }

  /**
   * The reflection steps of `francis_qr_step`, for `k` in `0 .. p - 1`:
   * each reflects rows and columns `k .. k + 3` of the window in the
   * Householder vector of the current bulge column (`v0` on the first
   * step). Returned with the matrices is the head of the last bulge column,
   * from which the closing rotation is built.
   */
  method ChaseBulge(m: Matrix, u: Matrix, v0: seq<real>, p: nat, acc: bool, nm: Numerics)
    returns (m': Matrix, u': Matrix, v: seq<real>)
    requires IsSquare(m) && SameShape(m, u) && 2 <= p < |m| && |v0| == 3
    ensures SameShape(m, m') && SameShape(u, u') && |v| == 3
    ensures ChaseInvariant(m, m', p, p - 1, nm.sqrt)
    ensures v[0] == m'[p - 1][p - 2] && v[1] == m'[p][p - 2]
    ensures ColumnsAfterAgree(u, u', p)
    ensures !acc ==> u' == u
  {
    m', u' := m, u;
    v := v0;
    var k := 0;
    while k < p - 1
      invariant k <= p - 1 && |v| == 3
      invariant SameShape(m, m') && SameShape(u, u')
      invariant ChaseInvariant(m, m', p, k, nm.sqrt)
      invariant 0 < k < p - 1 ==> v[2] == m'[k + 2][k - 1]
      invariant 0 < k ==> v[0] == m'[k][k - 1] && v[1] == m'[k + 1][k - 1]
      invariant ColumnsAfterAgree(u, u', p)
      invariant !acc ==> u' == u
    {
      m', u', v := ChaseOnce(m, m', u, u', v, p, k, acc, nm);
      k := k + 1;
    }
  }

  /**
   * Step `k` of the chase: reflect in the Householder vector of `v`, on
   * `m` and (when accumulating) on the columns `k .. k + 3` of `u`, and
   * read the next bulge column.
   */
  method ChaseOnce(m0: Matrix, m: Matrix, u0: Matrix, u: Matrix, v: seq<real>, p: nat, k: nat, acc: bool, nm: Numerics)
    returns (m': Matrix, u': Matrix, v': seq<real>)
    requires SameShape(m0, m) && SameShape(u0, u) && SameShape(m0, u0)
    requires k + 2 <= p < |m| && |v| == 3
    requires ChaseInvariant(m0, m, p, k, nm.sqrt)
    requires 0 < k ==> v[0] == m[k][k - 1] && v[1] == m[k + 1][k - 1] && v[2] == m[k + 2][k - 1]
    requires ColumnsAfterAgree(u0, u, p)
    requires !acc ==> u == u0
    ensures SameShape(m0, m') && SameShape(u0, u') && |v'| == 3
    ensures ChaseInvariant(m0, m', p, k + 1, nm.sqrt)
    ensures v'[0] == m'[k + 1][k] && v'[1] == m'[k + 2][k]
    ensures k + 2 < p ==> v'[2] == m'[k + 3][k]
    ensures ColumnsAfterAgree(u0, u', p)
    ensures !acc ==> u' == u0
  {
    if 0 < k {
      AxisIsSegment(m, v, k);
    }
    var refl := HouseholderVec(v, nm.sqrt);
    ChaseStep(m0, m, refl, p, k, nm.sqrt);
    m' := BulgeStep(refl, m, k, p);
    u' := u;
    if acc {
      u' := ReflRight(refl, u, |u|, k);
    }
    v' := NextAxis(m', v, k, p);
  }

  /**
   * Below the active window the matrix has deflated: `m[p + 1][p]` is zero,
   * and no two consecutive subdiagonal entries after it are both non-zero
   * (what remains there are 1x1 and 2x2 diagonal blocks).
   */
  predicate DeflatedBelow(m: Matrix, p: nat)
    requires IsSquare(m)
  {
    (p + 1 < |m| ==> m[p + 1][p] == 0.0)
    && forall j :: p < j && j + 1 < |m| ==> m[j][j - 1] == 0.0 || m[j + 1][j] == 0.0
  }

  /**
   * `qr_algorithm_francis(m, u, opts)`: deflate from the bottom while the
   * window is larger than 2x2 and the budget lasts. A deflation lowers `p`
   * by one or two, zeroing the entry it tested, without spending budget; a
   * QR step spends one unit. The window `p` and the step count `i` are
   * returned with the matrices.
   */
  method QRAlgorithmFrancis(m: Matrix, u: Matrix, opts: QROptions, nm: Numerics)
    returns (m': Matrix, u': Matrix, p: nat, i: nat)
    requires IsSquare(m) && SameShape(m, u) && |m| >= 1 && Valid(nm)
    ensures SameShape(m, m') && SameShape(u, u')
    ensures p <= |m| - 1 && i <= opts.iterations
    ensures p <= 1 || i == opts.iterations
    ensures DeflatedBelow(m', p)
    ensures ExactSqrt(nm.sqrt) && UpperHessenberg(m) ==> UpperHessenberg(m')
    ensures !opts.accumulateSimTransforms ==> u' == u
  {
    m', u' := m, u;
    p := |m| - 1;
    i := 0;
    while p > 1 && i < opts.iterations
      invariant SameShape(m, m') && SameShape(u, u')
      invariant p <= |m| - 1 && i <= opts.iterations
      invariant DeflatedBelow(m', p)
      invariant ExactSqrt(nm.sqrt) && UpperHessenberg(m) ==> UpperHessenberg(m')
      invariant !opts.accumulateSimTransforms ==> u' == u
      decreases opts.iterations - i, p
    {
      var q := p - 1;
      if EigvalCollapsed(opts.eps, m'[p][q], m'[q][q], m'[p][p]) {
        m' := Set(m', p, q, 0.0);
        p := p - 1;
        continue;
      } else if EigvalCollapsed(opts.eps, m'[p - 1][q - 1], m'[q - 1][q - 1], m'[q][q]) {
        m' := Set(m', p - 1, q - 1, 0.0);
        p := p - 2;
        continue;
      }
      var v := ReflectionAxis(m', p);
      var m1, u1 := FrancisQRStep(m', u', v, p, opts.accumulateSimTransforms, nm);
      m', u' := m1, u1;
      i := i + 1;
    }
  }

  /**
   * Rotating the 2x2 block at `i` from both sides: rows `i, i + 1` from
   * column `i` on, then columns `i, i + 1` in the rows above `i + 2`. Rows
   * from `i + 2` on and columns before `i` are left alone.
   */
  function RotateBlockAt(g: Rot, m: Matrix, i: nat): (m': Matrix)
    requires IsSquare(m) && i + 1 < |m|
    ensures SameShape(m, m')
    ensures forall r, c :: 0 <= r < |m| && 0 <= c < |m| && (r >= i + 2 || c < i) ==> m'[r][c] == m[r][c]
    ensures BlockAt(m', i) == RotateBlock(g, BlockAt(m, i))
  {
    RotatedBlockAt(g, m, i);
    RotRight(g, RotLeft(g, m, i, i), i + 2, i)
  }

  /**
   * The starts of the 2x2 blocks the walk rotates, from diagonal index `i`
   * on: a subdiagonal entry below `eps` in magnitude moves the walk on by
   * one, any other has its block rotated and moves it on by two. A rotation
   * at `i` writes no row from `i + 2` on, so every entry the walk tests
   * still holds its input value and the starts depend on the input alone.
   */
  function RotatedStarts(m: Matrix, eps: real, i: nat): (s: set<nat>)
    requires IsSquare(m) && i <= |m|
    ensures forall j :: j in s ==> i <= j && j + 1 < |m| && Abs(m[j + 1][j]) >= eps
    decreases |m| - i
  {
    if i + 1 >= |m| then {}
    else if Abs(m[i + 1][i]) < eps then RotatedStarts(m, eps, i + 1)
    else {i} + RotatedStarts(m, eps, i + 2)
  }

  /**
   * The shape of the walk: rotated blocks never overlap (a start is never
   * followed by another at the next index), and every subdiagonal entry of
   * at least `eps` is reached, either as the start of a rotated block or as
   * the entry just after one.
   */
  lemma {:induction false} RotatedStartsCover(m: Matrix, eps: real, i: nat)
    requires IsSquare(m) && i <= |m|
    ensures forall j :: j in RotatedStarts(m, eps, i) ==> j + 1 !in RotatedStarts(m, eps, i)
    ensures forall j :: i <= j && j + 1 < |m| && Abs(m[j + 1][j]) >= eps ==>
      j in RotatedStarts(m, eps, i) || (j >= 1 && j - 1 in RotatedStarts(m, eps, i))
    decreases |m| - i
  {
    if i + 1 < |m| {
      if Abs(m[i + 1][i]) < eps {
        RotatedStartsCover(m, eps, i + 1);
      } else {
        RotatedStartsCover(m, eps, i + 2);
        assert RotatedStarts(m, eps, i) == {i} + RotatedStarts(m, eps, i + 2);
      }
    }
  }

  /**
   * What holds at the head of the block walk at diagonal index `i`, with
   * `done` the blocks rotated so far: rows from `i` on and entries two or
   * more below the diagonal are untouched; a rotated block with real
   * eigenvalues has a zero subdiagonal entry (exact square root); every
   * other subdiagonal entry before `i` keeps its value.
   */
  ghost predicate BlockWalkInvariant(m: Matrix, m': Matrix, i: nat, done: set<nat>, root: real -> real)
    requires SameShape(m, m') && IsSquare(m)
  {
    (forall r, c :: i <= r < |m| && 0 <= c < |m| ==> m'[r][c] == m[r][c])
    && (forall r, c :: 0 <= c && c + 2 <= r < |m| ==> m'[r][c] == m[r][c])
    && (forall j :: j in done ==> j + 2 <= i && j + 1 < |m|)
    && (forall j :: j in done && j + 1 < |m| && ExactSqrt(root) && Discriminant(BlockAt(m, j)) >= 0.0 ==> m'[j + 1][j] == 0.0)
    && (forall j :: 0 <= j < i && j + 1 < |m| && j !in done ==> m'[j + 1][j] == m[j + 1][j])
  }

  /**
   * Rotating the block at `i` (whose subdiagonal entry is not below `eps`)
   * with `rot_2by2` records `i` as done and keeps the walk's invariant two
   * indices further on.
   */
  lemma BlockWalkStep(m: Matrix, m': Matrix, i: nat, done: set<nat>, eps: real, nm: Numerics)
    requires SameShape(m, m') && IsSquare(m) && i + 1 < |m| && Valid(nm)
    requires BlockWalkInvariant(m, m', i, done, nm.sqrt)
    requires Abs(m'[i + 1][i]) >= eps
    ensures var m2 := RotateBlockAt(Rot2x2(BlockAt(m', i), nm), m', i);
      SameShape(m, m2) && BlockWalkInvariant(m, m2, i + 2, done + {i}, nm.sqrt)
  {
    var blk := BlockAt(m', i);
    assert blk == BlockAt(m, i);
    var m2 := RotateBlockAt(Rot2x2(blk, nm), m', i);
    if ExactSqrt(nm.sqrt) && Discriminant(blk) >= 0.0 {
      Rot2x2RealTriangularizes(blk, nm);
    }
    assert m2[i + 1][i] == RotateBlock(Rot2x2(blk, nm), blk).c;
    forall r, c | 0 <= c && c + 2 <= r < |m|
      ensures m2[r][c] == m[r][c]
    {
      assert r >= i + 2 || c < i;
    }
    forall j | j in done && j + 1 < |m|
      ensures m2[j + 1][j] == m'[j + 1][j]
    {
      assert j < i;
    }
    forall j | 0 <= j < i + 2 && j + 1 < |m| && j !in done + {i}
      ensures m2[j + 1][j] == m[j + 1][j]
    {
      if j < i {
        assert m2[j + 1][j] == m'[j + 1][j];
      } else {
        assert j == i + 1 && m2[j + 1][j] == m'[j + 1][j];
      }
    }
  }

  /**
   * `francis_block_reduction(m, u, opts)`: walk down the diagonal; skip a
   * subdiagonal entry below `eps` in magnitude, otherwise rotate the 2x2
   * block there with `rot_2by2` and step over it.
   *
   * The blocks rotated are exactly `RotatedStarts(m, eps, 0)`. With an
   * exact square root each of them whose eigenvalues are real ends with a
   * zero subdiagonal entry; every subdiagonal entry that does not start a
   * rotated block, and every entry two or more below the diagonal, keeps
   * its value.
   */
  method FrancisBlockReduction(m: Matrix, u: Matrix, opts: QROptions, nm: Numerics)
    returns (m': Matrix, u': Matrix)
    requires IsSquare(m) && SameShape(m, u) && Valid(nm)
    ensures SameShape(m, m') && SameShape(u, u')
    ensures forall r, c :: 0 <= c && c + 2 <= r < |m| ==> m'[r][c] == m[r][c]
    ensures ExactSqrt(nm.sqrt) ==> forall j :: j in RotatedStarts(m, opts.eps, 0) && Discriminant(BlockAt(m, j)) >= 0.0 ==>
      m'[j + 1][j] == 0.0
    ensures forall j :: 0 <= j && j + 1 < |m| && j !in RotatedStarts(m, opts.eps, 0) ==> m'[j + 1][j] == m[j + 1][j]
    ensures forall j :: 1 <= j < |m| && Abs(m[j][j - 1]) < opts.eps ==> m'[j][j - 1] == m[j][j - 1]
    ensures !opts.accumulateSimTransforms ==> u' == u
  {
    var n := |m|;
    m', u' := m, u;
    var i := 0;
    ghost var done: set<nat> := {};
    while i + 1 < n
      invariant i <= n
      invariant SameShape(m, m') && SameShape(u, u')
      invariant BlockWalkInvariant(m, m', i, done, nm.sqrt)
      invariant RotatedStarts(m, opts.eps, 0) == done + RotatedStarts(m, opts.eps, i)
      invariant !opts.accumulateSimTransforms ==> u' == u
      decreases n - i
    {
      if Abs(m'[i + 1][i]) < opts.eps {
        i := i + 1;
        continue;
      }
      var rot := Rot2x2(BlockAt(m', i), nm);
      BlockWalkStep(m, m', i, done, opts.eps, nm);
      m' := RotateBlockAt(rot, m', i);
      if opts.accumulateSimTransforms {
        u' := RotRight(rot, u', n, i);
      }
      done := done + {i};
      i := i + 2;
    }
    assert RotatedStarts(m, opts.eps, i) == {};
    forall j | 1 <= j < |m| && Abs(m[j][j - 1]) < opts.eps
      ensures m'[j][j - 1] == m[j][j - 1]
    {
      assert j - 1 !in RotatedStarts(m, opts.eps, 0);
    }
  }
}

=== FILE: givens.dfy ===
/**
 * Plane (Givens) rotations: construction from two scalars and application
 * to a pair of rows or a pair of columns of a square matrix.
 */
module Givens {

  import opened Floats
  import opened Matrices

  /**
   * `givens(a, b)`: `(a / r, -b / r)` with `r = hypot(a, b)` when `b != 0`,
   * and the identity rotation `(1, 0)` otherwise.
   */
  function Givens(a: real, b: real, hypot: (real, real) -> real): (g: Rot)
    requires HypotPositive(hypot)
    ensures b == 0.0 ==> g == Rot(1.0, 0.0)
    ensures b != 0.0 ==> g.c * hypot(a, b) == a && g.s * hypot(a, b) == -b
  {
    if b != 0.0 then
      var r := hypot(a, b);
      Rot(a / r, -b / r)
    else
      Rot(1.0, 0.0)
  }

  /** The left action `[[c, -s], [s, c]] * (x, y)` on a column pair. */
  function ApplyLeft(g: Rot, x: real, y: real): (real, real)
  {
    (g.c * x - g.s * y, g.s * x + g.c * y)
  }

  /** The rotation matrix `givens_rot_left` multiplies by, as `[[m00, m01], [m10, m11]]`. */
  function LeftMatrix(g: Rot): Block2
  {
    Block2(g.c, -g.s, g.s, g.c)
  }

  /** The rotation matrix `givens_rot_right` multiplies by. */
  function RightMatrix(g: Rot): Block2
  {
    Block2(g.c, g.s, -g.s, g.c)
  }

  /**
   * `givens_rot_left(g, m[r..r + 2, c0..n])`: rows `r` and `r + 1` from
   * column `c0` on are replaced by their rotation; nothing else changes.
   */
  function RotLeft(g: Rot, m: Matrix, r: nat, c0: nat): (m': Matrix)
    requires IsSquare(m) && r + 1 < |m| && c0 <= |m|
    ensures SameShape(m, m')
    ensures AgreeOutside(m, m', r, r + 2, c0, |m|)
    ensures forall j :: c0 <= j < |m| ==>
      m'[r][j] == ApplyLeft(g, m[r][j], m[r + 1][j]).0 && m'[r + 1][j] == ApplyLeft(g, m[r][j], m[r + 1][j]).1
  {
    seq(|m|, i requires 0 <= i < |m| => seq(|m|, j requires 0 <= j < |m| =>
      if c0 <= j && i == r then ApplyLeft(g, m[r][j], m[r + 1][j]).0
      else if c0 <= j && i == r + 1 then ApplyLeft(g, m[r][j], m[r + 1][j]).1
      else m[i][j]))
  }

  /**
   * `givens_rot_right(g, m[0..r1, c..c + 2])`: columns `c` and `c + 1` in the
   * rows above `r1` are multiplied on the right by `RightMatrix(g)`; nothing
   * else changes.
   */
  function RotRight(g: Rot, m: Matrix, r1: nat, c: nat): (m': Matrix)
    requires IsSquare(m) && r1 <= |m| && c + 1 < |m|
    ensures SameShape(m, m')
    ensures AgreeOutside(m, m', 0, r1, c, c + 2)
    ensures forall i :: 0 <= i < r1 ==>
      m'[i][c] == ApplyLeft(g, m[i][c], m[i][c + 1]).0 && m'[i][c + 1] == ApplyLeft(g, m[i][c], m[i][c + 1]).1
  {
    seq(|m|, i requires 0 <= i < |m| => seq(|m|, j requires 0 <= j < |m| =>
      if i < r1 && j == c then ApplyLeft(g, m[i][c], m[i][c + 1]).0
      else if i < r1 && j == c + 1 then ApplyLeft(g, m[i][c], m[i][c + 1]).1
      else m[i][j]))
  }

  /** The right-rotation matrix is the transpose of the left one. */
  lemma RightIsTransposeOfLeft(g: Rot)
    ensures var l := LeftMatrix(g); RightMatrix(g) == Block2(l.a, l.c, l.b, l.d)
  {
  }

  /**
   * A right rotation of two full columns is the transpose of the left
   * rotation of the corresponding two rows of the transpose.
   */
  lemma {:induction false} RotRightIsTransposedRotLeft(g: Rot, m: Matrix, c: nat)
    requires IsSquare(m) && c + 1 < |m|
    ensures RotRight(g, m, |m|, c) == Transpose(RotLeft(g, Transpose(m), c, 0))
  {
    var lhs := RotRight(g, m, |m|, c);
    var rhs := Transpose(RotLeft(g, Transpose(m), c, 0));
    assert |lhs| == |rhs|;
    forall i | 0 <= i < |m|
      ensures lhs[i] == rhs[i]
    {
      assert |lhs[i]| == |rhs[i]|;
      forall j | 0 <= j < |m|
        ensures lhs[i][j] == rhs[i][j]
      {
      }
    }
  }

  /** Left-applying `givens(a, b)` to the column `(a, b)` zeroes its second component. */
  lemma GivensZeroesSecond(a: real, b: real, hypot: (real, real) -> real)
    requires HypotPositive(hypot)
    ensures ApplyLeft(Givens(a, b, hypot), a, b).1 == 0.0
    ensures b == 0.0 ==> ApplyLeft(Givens(a, b, hypot), a, b).0 == a
  {
    if b != 0.0 {
      var r := hypot(a, b);
      assert (-b / r) * a + (a / r) * b == 0.0;
    }
  }

  /** With an exact `hypot` and `b != 0`, the first component becomes `hypot(a, b)`. */
  lemma GivensFirstIsHypot(a: real, b: real, hypot: (real, real) -> real)
    requires ExactHypot(hypot)
    requires b != 0.0
    ensures HypotPositive(hypot)
    ensures ApplyLeft(Givens(a, b, hypot), a, b).0 == hypot(a, b)
  {
    ExactHypotIsPositive(hypot);
    var r := hypot(a, b);
    assert Sq(r) == Sq(a) + Sq(b);
    calc {
      ApplyLeft(Givens(a, b, hypot), a, b).0;
      (a / r) * a - (-b / r) * b;
      (Sq(a) + Sq(b)) / r;
      Sq(r) / r;
      r;
    }
  }

  /** With an exact `hypot`, `givens` returns a unit pair. */
  lemma GivensUnit(a: real, b: real, hypot: (real, real) -> real)
    requires ExactHypot(hypot)
    ensures HypotPositive(hypot)
    ensures var g := Givens(a, b, hypot); Sq(g.c) + Sq(g.s) == 1.0
  {
    ExactHypotIsPositive(hypot);
    if b != 0.0 {
      var r := hypot(a, b);
      UnitFromNorm(a, -b, r);
      SqNeg(b);
    }
  }

  /** `(x / r, y / r)` is a unit pair when `r` is the exact positive norm of `(x, y)`. */
  lemma UnitFromNorm(x: real, y: real, r: real)
    requires r > 0.0 && Sq(r) == Sq(x) + Sq(y)
    ensures Sq(x / r) + Sq(y / r) == 1.0
  {
    var c := x / r;
    var s := y / r;
    assert c * r == x && s * r == y;
    SqMul(c, r);
    SqMul(s, r);
    SqPos(r);
    UnitCore(Sq(c), Sq(s), Sq(r), Sq(x), Sq(y));
  }

  /** At matrix level: `givens_rot_left` with `givens(m[r, k], m[r + 1, k])` zeroes `m[r + 1, k]`. */
  lemma RotLeftZeroes(m: Matrix, r: nat, c0: nat, k: nat, hypot: (real, real) -> real)
    requires IsSquare(m) && r + 1 < |m| && c0 <= k < |m|
    requires HypotPositive(hypot)
    ensures RotLeft(Givens(m[r][k], m[r + 1][k], hypot), m, r, c0)[r + 1][k] == 0.0
  {
    GivensZeroesSecond(m[r][k], m[r + 1][k], hypot);
  }
}

=== FILE: hessenberg.dfy ===
/**
 * Reduction to upper-Hessenberg form by Householder reflections, and the
 * plain (unshifted) QR iteration on a Hessenberg matrix by Givens sweeps.
 */
module Hessenberg {

  import opened Floats
  import opened Matrices
  import opened Givens
  import opened Householder
  import opened Checks
  import Types

  /** Rust's `usize` subtraction with overflow checks: `None` is the panic. */
  function UsizeSub(a: nat, b: nat): (r: Option<nat>)
    ensures r.Some? <==> a >= b
    ensures r.Some? ==> r.value + b == a
  {
    if a >= b then Some(a - b) else None
  }

  datatype Option<T> = None | Some(value: T)

  /**
   * The number of reduction steps as the loop header `0..n - 2` computes it:
   * the subtraction panics for `n < 2`.
   */
  function ReductionStepsAsWritten(n: nat): (r: Option<nat>)
    ensures r.Some? <==> n >= 2
  {
    UsizeSub(n, 2)
  }

  /** A 1x1 matrix, which passes every validation check, makes the loop header panic. */
  lemma OneByOnePanicsAsWritten()
    ensures ReductionStepsAsWritten(1) == None
  {
  }

  /** The number of reduction steps, with no step for `n < 2` (a 0x0 or 1x1 matrix is already Hessenberg). */
  function ReductionSteps(n: nat): (r: nat)
    ensures n >= 2 ==> Some(r) == ReductionStepsAsWritten(n)
    ensures n < 2 ==> r == 0
  {
    if n >= 2 then n - 2 else 0
  }

  /**
   * Step `k` of `reduce_to_hessenberg_form`: the Householder vector of column
   * `k` below the diagonal reflects rows `k + 1 ..` from column `k` on, then
   * columns `k + 1 ..` of every row. Columns before `k` are not touched, and
   * column `k` only below its diagonal entry.
   */
  function ReductionStep(m: Matrix, k: nat, root: real -> real): (m': Matrix)
    requires IsSquare(m) && k + 2 <= |m|
    ensures SameShape(m, m')
    ensures forall i, j :: 0 <= i < |m| && 0 <= j < |m| && (j < k || (j == k && i <= k)) ==> m'[i][j] == m[i][j]
  {
    var v := HouseholderVec(ColSegment(m, k + 1, |m| - k - 1, k), root);
    ReflRight(v, ReflLeft(v, m, k + 1, k), |m|, k + 1)
  }

  /** The reflection step `k` applies to `u`: columns `k + 1 ..` of every row. */
  function ReductionStepOnU(m: Matrix, u: Matrix, k: nat, root: real -> real): (u': Matrix)
    requires IsSquare(m) && SameShape(m, u) && k + 2 <= |m|
    ensures SameShape(u, u')
    ensures forall i, j :: 0 <= i < |u| && 0 <= j <= k ==> u'[i][j] == u[i][j]
  {
    var v := HouseholderVec(ColSegment(m, k + 1, |m| - k - 1, k), root);
    ReflRight(v, u, |u|, k + 1)
  }

  /** Every column before `c` is zero below its first subdiagonal entry. */
  predicate HessenbergBefore(m: Matrix, c: nat)
    requires IsSquare(m)
  {
    forall i, j :: 0 <= j < c && j + 1 < i < |m| ==> m[i][j] == 0.0
  }

  /**
   * With an exact square root, step `k` clears column `k` below its first
   * subdiagonal entry and keeps the earlier columns, so one more column is
   * in Hessenberg form.
   */
  lemma ReductionStepClearsColumn(m: Matrix, k: nat, root: real -> real)
    requires IsSquare(m) && k + 2 <= |m| && ExactSqrt(root)
    requires HessenbergBefore(m, k)
    ensures HessenbergBefore(ReductionStep(m, k, root), k + 1)
  {
    var v := HouseholderVec(ColSegment(m, k + 1, |m| - k - 1, k), root);
    var l := ReflLeft(v, m, k + 1, k);
    ReflLeftAnnihilates(m, k + 1, |m| - k - 1, k, k, root, l);
    var r := ReflRight(v, l, |m|, k + 1);
    assert r == ReductionStep(m, k, root);
    NextColumnCleared(m, l, r, k);
  }

  /**
   * The column bookkeeping of one reduction step: earlier columns kept, and
   * column `k` zero below its subdiagonal after the left reflection and not
   * touched by the right one.
   */
  lemma NextColumnCleared(m: Matrix, l: Matrix, r: Matrix, k: nat)
    requires SameShape(m, l) && SameShape(m, r) && k + 2 <= |m|
    requires HessenbergBefore(m, k)
    requires forall i, j :: 0 <= i < |m| && 0 <= j < k ==> r[i][j] == m[i][j]
    requires forall i :: k + 2 <= i < |m| ==> l[i][k] == 0.0
    requires AgreeOutside(l, r, 0, |m|, k + 1, |m|)
    ensures HessenbergBefore(r, k + 1)
  {
    assert forall i :: k + 2 <= i < |m| ==> r[i][k] == l[i][k];
  }

  /**
   * `reduce_to_hessenberg_form(m, u)`, for every size: `n - 2` reflection
   * steps when `n >= 2`, none otherwise. `u` is always reflected (the
   * accumulation flag is not consulted).
   *
   * With an exact square root the result is upper Hessenberg. The first
   * column of `u` and the corner entry `m[0][0]` are never touched.
   */
  method ReduceToHessenbergForm(m: Matrix, u: Matrix, nm: Numerics) returns (m': Matrix, u': Matrix)
    requires IsSquare(m) && SameShape(m, u)
    ensures SameShape(m, m') && SameShape(u, u')
    ensures ExactSqrt(nm.sqrt) ==> UpperHessenberg(m')
    ensures forall i :: 0 <= i < |m| ==> u'[i][0] == u[i][0]
    ensures |m| >= 1 ==> m'[0][0] == m[0][0]
    ensures |m| < 2 ==> m' == m && u' == u
  {
    m', u' := m, u;
    var k := 0;
    while k < ReductionSteps(|m|)
      invariant k <= ReductionSteps(|m|)
      invariant SameShape(m, m') && SameShape(u, u')
      invariant ExactSqrt(nm.sqrt) ==> HessenbergBefore(m', k)
      invariant forall i :: 0 <= i < |m| ==> u'[i][0] == u[i][0]
      invariant |m| >= 1 ==> m'[0][0] == m[0][0]
      invariant k == 0 ==> m' == m && u' == u
    {
      m', u' := ReduceColumn(m', u', k, nm);
      k := k + 1;
    }
  }

  /**
   * One iteration of the reduction loop: step `k` on `m` and its right
   * reflection on `u`. It extends the Hessenberg columns by one when the
   * square root is exact, and keeps the first column of `u` and `m[0][0]`.
   */
  method ReduceColumn(m: Matrix, u: Matrix, k: nat, nm: Numerics) returns (m': Matrix, u': Matrix)
    requires IsSquare(m) && SameShape(m, u) && k + 2 <= |m|
    ensures SameShape(m, m') && SameShape(u, u')
    ensures ExactSqrt(nm.sqrt) && HessenbergBefore(m, k) ==> HessenbergBefore(m', k + 1)
    ensures forall i :: 0 <= i < |m| ==> u'[i][0] == u[i][0]
    ensures m'[0][0] == m[0][0]
  {
    if ExactSqrt(nm.sqrt) && HessenbergBefore(m, k) {
      ReductionStepClearsColumn(m, k, nm.sqrt);
    }
    u' := ReductionStepOnU(m, u, k, nm.sqrt);
    m' := ReductionStep(m, k, nm.sqrt);
  }

  /**
   * The left pass of a sweep: for `k` in `0 .. n - 1`, the Givens rotation
   * of `(m[k][k], m[k + 1][k])` applied to rows `k, k + 1` from column `k`
   * on. The rotations are returned for the right pass.
   *
   * Each rotation zeroes the entry below the diagonal it was built from, so
   * an upper-Hessenberg input leaves the pass upper triangular.
   */
  method LeftPass(m: Matrix, hypot: (real, real) -> real) returns (m': Matrix, gv: seq<Rot>)
    requires IsSquare(m) && |m| >= 1 && HypotPositive(hypot)
    ensures SameShape(m, m') && |gv| == |m| - 1
    ensures UpperHessenberg(m) ==> UpperTriangular(m')
  {
    var n := |m|;
    m' := m;
    gv := [];
    var k := 0;
    while k < n - 1
      invariant k <= n - 1 && |gv| == k
      invariant SameShape(m, m')
      invariant forall i, j :: k < i < n && 0 <= j < n ==> m'[i][j] == m[i][j]
      invariant UpperHessenberg(m) ==> forall i, j :: 0 <= j < k && j < i < n ==> m'[i][j] == 0.0
    {
      var g := Givens.Givens(m'[k][k], m'[k + 1][k], hypot);
      RotLeftZeroes(m', k, k, k, hypot);
      m' := RotLeft(g, m', k, k);
      gv := gv + [g];
      k := k + 1;
    }
  }

  /**
   * The right pass of a sweep: for each `k`, rotation `gv[k]` applied to
   * columns `k, k + 1` of the rows above `k + 2` in `m`, and of every row
   * in `u` (whatever the accumulation flag says). Only entries on or above
   * the first subdiagonal are written; that Hessenberg form is kept is a
   * corollary, stated for callers.
   */
  method RightPass(m: Matrix, u: Matrix, gv: seq<Rot>) returns (m': Matrix, u': Matrix)
    requires IsSquare(m) && SameShape(m, u) && |m| >= 1 && |gv| == |m| - 1
    ensures SameShape(m, m') && SameShape(u, u')
    ensures forall i, j :: 0 <= j && j + 1 < i < |m| ==> m'[i][j] == m[i][j]
    ensures UpperHessenberg(m) ==> UpperHessenberg(m')
  {
    var n := |m|;
    m', u' := m, u;
    var k := 0;
    while k < n - 1
      invariant k <= n - 1
      invariant SameShape(m, m') && SameShape(u, u')
      invariant forall i, j :: 0 <= j && j + 1 < i < n ==> m'[i][j] == m[i][j]
    {
      m' := RotRight(gv[k], m', k + 2, k);
      u' := RotRight(gv[k], u', n, k);
      k := k + 1;
    }
  }

  /**
   * `qr_algorithm_hessenberg(m, u, opts)`: up to `iterations` sweeps, each
   * preceded by `subdiag_convergence` (with the magnitude test, see
   * `Checks.SubdiagConvergence`); a converged matrix stops the loop before
   * any further sweep. The number of sweeps run is returned.
   *
   * An early stop means the subdiagonal has converged; an input that has
   * already converged is returned unchanged; Hessenberg form is kept.
   */
  method QRAlgorithmHessenberg(m: Matrix, u: Matrix, opts: Types.QROptions, nm: Numerics)
    returns (m': Matrix, u': Matrix, sweeps: nat)
    requires IsSquare(m) && SameShape(m, u) && |m| >= 1 && Valid(nm)
    ensures SameShape(m, m') && SameShape(u, u')
    ensures sweeps <= opts.iterations
    ensures sweeps < opts.iterations ==> SubdiagConverged(m', opts.eps)
    ensures SubdiagConverged(m, opts.eps) && opts.iterations > 0 ==> sweeps == 0 && m' == m && u' == u
    ensures UpperHessenberg(m) ==> UpperHessenberg(m')
  {
    m', u' := m, u;
    sweeps := 0;
    while sweeps < opts.iterations
      invariant sweeps <= opts.iterations
      invariant SameShape(m, m') && SameShape(u, u')
      invariant sweeps == 0 ==> m' == m && u' == u
      invariant sweeps > 0 ==> !SubdiagConverged(m, opts.eps)
      invariant UpperHessenberg(m) ==> UpperHessenberg(m')
    {
      var converged := SubdiagConvergence(m', opts.eps);
      if converged {
        return;
      }
      var m1, gv := LeftPass(m', nm.hypot);
      m', u' := RightPass(m1, u', gv);
      sweeps := sweeps + 1;
    }
  }
}

=== FILE: householder.dfy ===
/**
 * Householder reflections `I - 2 u u^T`: the unit axis that maps a vector
 * onto a multiple of the first coordinate vector, and the reflection of a
 * block of rows or columns of a square matrix.
 */
module Householder {

  import opened Floats
  import opened Matrices

  /** `norm(v)`: the square root of the sum of squares, through the opaque `sqrt`. */
  function Norm(v: seq<real>, root: real -> real): real
  {
    root(SumSquares(v))
  }

  /** `u[0] += u[0].signum() * norm(x)`: `x` with its first entry pushed away from zero. */
  function ShiftedAxis(x: seq<real>, root: real -> real): (w: seq<real>)
    requires |x| >= 1
    ensures |w| == |x| && w[1..] == x[1..]
    ensures w[0] == x[0] + Signum(x[0]) * Norm(x, root)
  {
    x[0 := x[0] + Signum(x[0]) * Norm(x, root)]
  }

  /**
   * `householder_vec(x)`: the shifted axis divided by its norm, or left as
   * it is when that norm is zero.
   */
  function HouseholderVec(x: seq<real>, root: real -> real): (u: seq<real>)
    requires |x| >= 1
    ensures |u| == |x|
    ensures Norm(ShiftedAxis(x, root), root) == 0.0 ==> u == ShiftedAxis(x, root)
  {
    var w := ShiftedAxis(x, root);
    var n := Norm(w, root);
    if n != 0.0 then Divided(w, n) else w
  }

  /** `w / n`, entry by entry. */
  function Divided(w: seq<real>, n: real): (r: seq<real>)
    requires n != 0.0
    ensures |r| == |w|
  {
    if |w| == 0 then [] else [w[0] / n] + Divided(w[1..], n)
  }

  /** Each entry of `w / n`, multiplied back by `n`, is the entry of `w`. */
  lemma {:induction false} DividedScales(w: seq<real>, n: real)
    requires n != 0.0
    ensures forall t :: 0 <= t < |w| ==> Divided(w, n)[t] * n == w[t]
  {
    if |w| > 0 {
      DividedScales(w[1..], n);
      var r := Divided(w, n);
      assert r == [w[0] / n] + Divided(w[1..], n);
      forall t | 0 <= t < |w|
        ensures r[t] * n == w[t]
      {
        if t > 0 {
          assert r[t] == Divided(w[1..], n)[t - 1];
        }
      }
    }
  }

  /** A normalised Householder vector, scaled back by the norm, is the shifted axis. */
  lemma HouseholderVecScaled(x: seq<real>, root: real -> real)
    requires |x| >= 1
    ensures var w := ShiftedAxis(x, root); var n := Norm(w, root);
      n != 0.0 ==> forall t :: 0 <= t < |x| ==> HouseholderVec(x, root)[t] * n == w[t]
  {
    var w := ShiftedAxis(x, root);
    var n := Norm(w, root);
    if n != 0.0 {
      DividedScales(w, n);
    }
  }

  /**
   * `householder_refl_left(u, m[r0..r0 + |u|, c0..n])`, that is
   * `m -= 2 u (u^T m)` on that block: column by column, from `c0` on, the
   * segment `x` in rows `r0 ..` becomes `x - 2 u <u, x>`; nothing else
   * changes.
   */
  function ReflLeft(u: seq<real>, m: Matrix, r0: nat, c0: nat): (m': Matrix)
    requires IsSquare(m) && r0 + |u| <= |m| && c0 <= |m|
    ensures SameShape(m, m')
    ensures AgreeOutside(m, m', r0, r0 + |u|, c0, |m|)
    ensures forall j: nat :: c0 <= j < |m| ==>
      ColSegment(m', r0, |u|, j) == Reflected(u, ColSegment(m, r0, |u|, j))
    decreases |m| - c0
  {
    if c0 == |m| then m
    else
      var rest := ReflLeft(u, m, r0, c0 + 1);
      var m' := WithColSegment(rest, r0, c0, Reflected(u, ColSegment(m, r0, |u|, c0)));
      OtherColumnsKept(rest, m', r0, |u|, c0);
      m'
  }

  /**
   * `householder_refl_right(u, m[0..r1, c0..c0 + |u|])`, that is
   * `m -= 2 (m u) u^T` on that block: row by row, above `r1`, the segment
   * `x` in columns `c0 ..` becomes `x - 2 u <u, x>`; nothing else changes.
   */
  function ReflRight(u: seq<real>, m: Matrix, r1: nat, c0: nat): (m': Matrix)
    requires IsSquare(m) && r1 <= |m| && c0 + |u| <= |m|
    ensures SameShape(m, m')
    ensures AgreeOutside(m, m', 0, r1, c0, c0 + |u|)
    ensures forall i: nat :: 0 <= i < r1 ==>
      RowSegment(m', i, c0, |u|) == Reflected(u, RowSegment(m, i, c0, |u|))
    decreases r1
  {
    if r1 == 0 then m
    else
      var rest := ReflRight(u, m, r1 - 1, c0);
      var m' := rest[r1 - 1 := Splice(m[r1 - 1], c0, Reflected(u, RowSegment(m, r1 - 1, c0, |u|)))];
      OtherRowsKept(rest, m', c0, |u|, r1 - 1);
      m'
  }

  /** `m` with the `|x|` entries of column `j` from row `r0` on replaced by `x`. */
  function WithColSegment(m: Matrix, r0: nat, j: nat, x: seq<real>): (m': Matrix)
    requires IsSquare(m) && r0 + |x| <= |m| && j < |m|
    ensures SameShape(m, m')
    ensures AgreeOutside(m, m', r0, r0 + |x|, j, j + 1)
    ensures forall t :: 0 <= t < |x| ==> m'[r0 + t][j] == x[t]
  {
    seq(|m|, i requires 0 <= i < |m| => if r0 <= i < r0 + |x| then m[i][j := x[i - r0]] else m[i])
  }

  /** `row` with the entries `c0 .. c0 + |x|` replaced by `x`. */
  function Splice(row: seq<real>, c0: nat, x: seq<real>): (r: seq<real>)
    requires c0 + |x| <= |row|
    ensures |r| == |row|
    ensures forall j :: 0 <= j < |row| && !(c0 <= j < c0 + |x|) ==> r[j] == row[j]
    ensures forall t :: 0 <= t < |x| ==> r[c0 + t] == x[t]
  {
    row[..c0] + x + row[c0 + |x|..]
  }

  /** Replacing column `c0`'s segment keeps the segments of the other columns. */
  lemma OtherColumnsKept(a: Matrix, b: Matrix, r0: nat, len: nat, c0: nat)
    requires SameShape(a, b) && r0 + len <= |a| && c0 < |a|
    requires AgreeOutside(a, b, r0, r0 + len, c0, c0 + 1)
    ensures forall j: nat :: j < |a| && j != c0 ==> ColSegment(b, r0, len, j) == ColSegment(a, r0, len, j)
  {
    forall j: nat | j < |a| && j != c0
      ensures ColSegment(b, r0, len, j) == ColSegment(a, r0, len, j)
    {
      assert forall t :: 0 <= t < len ==> ColSegment(b, r0, len, j)[t] == ColSegment(a, r0, len, j)[t];
    }
  }

  /** Replacing row `r`'s segment keeps the segments of the other rows. */
  lemma OtherRowsKept(a: Matrix, b: Matrix, c0: nat, len: nat, r: nat)
    requires SameShape(a, b) && c0 + len <= |a| && r < |a|
    requires forall i :: 0 <= i < |a| && i != r ==> b[i] == a[i]
    ensures forall i: nat :: i < |a| && i != r ==> RowSegment(b, i, c0, len) == RowSegment(a, i, c0, len)
  {
  }

  lemma {:induction false} DotSelf(v: seq<real>)
    ensures Dot(v, v) == SumSquares(v)
  {
    if |v| > 0 {
      DotCons(v, v);
      DotSelf(v[1..]);
    }
  }

  /** Scaling the first factor by `n` scales the dot product by `n`. */
  lemma {:induction false} DotScaled(u: seq<real>, w: seq<real>, x: seq<real>, n: real)
    requires |u| == |w| == |x|
    requires forall t :: 0 <= t < |u| ==> u[t] * n == w[t]
    ensures Dot(u, x) * n == Dot(w, x)
  {
    if |u| > 0 {
      DotCons(u, x);
      DotCons(w, x);
      DotScaled(u[1..], w[1..], x[1..], n);
      ScaledTerm(u[0], x[0], n, w[0], Dot(u[1..], x[1..]), Dot(w[1..], x[1..]));
    }
  }

  lemma ScaledTerm(a: real, b: real, n: real, c: real, r: real, rn: real)
    requires a * n == c && r * n == rn
    ensures (a * b + r) * n == c * b + rn
  {
    assert (a * b) * n == (a * n) * b;
  }

  /** The algebra behind the reflection: `|w|^2 == 2 <w, x>` for the shifted axis `w`. */
  lemma AxisAlgebra(x0: real, sigma: real, rest: real)
    requires Sq(sigma) == Sq(x0) + rest
    ensures Sq(x0 + sigma) + rest == 2.0 * ((x0 + sigma) * x0 + rest)
  {
    assert Id(x0 + sigma) == x0 + sigma;
    assert Id(x0) == x0;
    assert Id(sigma) == sigma;
  }

  /** `x_t - 2 u_t <u, x> == x_t - w_t` for `u = w / n`, `<u, x> = <w, x> / n` and `n^2 == 2 <w, x>`. */
  lemma ReflectCore(yt: real, xt: real, ut: real, du: real, wt: real, d: real, nw: real)
    requires nw != 0.0 && Sq(nw) == 2.0 * d && ut * nw == wt && du * nw == d
    requires yt == xt - 2.0 * ut * du
    ensures yt == xt - wt
  {
    var p := 2.0 * ut * du;
    assert p * Sq(nw) == 2.0 * (ut * nw) * (du * nw) by {
      assert Id(nw) == nw;
    }
    assert p * Sq(nw) == wt * Sq(nw);
    SqPos(nw);
    CancelCommon(p, wt, Sq(nw));
  }

  lemma CancelCommon(a: real, b: real, k: real)
    requires k != 0.0 && a * k == b * k
    ensures a == b
  {
    assert a == (a * k) / k;
  }

  /** `Sq(signum(x) * n) == Sq(n)`. */
  lemma SignedSq(x: real, n: real)
    ensures Sq(Signum(x) * n) == Sq(n)
  {
    if x < 0.0 {
      SqNeg(n);
    }
  }

  /** The shifted axis `w` satisfies `|w|^2 == 2 <w, x>` when `sqrt` is exact. */
  lemma {:induction false} ShiftedAxisNorm(x: seq<real>, root: real -> real)
    requires |x| >= 1 && ExactSqrt(root)
    ensures SumSquares(ShiftedAxis(x, root)) == 2.0 * Dot(ShiftedAxis(x, root), x)
  {
    var w := ShiftedAxis(x, root);
    var nx := Norm(x, root);
    var sigma := Signum(x[0]) * nx;
    var rest := SumSquares(x[1..]);
    SumSquaresNonneg(x);
    assert Sq(nx) == SumSquares(x);
    SignedSq(x[0], nx);
    assert SumSquares(x) == Sq(x[0]) + rest;
    AxisAlgebra(x[0], sigma, rest);
    DotSelf(x[1..]);
    DotCons(w, x);
    assert SumSquares(w) == Sq(x[0] + sigma) + rest;
    assert Dot(w, x) == (x[0] + sigma) * x[0] + rest;
  }

  /** `x - 2 d u`. */
  function MinusTwice(x: seq<real>, u: seq<real>, d: real): (y: seq<real>)
    requires |u| == |x|
    ensures |y| == |x|
    ensures forall t :: 0 <= t < |x| ==> y[t] == x[t] - 2.0 * u[t] * d
  {
    seq(|x|, t requires 0 <= t < |x| => x[t] - 2.0 * u[t] * d)
  }

  /** `(I - 2 u u^T) x`. */
  function Reflected(u: seq<real>, x: seq<real>): (y: seq<real>)
    requires |u| == |x|
    ensures |y| == |x|
  {
    MinusTwice(x, u, Dot(u, x))
  }

  lemma ReflectedIs(u: seq<real>, x: seq<real>, d: real)
    requires |u| == |x| && d == Dot(u, x)
    ensures Reflected(u, x) == MinusTwice(x, u, d)
  {
  }

  /** The zero vector is orthogonal to everything. */
  lemma {:induction false} DotZero(u: seq<real>, x: seq<real>)
    requires |u| == |x| && forall t :: 0 <= t < |u| ==> u[t] == 0.0
    ensures Dot(u, x) == 0.0
  {
    if |u| > 0 {
      DotCons(u, x);
      DotZero(u[1..], x[1..]);
    }
  }

  /** Reflection in `u = w / n` subtracts `w` from `x` when `n^2 == 2 <w, x>`. */
  lemma ReflectNormalized(x: seq<real>, w: seq<real>, u: seq<real>, nw: real)
    requires |w| == |x| == |u| && nw != 0.0 && Sq(nw) == 2.0 * Dot(w, x)
    requires forall t :: 0 <= t < |u| ==> u[t] * nw == w[t]
    ensures forall t :: 0 <= t < |x| ==> Reflected(u, x)[t] == x[t] - w[t]
  {
    var d := Dot(w, x);
    var du := Dot(u, x);
    DotScaled(u, w, x, nw);
    ReflectedIs(u, x, du);
    var y := MinusTwice(x, u, du);
    forall t | 0 <= t < |x|
      ensures y[t] == x[t] - w[t]
    {
      ReflectCore(y[t], x[t], u[t], du, w[t], d, nw);
    }
  }

  /**
   * With exact `sqrt`, `(I - 2 u u^T) x == x - w` for `u = householder_vec(x)`
   * and the shifted axis `w`, whether or not the normalisation took place.
   */
  lemma {:induction false} ReflectionSubtractsAxis(x: seq<real>, root: real -> real)
    requires |x| >= 1 && ExactSqrt(root)
    ensures var y := Reflected(HouseholderVec(x, root), x); var w := ShiftedAxis(x, root);
      forall t :: 0 <= t < |x| ==> y[t] == x[t] - w[t]
  {
    var w := ShiftedAxis(x, root);
    var nw := Norm(w, root);
    var u := HouseholderVec(x, root);
    ShiftedAxisNorm(x, root);
    SumSquaresNonneg(w);
    assert Sq(nw) == SumSquares(w);
    if nw == 0.0 {
      assert SumSquares(w) == 0.0;
      SumSquaresZero(w);
      assert u == w;
      ReflectInZeroAxis(x, w);
    } else {
      HouseholderVecScaled(x, root);
      ReflectNormalized(x, w, u, nw);
    }
  }

  /** Reflection "in" the zero vector leaves `x` alone, which is `x - w` for `w == 0`. */
  lemma ReflectInZeroAxis(x: seq<real>, w: seq<real>)
    requires |w| == |x| && forall t :: 0 <= t < |w| ==> w[t] == 0.0
    ensures forall t :: 0 <= t < |x| ==> Reflected(w, x)[t] == x[t] - w[t]
  {
    DotZero(w, x);
    ReflectedIs(w, x, 0.0);
  }

  /**
   * With exact `sqrt`, reflecting `x` in the axis `householder_vec(x)`
   * leaves `-signum(x[0]) * norm(x)` in the first entry and zero in every
   * other.
   */
  lemma {:induction false} HouseholderAnnihilates(x: seq<real>, root: real -> real)
    requires |x| >= 1 && ExactSqrt(root)
    ensures var y := Reflected(HouseholderVec(x, root), x);
      y[0] == -(Signum(x[0]) * Norm(x, root)) && forall t :: 1 <= t < |x| ==> y[t] == 0.0
  {
    var w := ShiftedAxis(x, root);
    ReflectionSubtractsAxis(x, root);
    forall t | 1 <= t < |x|
      ensures x[t] == w[t]
    {
      assert x[t] == x[1..][t - 1] == w[1..][t - 1] == w[t];
    }
  }

  /** A column segment that vanishes after its head leaves those matrix entries zero. */
  lemma SegmentZeroAfterHead(r: Matrix, r0: nat, j: nat, y: seq<real>)
    requires IsSquare(r) && r0 + |y| <= |r| && j < |r|
    requires ColSegment(r, r0, |y|, j) == y
    requires forall t :: 1 <= t < |y| ==> y[t] == 0.0
    ensures forall i :: r0 + 1 <= i < r0 + |y| ==> r[i][j] == 0.0
  {
    forall i | r0 + 1 <= i < r0 + |y|
      ensures r[i][j] == 0.0
    {
      assert r[i][j] == ColSegment(r, r0, |y|, j)[i - r0];
    }
  }

  /**
   * At matrix level: reflecting rows `r0 .. r0 + len` (from column `c0` on)
   * in the Householder vector of column `j`'s segment there zeroes that
   * segment below its head. `reduce_to_hessenberg_form` uses it on a whole
   * column tail, the Francis bulge chase on three rows.
   */
  lemma ReflLeftAnnihilates(m: Matrix, r0: nat, len: nat, j: nat, c0: nat, root: real -> real, r: Matrix)
    requires IsSquare(m) && len >= 1 && r0 + len <= |m| && c0 <= j < |m| && ExactSqrt(root)
    requires r == ReflLeft(HouseholderVec(ColSegment(m, r0, len, j), root), m, r0, c0)
    ensures forall i :: r0 + 1 <= i < r0 + len ==> r[i][j] == 0.0
  {
    var x := ColSegment(m, r0, len, j);
    var u := HouseholderVec(x, root);
    HouseholderAnnihilates(x, root);
    SegmentZeroAfterHead(r, r0, j, Reflected(u, x));
  }
}

=== FILE: matrices.dfy ===
/**
 * Dense square matrices of exact reals, and the slice operations the
 * kernels use in place of ndarray views.
 */
module Matrices {

  import opened Floats

  type Matrix = seq<seq<real>>

  /** Every row has as many entries as there are rows. */
  predicate IsSquare(m: Matrix)
  {
    forall i :: 0 <= i < |m| ==> |m[i]| == |m|
  }

  predicate SameShape(a: Matrix, b: Matrix)
  {
    IsSquare(a) && IsSquare(b) && |a| == |b|
  }

  function Identity(n: nat): (e: Matrix)
    ensures IsSquare(e) && |e| == n
    ensures forall i, j :: 0 <= i < n && 0 <= j < n ==> e[i][j] == (if i == j then 1.0 else 0.0)
  {
    seq(n, i => seq(n, j => if i == j then 1.0 else 0.0))
  }

  /** `m[[i, j]] = v`. */
  function Set(m: Matrix, i: nat, j: nat, v: real): (r: Matrix)
    requires IsSquare(m) && i < |m| && j < |m|
    ensures SameShape(m, r) && r[i][j] == v
    ensures forall a, b :: 0 <= a < |m| && 0 <= b < |m| && (a != i || b != j) ==> r[a][b] == m[a][b]
  {
    m[i := m[i][j := v]]
  }

  /** `a` and `b` agree on every entry outside rows `[r0, r1)` x columns `[c0, c1)`. */
  predicate AgreeOutside(a: Matrix, b: Matrix, r0: nat, r1: nat, c0: nat, c1: nat)
    requires SameShape(a, b)
  {
    forall i, j :: 0 <= i < |a| && 0 <= j < |a| && !(r0 <= i < r1 && c0 <= j < c1) ==> a[i][j] == b[i][j]
  }

  /** The `len` entries of column `j` from row `r0` on: the ndarray slice `m[r0..r0 + len, j]`. */
  function ColSegment(m: Matrix, r0: nat, len: nat, j: nat): (v: seq<real>)
    requires IsSquare(m) && r0 + len <= |m| && j < |m|
    ensures |v| == len
    ensures forall t :: 0 <= t < len ==> v[t] == m[r0 + t][j]
  {
    seq(len, t requires 0 <= t < len => m[r0 + t][j])
  }

  /** The `len` entries of row `i` from column `c0` on: the ndarray slice `m[i, c0..c0 + len]`. */
  function RowSegment(m: Matrix, i: nat, c0: nat, len: nat): (v: seq<real>)
    requires IsSquare(m) && i < |m| && c0 + len <= |m|
    ensures |v| == len
    ensures forall t :: 0 <= t < len ==> v[t] == m[i][c0 + t]
  {
    m[i][c0..c0 + len]
  }

  /** The sum of the entries. */
  function Sum(v: seq<real>): real
  {
    if |v| == 0 then 0.0 else v[0] + Sum(v[1..])
  }

  /** The entry-wise products of two vectors of equal length. */
  function Products(a: seq<real>, b: seq<real>): (p: seq<real>)
    requires |a| == |b|
    ensures |p| == |a|
    ensures forall t :: 0 <= t < |a| ==> p[t] == a[t] * b[t]
  {
    seq(|a|, t requires 0 <= t < |a| => a[t] * b[t])
  }

  /**
   * The dot product, as the sum of the entry-wise products. (Kept apart
   * from `Sum` so that the recursion never multiplies a recursive call.)
   */
  function Dot(a: seq<real>, b: seq<real>): real
    requires |a| == |b|
  {
    Sum(Products(a, b))
  }

  /** The dot product peels off its first term. */
  lemma DotCons(a: seq<real>, b: seq<real>)
    requires |a| == |b| && |a| > 0
    ensures Dot(a, b) == a[0] * b[0] + Dot(a[1..], b[1..])
  {
    var p := Products(a, b);
    var q := Products(a[1..], b[1..]);
    forall t | 0 <= t < |q|
      ensures p[1..][t] == q[t]
    {
      assert a[1..][t] == a[t + 1] && b[1..][t] == b[t + 1];
    }
    assert p[1..] == q;
  }

  /** The squared Euclidean norm. */
  function SumSquares(v: seq<real>): real
  {
    if |v| == 0 then 0.0 else Sq(v[0]) + SumSquares(v[1..])
  }

  lemma {:induction false} SumSquaresNonneg(v: seq<real>)
    ensures SumSquares(v) >= 0.0
  {
    if |v| > 0 {
      SumSquaresNonneg(v[1..]);
      SqNonneg(v[0]);
    }
  }

  /** A vector with zero sum of squares is the zero vector. */
  lemma {:induction false} SumSquaresZero(v: seq<real>)
    requires SumSquares(v) == 0.0
    ensures forall t :: 0 <= t < |v| ==> v[t] == 0.0
  {
    if |v| > 0 {
      SumSquaresNonneg(v[1..]);
      SqNonneg(v[0]);
      if v[0] != 0.0 {
        SqPos(v[0]);
      }
      SumSquaresZero(v[1..]);
      forall t | 1 <= t < |v|
        ensures v[t] == 0.0
      {
        assert v[t] == v[1..][t - 1];
      }
    }
  }

  function Transpose(m: Matrix): (t: Matrix)
    requires IsSquare(m)
    ensures SameShape(m, t)
    ensures forall i, j :: 0 <= i < |m| && 0 <= j < |m| ==> t[i][j] == m[j][i]
  {
    seq(|m|, i requires 0 <= i < |m| => seq(|m|, j requires 0 <= j < |m| => m[j][i]))
  }

  function Column(m: Matrix, j: nat): seq<real>
    requires IsSquare(m) && j < |m|
  {
    ColSegment(m, 0, |m|, j)
  }

  function MatMul(a: Matrix, b: Matrix): (c: Matrix)
    requires SameShape(a, b)
    ensures SameShape(a, c)
  {
    seq(|a|, i requires 0 <= i < |a| => seq(|a|, j requires 0 <= j < |a| => Dot(a[i], Column(b, j))))
  }

  /** The sum of the diagonal. */
  function Trace(m: Matrix, n: nat): real
    requires IsSquare(m) && n <= |m|
  {
    if n == 0 then 0.0 else Trace(m, n - 1) + m[n - 1][n - 1]
  }

  predicate Symmetric(m: Matrix)
    requires IsSquare(m)
  {
    forall i, j :: 0 <= i < |m| && 0 <= j < |m| ==> m[i][j] == m[j][i]
  }

  /** Zero strictly below the diagonal. */
  predicate UpperTriangular(m: Matrix)
    requires IsSquare(m)
  {
    forall i, j :: 0 <= j < i < |m| ==> m[i][j] == 0.0
  }

  /** Zero below the first subdiagonal. */
  predicate UpperHessenberg(m: Matrix)
    requires IsSquare(m)
  {
    forall i, j :: 0 <= j && j + 1 < i < |m| ==> m[i][j] == 0.0
  }

  /** Two matrices with the same diagonal outside `[k, k + 2)` and the same sum on it have the same trace. */
  lemma {:induction false} TraceFrame(a: Matrix, b: Matrix, k: nat, n: nat)
    requires SameShape(a, b) && k + 1 < |a| && n <= |a|
    requires forall t :: 0 <= t < |a| && t != k && t != k + 1 ==> a[t][t] == b[t][t]
    requires a[k][k] + a[k + 1][k + 1] == b[k][k] + b[k + 1][k + 1]
    ensures n <= k ==> Trace(a, n) == Trace(b, n)
    ensures n >= k + 2 ==> Trace(a, n) == Trace(b, n)
  {
    if n > 0 {
      TraceFrame(a, b, k, n - 1);
      if n == k + 2 {
        TraceFrame(a, b, k, k);
      }
    }
  }
}

=== FILE: qr_basic.dfy ===
/**
 * The unshifted QR decomposition by Gram-Schmidt and the naive QR
 * iteration built on it.
 */
module QRBasic {

  import opened Floats
  import opened Matrices
  import Types

  /**
   * `Q` of `qr_decomposition`: the columns of `m`, orthonormalised. The
   * Gram-Schmidt arithmetic is the opaque `orthonormalize` kernel, applied to
   * the list of columns (the rows of the transpose); column `c` of `Q` is
   * its vector `c`.
   */
  function GramSchmidtQ(m: Matrix, nm: Numerics): (q: Matrix)
    requires IsSquare(m)
    ensures SameShape(m, q)
    ensures forall r, c :: 0 <= r < |m| && 0 <= c < |m| ==> q[r][c] == nm.orthonormalize(Transpose(m), c, r)
  {
    var cols := Transpose(m);
    seq(|m|, r requires 0 <= r < |m| => seq(|m|, c requires 0 <= c < |m| => nm.orthonormalize(cols, c, r)))
  }

  /** Upper triangular, with `r[j][i]` the dot product of column `j` of `q` with column `i` of `m` on and above the diagonal. */
  predicate IsRFactor(r: Matrix, q: Matrix, m: Matrix)
    requires SameShape(q, m) && SameShape(m, r)
  {
    UpperTriangular(r)
    && forall j, i :: 0 <= j <= i < |m| ==> r[j][i] == Dot(Column(q, j), Column(m, i))
  }

  /** The `R` factor for a given `Q`. */
  function RFactor(q: Matrix, m: Matrix): (r: Matrix)
    requires SameShape(q, m)
    ensures SameShape(m, r) && IsRFactor(r, q, m)
  {
    seq(|m|, j requires 0 <= j < |m| => seq(|m|, i requires 0 <= i < |m| =>
      if j <= i then Dot(Column(q, j), Column(m, i)) else 0.0))
  }

  /**
   * `qr_decomposition(m)`: `Q` from Gram-Schmidt, then `R` filled column by
   * column on and above the diagonal, the rest left at zero.
   */
  method QRDecomposition(m: Matrix, nm: Numerics) returns (q: Matrix, r: Matrix)
    requires IsSquare(m)
    ensures q == GramSchmidtQ(m, nm)
    ensures SameShape(m, r) && IsRFactor(r, q, m)
  {
    var n := |m|;
    q := GramSchmidtQ(m, nm);
    r := seq(n, _ => seq(n, _ => 0.0));
    var i := 0;
    while i < n
      invariant i <= n && SameShape(m, r)
      invariant forall a, b :: 0 <= a < n && 0 <= b < n && (b >= i || a > b) ==> r[a][b] == 0.0
      invariant forall j, b :: 0 <= j <= b < i ==> r[j][b] == Dot(Column(q, j), Column(m, b))
    {
      r := FillColumn(r, q, m, i);
      i := i + 1;
    }
  }

  /** The inner loop of `qr_decomposition`: entries `0 ..= i` of column `i` of `R`. */
  method FillColumn(r0: Matrix, q: Matrix, m: Matrix, i: nat) returns (r: Matrix)
    requires SameShape(q, m) && SameShape(m, r0) && i < |m|
    ensures SameShape(m, r)
    ensures forall a, b :: 0 <= a < |m| && 0 <= b < |m| && (b != i || a > i) ==> r[a][b] == r0[a][b]
    ensures forall j :: 0 <= j <= i ==> r[j][i] == Dot(Column(q, j), Column(m, i))
  {
    r := r0;
    var j := 0;
    while j <= i
      invariant j <= i + 1 && SameShape(m, r)
      invariant forall a, b :: 0 <= a < |m| && 0 <= b < |m| && (b != i || a >= j) ==> r[a][b] == r0[a][b]
      invariant forall j' :: 0 <= j' < j ==> r[j'][i] == Dot(Column(q, j'), Column(m, i))
    {
      r := Set(r, j, i, Dot(Column(q, j), Column(m, i)));
      j := j + 1;
    }
  }

  /** Row `j` of the transpose is column `j`. */
  lemma TransposeRowIsColumn(q: Matrix, j: nat)
    requires IsSquare(q) && j < |q|
    ensures Transpose(q)[j] == Column(q, j)
  {
  }

  /**
   * `R` is `Q^T M` on and above the diagonal; when every later column of `Q`
   * is orthogonal to every earlier column of `M` (what Gram-Schmidt arranges
   * in exact arithmetic) it is `Q^T M` everywhere.
   */
  lemma RFactorIsQTransposeM(q: Matrix, m: Matrix)
    requires SameShape(q, m)
    ensures forall j, i :: 0 <= j <= i < |m| ==> RFactor(q, m)[j][i] == MatMul(Transpose(q), m)[j][i]
    ensures (forall j, i :: 0 <= i < j < |m| ==> Dot(Column(q, j), Column(m, i)) == 0.0) ==>
      RFactor(q, m) == MatMul(Transpose(q), m)
  {
    var r := RFactor(q, m);
    var p := MatMul(Transpose(q), m);
    forall j | 0 <= j < |m|
      ensures forall i :: 0 <= i < |m| ==> p[j][i] == Dot(Column(q, j), Column(m, i))
    {
      TransposeRowIsColumn(q, j);
    }
    if forall j, i :: 0 <= i < j < |m| ==> Dot(Column(q, j), Column(m, i)) == 0.0 {
      forall j | 0 <= j < |m|
        ensures r[j] == p[j]
      {
        assert forall i :: 0 <= i < |m| ==> r[j][i] == p[j][i];
      }
    }
  }

  /** The conditions of `IsRFactor` fix every entry: `RFactor` is the only such matrix. */
  lemma RFactorUnique(r: Matrix, q: Matrix, m: Matrix)
    requires SameShape(q, m) && SameShape(m, r) && IsRFactor(r, q, m)
    ensures r == RFactor(q, m)
  {
    var f := RFactor(q, m);
    forall j | 0 <= j < |m|
      ensures r[j] == f[j]
    {
      assert forall i :: 0 <= i < |m| ==> r[j][i] == f[j][i];
    }
  }

  /** `k` steps of the naive iteration: `M := R Q`, and `U := U Q` when accumulating. */
  function NaiveIterate(m: Matrix, u: Matrix, k: nat, acc: bool, nm: Numerics): (mu: (Matrix, Matrix))
    requires IsSquare(m) && SameShape(m, u)
    ensures SameShape(m, mu.0) && SameShape(u, mu.1)
    ensures !acc ==> mu.1 == u
    decreases k
  {
    if k == 0 then (m, u)
    else
      var q := GramSchmidtQ(m, nm);
      var r := RFactor(q, m);
      NaiveIterate(MatMul(r, q), if acc then MatMul(u, q) else u, k - 1, acc, nm)
  }

  /**
   * `qr_algorithm_naive(m, u, opts)`: exactly `iterations` steps, no early
   * exit; `u` is left alone when accumulation is off.
   */
  method QRAlgorithmNaive(m: Matrix, u: Matrix, opts: Types.QROptions, nm: Numerics)
    returns (m': Matrix, u': Matrix)
    requires IsSquare(m) && SameShape(m, u)
    ensures (m', u') == NaiveIterate(m, u, opts.iterations, opts.accumulateSimTransforms, nm)
    ensures !opts.accumulateSimTransforms ==> u' == u
  {
    m', u' := m, u;
    var i := 0;
    while i < opts.iterations
      invariant i <= opts.iterations && SameShape(m, m') && SameShape(u, u')
      invariant NaiveIterate(m', u', opts.iterations - i, opts.accumulateSimTransforms, nm)
        == NaiveIterate(m, u, opts.iterations, opts.accumulateSimTransforms, nm)
    {
      var q, r := QRDecomposition(m', nm);
      RFactorUnique(r, q, m');
      m' := MatMul(r, q);
      if opts.accumulateSimTransforms {
        u' := MatMul(u', q);
      }
      i := i + 1;
    }
  }
}

=== FILE: qr_symmetric.dfy ===
/**
 * The implicit symmetric QR iteration on a tridiagonal matrix: the
 * Wilkinson shift, one implicit rotation of the bulge chase, the sweep
 * over the active window, and the deflation loop.
 */
module SymmetricQR {

  import opened Floats
  import opened Matrices
  import opened Givens
  import opened Blocks
  import opened Common
  import Types

  /** Zero outside the diagonal and the two diagonals next to it. */
  predicate Tridiagonal(m: Matrix)
    requires IsSquare(m)
  {
    forall i, j :: 0 <= i < |m| && 0 <= j < |m| && (i > j + 1 || j > i + 1) ==> m[i][j] == 0.0
  }

  /**
   * `wilkinson_shift(m, p)`: the eigenvalue of the trailing symmetric block
   * `[[c, b], [b, a]]` (with `c = m[p - 1][p - 1]`, `b = m[p][p - 1]`,
   * `a = m[p][p]`) that is closer to `a`. With `d = (c - a) / 2 == 0` both
   * eigenvalues are equally close and `a - |b|` is taken.
   *
   * The division is safe: for `d != 0` the denominator has the sign of `d`.
   * With an exact `hypot` the result is a root of the block's characteristic
   * polynomial, no farther from `a` than from `c`.
   */
  function WilkinsonShift(m: Matrix, p: nat, hypot: (real, real) -> real): (sigma: real)
    requires IsSquare(m) && 1 <= p < |m| && HypotPositive(hypot)
    ensures ExactHypot(hypot) ==>
      (m[p - 1][p - 1] - sigma) * (m[p][p] - sigma) == Sq(m[p][p - 1])
      && Abs(m[p][p] - sigma) <= Abs(m[p - 1][p - 1] - sigma)
  {
    var a := m[p][p];
    var b := m[p][p - 1];
    var c := m[p - 1][p - 1];
    var d := 0.5 * (c - a);
    if d == 0.0 then
      SqAbs(b);
      a - Abs(b)
    else
      var den := d + Signum(d) * hypot(d, b);
      ShiftDenominator(d, b, hypot);
      ShiftWhenExact(a, b, c, d, hypot, den);
      a - Sq(b) / den
  }

  /** `d + signum(d) * hypot(d, b)` has the sign of `d`, so it is not zero. */
  lemma ShiftDenominator(d: real, b: real, hypot: (real, real) -> real)
    requires d != 0.0 && HypotPositive(hypot)
    ensures d + Signum(d) * hypot(d, b) != 0.0
  {
    var h := hypot(d, b);
    assert h > 0.0;
    if d > 0.0 {
      assert d + Signum(d) * h > 0.0;
    } else {
      assert d + Signum(d) * h < 0.0;
    }
  }

  lemma ShiftWhenExact(a: real, b: real, c: real, d: real, hypot: (real, real) -> real, den: real)
    requires d == 0.5 * (c - a) && d != 0.0
    requires den == d + Signum(d) * hypot(d, b) && den != 0.0
    ensures ExactHypot(hypot) ==> var sigma := a - Sq(b) / den;
      (c - sigma) * (a - sigma) == Sq(b) && Abs(a - sigma) <= Abs(c - sigma)
  {
    if ExactHypot(hypot) {
      ShiftIsNearerRoot(a, b, c, d, hypot(d, b), den);
    }
  }

  lemma SqAbs(b: real)
    ensures Abs(b) * Abs(b) == Sq(b)
  {
  }

  /** `(h - d)(h + d) == h^2 - d^2`. */
  lemma DifferenceOfSquares(h: real, d: real)
    ensures (h - d) * (h + d) == Sq(h) - Sq(d)
  {
  }

  /** An exact `hypot(d, b)` is at least `|d|`. */
  lemma HypotDominates(d: real, b: real, h: real)
    requires h >= 0.0 && Sq(h) == Sq(d) + Sq(b)
    ensures h >= Abs(d)
  {
    SqNonneg(b);
    assert Sq(Abs(d)) == Sq(d);
    if h < Abs(d) {
      MulLessSquares(h, Abs(d));
    }
  }

  lemma MulLessSquares(x: real, y: real)
    requires 0.0 <= x < y
    ensures Sq(x) < Sq(y)
  {
    DifferenceOfSquares(y, x);
    MulPos(y - x, y + x);
  }

  /**
   * The algebra behind the shift: with `den = d + sign(d) h` and
   * `h^2 = d^2 + b^2`, the step `t = b^2 / den` equals `sign(d) h - d`, so
   * `a - t` solves `(c - x)(a - x) == b^2` and `|t| <= |den|`.
   */
  lemma ShiftIsNearerRoot(a: real, b: real, c: real, d: real, h: real, den: real)
    requires d == 0.5 * (c - a) && d != 0.0
    requires h >= 0.0 && Sq(h) == Sq(d) + Sq(b)
    requires den == d + Signum(d) * h && den != 0.0
    ensures var sigma := a - Sq(b) / den;
      (c - sigma) * (a - sigma) == Sq(b) && Abs(a - sigma) <= Abs(c - sigma)
  {
    HypotDominates(d, b, h);
    var t := Sq(b) / den;
    var e := Signum(d) * h - d;
    if d > 0.0 {
      DifferenceOfSquares(h, d);
      assert e * den == Sq(b);
    } else {
      DifferenceOfSquares(h, -d);
      assert Sq(-d) == Sq(d);
      assert e * den == Sq(b);
    }
    assert t == e;
    assert c - (a - t) == den;
  }

  /**
   * The state threaded through the sweep: the matrix, and `x`, `y`, the
   * pair the next rotation is computed from (the subdiagonal entry and the
   * bulge below it).
   */
  datatype Chase = Chase(m: Matrix, x: real, y: real)

  /**
   * `implicit_tridiagonal_rotation(m, x, y, c, s, k, p)`: apply the rotation
   * `(c, s)` in the plane `k, k + 1` to a symmetric tridiagonal matrix
   * carrying a bulge, writing only the entries the rotation can change: the
   * 2x2 diagonal block at `k`, the pair `(k - 1, k)` / `(k, k - 1)` that
   * absorbs the old bulge, and the pair `(k + 1, k + 2)` / `(k + 2, k + 1)`,
   * scaled by `c`, whose lost part becomes the new bulge `y`.
   */
  function TridiagonalRotation(st: Chase, g: Rot, k: nat, p: nat): (r: Chase)
    requires IsSquare(st.m) && k < p < |st.m|
    ensures SameShape(st.m, r.m)
    ensures forall i, j :: 0 <= i < |st.m| && 0 <= j < |st.m| && r.m[i][j] != st.m[i][j] ==>
      i <= j + 1 && j <= i + 1 && k <= i + 1 && k <= j + 1 && i <= k + 2 && j <= k + 2 && i <= p && j <= p
    ensures r.x == r.m[k + 1][k]
    ensures k > 0 ==> r.m[k][k - 1] == ApplyLeft(g, st.x, st.y).0
    ensures k + 1 < p ==> r.y == -g.s * st.m[k + 2][k + 1]
    ensures k + 1 == p ==> r.y == st.y
  {
    var m := st.m;
    var w := ApplyLeft(g, st.x, st.y).0;
    var z := DiagonalShift(g, m[k][k], m[k + 1][k], m[k + 1][k + 1]);
    var sub := OffDiagonal(g, m[k][k], m[k + 1][k], m[k + 1][k + 1]);
    var m' := BandUpdate(m, k, p, z, sub, w, g.c);
    Chase(m', sub, if k + 1 < p then -g.s * m[k + 2][k + 1] else st.y)
  }

  /**
   * The entries `implicit_tridiagonal_rotation` writes: `z` moved along the
   * diagonal block, the new off-diagonal pair `sub`, the pair `w` next to
   * the block (when `k > 0`), and the pair after it scaled by `c` (when
   * `k + 1 < p`). Every entry written lies in the band, within the window
   * and no more than one place before `k` or two after it.
   */
  function BandUpdate(m: Matrix, k: nat, p: nat, z: real, sub: real, w: real, c: real): (m': Matrix)
    requires IsSquare(m) && k < p < |m|
    ensures SameShape(m, m')
    ensures forall i, j :: 0 <= i < |m| && 0 <= j < |m| && m'[i][j] != m[i][j] ==>
      i <= j + 1 && j <= i + 1 && k <= i + 1 && k <= j + 1 && i <= k + 2 && j <= k + 2 && i <= p && j <= p
  {
    var n := |m|;
    seq(n, i requires 0 <= i < n => seq(n, j requires 0 <= j < n =>
      if i == k && j == k then m[k][k] - z
      else if i == k + 1 && j == k + 1 then m[k + 1][k + 1] + z
      else if (i == k + 1 && j == k) || (i == k && j == k + 1) then sub
      else if k > 0 && ((i == k - 1 && j == k) || (i == k && j == k - 1)) then w
      else if k + 1 < p && i == k + 2 && j == k + 1 then c * m[k + 2][k + 1]
      else if k + 1 < p && i == k + 1 && j == k + 2 then c * m[k + 1][k + 2]
      else m[i][j]))
  }

  /** The implicit rotation keeps the trace: what it takes from `m[k][k]` it adds to `m[k + 1][k + 1]`. */
  lemma RotationKeepsTrace(st: Chase, g: Rot, k: nat, p: nat)
    requires IsSquare(st.m) && k < p < |st.m|
    ensures Trace(TridiagonalRotation(st, g, k, p).m, |st.m|) == Trace(st.m, |st.m|)
  {
    var r := TridiagonalRotation(st, g, k, p).m;
    TraceFrame(st.m, r, k, |st.m|);
  }

  /** The implicit rotation keeps a symmetric matrix symmetric: it writes every entry together with its mirror. */
  lemma RotationKeepsSymmetry(st: Chase, g: Rot, k: nat, p: nat)
    requires IsSquare(st.m) && k < p < |st.m|
    ensures Matrices.Symmetric(st.m) ==> Matrices.Symmetric(TridiagonalRotation(st, g, k, p).m)
  {
    var m := st.m;
    var r := TridiagonalRotation(st, g, k, p).m;
    if Matrices.Symmetric(m) {
      forall i, j | 0 <= i < |m| && 0 <= j < |m|
        ensures r[i][j] == r[j][i]
      {
        if k + 1 < p && i == k + 2 && j == k + 1 {
          assert m[k + 2][k + 1] == m[k + 1][k + 2];
        } else if k + 1 < p && i == k + 1 && j == k + 2 {
          assert m[k + 2][k + 1] == m[k + 1][k + 2];
        } else {
          assert m[i][j] == m[j][i];
        }
      }
    }
  }

  /** The implicit rotation writes only inside the band, so a tridiagonal matrix stays tridiagonal. */
  lemma RotationKeepsBand(st: Chase, g: Rot, k: nat, p: nat)
    requires IsSquare(st.m) && k < p < |st.m|
    ensures Tridiagonal(st.m) ==> Tridiagonal(TridiagonalRotation(st, g, k, p).m)
  {
  }

  /** Every written entry lies in the band, so nothing below the first subdiagonal changes. */
  lemma RotationKeepsHessenberg(st: Chase, g: Rot, k: nat, p: nat)
    requires IsSquare(st.m) && k < p < |st.m|
    ensures UpperHessenberg(st.m) ==> UpperHessenberg(TridiagonalRotation(st, g, k, p).m)
  {
  }

  /**
   * With a unit rotation, the implicit update of the diagonal block at `k`
   * of a symmetric matrix is the explicit similarity `G^T B G` that
   * `givens_rot_left` and `givens_rot_right` would compute.
   */
  lemma ImplicitRotationIsSimilarity(st: Chase, g: Rot, k: nat, p: nat)
    requires IsSquare(st.m) && k < p < |st.m|
    requires st.m[k][k + 1] == st.m[k + 1][k]
    requires Sq(g.c) + Sq(g.s) == 1.0
    ensures BlockAt(TridiagonalRotation(st, g, k, p).m, k) == RotateBlock(g, BlockAt(st.m, k))
  {
    var al, be, ga := st.m[k][k], st.m[k + 1][k], st.m[k + 1][k + 1];
    RotationBlockEntries(st, g, k, p);
    UnitSimilarity(g, al, be, ga);
    assert BlockAt(st.m, k) == Block2(al, be, be, ga);
  }

  /** The amount the implicit update moves from `m[k][k]` to `m[k + 1][k + 1]`. */
  function DiagonalShift(g: Rot, al: real, be: real, ga: real): real
  {
    (2.0 * g.c * be + (al - ga) * g.s) * g.s
  }

  /** The new off-diagonal pair of the block, as the implicit update computes it. */
  function OffDiagonal(g: Rot, al: real, be: real, ga: real): real
  {
    (al - ga) * g.c * g.s + (Sq(g.c) - Sq(g.s)) * be
  }

  /** The four entries of the diagonal block at `k` after the implicit rotation. */
  lemma RotationBlockEntries(st: Chase, g: Rot, k: nat, p: nat)
    requires IsSquare(st.m) && k < p < |st.m|
    ensures var al, be, ga := st.m[k][k], st.m[k + 1][k], st.m[k + 1][k + 1];
      var z := DiagonalShift(g, al, be, ga);
      var sub := OffDiagonal(g, al, be, ga);
      BlockAt(TridiagonalRotation(st, g, k, p).m, k) == Block2(al - z, sub, sub, ga + z)
  {
  }

  /** For a unit rotation, `G^T B G` of a symmetric block in the implicit update's terms. */
  lemma UnitSimilarity(g: Rot, al: real, be: real, ga: real)
    requires Sq(g.c) + Sq(g.s) == 1.0
    ensures var z := DiagonalShift(g, al, be, ga);
      var sub := OffDiagonal(g, al, be, ga);
      RotateBlock(g, Block2(al, be, be, ga)) == Block2(al - z, sub, sub, ga + z)
  {
    BlockAlgebra(al, be, ga, g.c, g.s);
    assert g == Rot(g.c, g.s);
  }

  /**
   * The entries of `G^T [[al, be], [be, ga]] G` for `G = [[c, s], [-s, c]]`
   * with `c^2 + s^2 == 1`, written the way the implicit update computes them.
   */
  lemma BlockAlgebra(al: real, be: real, ga: real, c: real, s: real)
    requires Sq(c) + Sq(s) == 1.0
    ensures var z := (2.0 * c * be + (al - ga) * s) * s;
      var sub := (al - ga) * c * s + (Sq(c) - Sq(s)) * be;
      var rb := RotateBlock(Rot(c, s), Block2(al, be, be, ga));
      rb.a == al - z && rb.d == ga + z && rb.b == sub && rb.c == sub
  {
    var l0 := ApplyLeft(Rot(c, s), al, be);
    var l1 := ApplyLeft(Rot(c, s), be, ga);
    FirstRotation(al, be, ga, c, s);
    SecondRotation(c, s, l0.0, l1.0);
    SecondRotation(c, s, l0.1, l1.1);
    TopLeftIdentity(al, be, ga, c, s, l0.0, l1.0);
    BottomRightIdentity(al, be, ga, c, s, l0.1, l1.1);
    OffDiagonalIdentity(al, be, ga, c, s, l0.0, l1.0, l0.1, l1.1);
  }

  /** The left rotation of the block's two columns, entry by entry. */
  lemma FirstRotation(al: real, be: real, ga: real, c: real, s: real)
    ensures var l0 := ApplyLeft(Rot(c, s), al, be);
      var l1 := ApplyLeft(Rot(c, s), be, ga);
      && l0.0 == c * al - s * be && l0.1 == s * al + c * be
      && l1.0 == c * be - s * ga && l1.1 == s * be + c * ga
  {
  }

  /** The second rotation, applied to a pair of rotated entries. */
  lemma SecondRotation(c: real, s: real, x: real, y: real)
    ensures ApplyLeft(Rot(c, s), x, y).0 == c * x - s * y && ApplyLeft(Rot(c, s), x, y).1 == s * x + c * y
  {
  }

  lemma TopLeftIdentity(al: real, be: real, ga: real, c: real, s: real, x0: real, x1: real)
    requires Sq(c) + Sq(s) == 1.0 && x0 == c * al - s * be && x1 == c * be - s * ga
    ensures c * x0 - s * x1 == al - (2.0 * c * be + (al - ga) * s) * s
  {
    assert Id(c) == c && Id(s) == s;
    assert al * (c * c + s * s) == al;
  }

  lemma BottomRightIdentity(al: real, be: real, ga: real, c: real, s: real, y0: real, y1: real)
    requires Sq(c) + Sq(s) == 1.0 && y0 == s * al + c * be && y1 == s * be + c * ga
    ensures s * y0 + c * y1 == ga + (2.0 * c * be + (al - ga) * s) * s
  {
    assert Id(c) == c && Id(s) == s;
    assert ga * (c * c + s * s) == ga;
  }

  lemma OffDiagonalIdentity(al: real, be: real, ga: real, c: real, s: real, x0: real, x1: real, y0: real, y1: real)
    requires x0 == c * al - s * be && x1 == c * be - s * ga
    requires y0 == s * al + c * be && y1 == s * be + c * ga
    ensures s * x0 + c * x1 == (al - ga) * c * s + (Sq(c) - Sq(s)) * be
    ensures c * y0 - s * y1 == (al - ga) * c * s + (Sq(c) - Sq(s)) * be
  {
    assert Id(c) == c && Id(s) == s;
  }

  /**
   * When the rotation is the Givens rotation of `(x, y)`, the implicit update
   * absorbs the bulge: what the pair `(x, y)` rotates to has a zero second
   * component, which the explicit similarity would have left at `(k + 1, k - 1)`.
   */
  lemma GivensAbsorbsBulge(st: Chase, k: nat, p: nat, hypot: (real, real) -> real)
    requires IsSquare(st.m) && 0 < k < p < |st.m| && HypotPositive(hypot)
    ensures var g := Givens.Givens(st.x, st.y, hypot);
      ApplyLeft(g, st.x, st.y).1 == 0.0
      && TridiagonalRotation(st, g, k, p).m[k][k - 1] == ApplyLeft(g, st.x, st.y).0
  {
    GivensZeroesSecond(st.x, st.y, hypot);
  }

  /** The rotation a sweep step uses: Givens on `(x, y)`, or `rot_2by2` of the leading block when the window is 2x2. */
  function SweepRotation(st: Chase, p: nat, nm: Numerics): (g: Rot)
    requires IsSquare(st.m) && 1 <= p < |st.m| && Valid(nm)
    ensures p > 1 ==> g == Givens.Givens(st.x, st.y, nm.hypot)
    ensures p == 1 ==> g == Rot2x2(BlockAt(st.m, 0), nm)
  {
    if p > 1 then Givens.Givens(st.x, st.y, nm.hypot) else Rot2x2(BlockAt(st.m, 0), nm)
  }

  /** What a sweep keeps: shape, trace, symmetry, the tridiagonal band, Hessenberg form, and everything beyond `p`. */
  ghost predicate SweepKeeps(m: Matrix, m': Matrix, p: nat)
    requires SameShape(m, m') && IsSquare(m)
  {
    Trace(m', |m|) == Trace(m, |m|)
    && (Matrices.Symmetric(m) ==> Matrices.Symmetric(m'))
    && (Tridiagonal(m) ==> Tridiagonal(m'))
    && (UpperHessenberg(m) ==> UpperHessenberg(m'))
    && forall i, j :: 0 <= i < |m| && 0 <= j < |m| && (i > p || j > p) ==> m'[i][j] == m[i][j]
  }

  /**
   * `symmetric_qr_step(m, u, p, s)`: one implicit shifted QR sweep over the
   * window `0 ..= p`, starting from the pair `(m[0][0] - s, m[0][1])`; every
   * rotation is also applied to the columns `k, k + 1` of `u`.
   *
   * The trace, symmetry, the tridiagonal band and Hessenberg form are kept, rows and columns
   * after `p` are untouched, and `u` changes only in columns up to `p`.
   */
  method SymmetricQRStep(m: Matrix, u: Matrix, p: nat, shift: real, nm: Numerics)
    returns (m': Matrix, u': Matrix)
    requires IsSquare(m) && SameShape(m, u) && 1 <= p < |m| && Valid(nm)
    ensures SameShape(m, m') && SameShape(u, u')
    ensures SweepKeeps(m, m', p)
    ensures forall i, j :: 0 <= i < |u| && p < j < |u| ==> u'[i][j] == u[i][j]
  {
    var n := |m|;
    var st := Chase(m, m[0][0] - shift, m[0][1]);
    u' := u;
    var k := 0;
    while k < p
      invariant k <= p
      invariant SameShape(m, st.m) && SameShape(u, u')
      invariant SweepKeeps(m, st.m, p)
      invariant forall i, j :: 0 <= i < n && p < j < n ==> u'[i][j] == u[i][j]
    {
      var g := SweepRotation(st, p, nm);
      RotationKeepsTrace(st, g, k, p);
      RotationKeepsSymmetry(st, g, k, p);
      RotationKeepsBand(st, g, k, p);
      RotationKeepsHessenberg(st, g, k, p);
      var st' := TridiagonalRotation(st, g, k, p);
      u' := RotRight(g, u', n, k);
      st := st';
      k := k + 1;
    }
    m' := st.m;
  }

  /**
   * `qr_algorithm_symmetric(m, u, opts)`: sweep with the Wilkinson shift of
   * the trailing block while the window is larger than 1x1 and the budget
   * lasts; every sweep spends one unit, and the window shrinks by one when
   * the trailing subdiagonal entry has collapsed (that entry is left as it
   * is). The window `p` and the sweep count `i` are returned with the
   * matrices.
   *
   * Each sweep lowers `p` by at most one; the trace, symmetry, the
   * tridiagonal band and Hessenberg form are kept throughout.
   */
  method QRAlgorithmSymmetric(m: Matrix, u: Matrix, opts: Types.QROptions, nm: Numerics)
    returns (m': Matrix, u': Matrix, p: nat, i: nat)
    requires IsSquare(m) && SameShape(m, u) && |m| >= 1 && Valid(nm)
    ensures SameShape(m, m') && SameShape(u, u')
    ensures i <= opts.iterations && p <= |m| - 1
    ensures p == 0 || i == opts.iterations
    ensures p + i >= |m| - 1
    ensures Trace(m', |m|) == Trace(m, |m|)
    ensures Matrices.Symmetric(m) ==> Matrices.Symmetric(m')
    ensures Tridiagonal(m) ==> Tridiagonal(m')
    ensures UpperHessenberg(m) ==> UpperHessenberg(m')
  {
    m', u' := m, u;
    p := |m| - 1;
    i := 0;
    while p > 0 && i < opts.iterations
      invariant SameShape(m, m') && SameShape(u, u')
      invariant i <= opts.iterations && p <= |m| - 1 && p + i >= |m| - 1
      invariant Trace(m', |m|) == Trace(m, |m|)
      invariant Matrices.Symmetric(m) ==> Matrices.Symmetric(m')
      invariant Tridiagonal(m) ==> Tridiagonal(m')
      invariant UpperHessenberg(m) ==> UpperHessenberg(m')
      decreases opts.iterations - i
    {
      var s := WilkinsonShift(m', p, nm.hypot);
      var m1, u1 := SymmetricQRStep(m', u', p, s, nm);
      m', u' := m1, u1;
      if EigvalCollapsed(opts.eps, m'[p][p - 1], m'[p - 1][p - 1], m'[p][p]) {
        p := p - 1;
      }
      i := i + 1;
    }
  }
}

=== FILE: schur.dfy ===
/**
 * The public interface: the Schur form, the Hessenberg form, the QR
 * decomposition and the eigenvalues of a raw input matrix.
 *
 * Each entry point validates its input in a fixed order (finite entries,
 * then a square shape, then symmetry for the symmetric algorithm), runs the
 * stages of the selected algorithm on a copy with `U` starting as the
 * identity, zeroes sub-eps entries when asked to, and finally gates the
 * result on its deviation from (quasi-)triangular form.
 */
module Schur {

  import opened Floats
  import opened Matrices
  import opened Checks
  import Common
  import Types
  import Hessenberg
  import Francis
  import SymmetricQR
  import QRBasic

  /**
   * The inputs the model can run: with the checks off, the input must
   * still be finite and square, because a model `Matrix` holds real
   * numbers only and is square. The library itself runs a square
   * non-finite input with the checks off and returns `Ok` with non-finite
   * entries; a non-square one is processed over the index range of its
   * row count.
   */
  predicate Runnable(a: RawMatrix, opts: Types.QROptions)
  {
    a.WellFormed() && (!opts.doSafetyChecks ==> AllFinite(a) && a.IsSquareShape())
  }

  /**
   * The QR variants other than the naive one start from `n - 1` (in `usize`),
   * so a `0 x 0` matrix that reaches them panics; one that validation
   * rejects never gets there.
   */
  predicate SizeSupported(a: RawMatrix, opts: Types.QROptions)
  {
    a.rows >= 1 || opts.algorithm == Types.Naive || (opts.doSafetyChecks && !a.IsSquareShape())
  }

  /**
   * The validation block of an entry point, as a result: the first failing
   * check in source order, or the input as a real matrix. The symmetry test
   * (`diff_symm(m) < sqrt(eps)`) applies only when `withSymmetry` is set and
   * the symmetric algorithm is selected; with the checks off, every input
   * passes.
   */
  function Validate(a: RawMatrix, opts: Types.QROptions, withSymmetry: bool, root: real -> real): (r: Types.Result<Matrix>)
    requires Runnable(a, opts)
    ensures r == Types.Err(Types.NotFinite) <==> opts.doSafetyChecks && !AllFinite(a)
    ensures r == Types.Err(Types.NotSquare) <==> opts.doSafetyChecks && AllFinite(a) && !a.IsSquareShape()
    ensures r == Types.Err(Types.NotSymmetric) <==>
      opts.doSafetyChecks && AllFinite(a) && a.IsSquareShape() && withSymmetry && opts.algorithm == Types.Symmetric
      && !Below(DiffSymm(ToReal(a), root), opts.eps, root)
    ensures r.Err? ==> r.error != Types.ConvergenceFailed
    ensures r.Ok? ==> AllFinite(a) && a.IsSquareShape() && r.value == ToReal(a)
    ensures !opts.doSafetyChecks ==> r.Ok?
  {
    if opts.doSafetyChecks && !AllFinite(a) then Types.Err(Types.NotFinite)
    else if opts.doSafetyChecks && !a.IsSquareShape() then Types.Err(Types.NotSquare)
    else if opts.doSafetyChecks && withSymmetry && opts.algorithm == Types.Symmetric
      && !Below(DiffSymm(ToReal(a), root), opts.eps, root) then Types.Err(Types.NotSymmetric)
    else Types.Ok(ToReal(a))
  }

  /**
   * A finite square input that is exactly symmetric is never refused as
   * non-symmetric (exact `sqrt`, positive `eps`): in that case validation
   * passes exactly when the shape checks do.
   */
  lemma SymmetricInputAccepted(a: RawMatrix, opts: Types.QROptions, root: real -> real)
    requires Runnable(a, opts) && AllFinite(a) && a.IsSquareShape()
    requires Matrices.Symmetric(ToReal(a)) && opts.eps > 0.0 && ExactSqrt(root)
    ensures Validate(a, opts, true, root).Ok?
  {
    SymmetricPassesGate(ToReal(a), opts.eps, root);
  }

  /**
   * The checks an entry point runs, by scanning the entries as
   * `finite_entries` does and then comparing the shape, in source order.
   */
  method ValidateInput(a: RawMatrix, opts: Types.QROptions, withSymmetry: bool, root: real -> real)
    returns (r: Types.Result<Matrix>)
    requires Runnable(a, opts)
    ensures r == Validate(a, opts, withSymmetry, root)
  {
    if opts.doSafetyChecks {
      var finite := FiniteEntries(a);
      if !finite {
        return Types.Err(Types.NotFinite);
      }
      if a.rows != a.cols {
        return Types.Err(Types.NotSquare);
      }
      if withSymmetry && opts.algorithm == Types.Symmetric && !Below(DiffSymm(ToReal(a), root), opts.eps, root) {
        return Types.Err(Types.NotSymmetric);
      }
    }
    return Types.Ok(ToReal(a));
  }

  /** The deviation the final gate measures: from quasi-triangular form for Francis, from triangular form otherwise. */
  function GateDiff(t: Matrix, alg: Types.QRAlgorithm, root: real -> real): (r: Double)
    requires IsSquare(t)
    ensures ExactSqrt(root) ==>
      (r == Finite(0.0) <==> if alg == Types.Francis then UpperHessenberg(t) else UpperTriangular(t))
  {
    if alg == Types.Francis then DiffSubtriag(t, root) else DiffTriag(t, root)
  }

  /** No entry is non-zero and below `eps` in magnitude. */
  predicate NoSubepsEntries(t: Matrix, eps: real)
  {
    forall i, j :: 0 <= i < |t| && 0 <= j < |t[i]| ==> t[i][j] == 0.0 || Abs(t[i][j]) >= eps
  }

  /** Zeroing sub-eps entries keeps every zero, hence keeps Hessenberg form. */
  lemma ZeroSubepsKeepsHessenberg(m: Matrix, eps: real)
    requires IsSquare(m) && UpperHessenberg(m)
    ensures UpperHessenberg(Common.ZeroSubeps(m, eps))
  {
  }

  /**
   * The stages of the selected algorithm on a validated matrix, `U` starting
   * as the identity: Francis reduces to Hessenberg form, runs the Francis
   * iteration and splits the real-eigenvalue 2x2 blocks; Hessenberg and
   * Symmetric reduce and then iterate; Naive iterates on the full matrix.
   *
   * Naive skips the reduction and is exactly `iterations` naive QR steps
   * from the identity `U`. With an exact square root every other path ends
   * in Hessenberg form: the reduction produces it and the Francis, Hessenberg
   * and symmetric iterations keep it. With the accumulation flag off the
   * naive path returns `U` as the identity; the other paths reflect and
   * rotate `U` whatever the flag says, so they do not promise it (though on
   * some inputs, the zero matrix for one, they keep it).
   * On the Francis path with the flag off, `U`'s first column is still the
   * first unit vector: the reduction reflects only columns 1.. of `U`, and
   * the iteration and the block split leave `U` alone.
   */
  method RunAlgorithm(m: Matrix, opts: Types.QROptions, nm: Numerics) returns (t: Matrix, u: Matrix)
    requires IsSquare(m) && Valid(nm) && (|m| >= 1 || opts.algorithm == Types.Naive)
    ensures SameShape(m, t) && SameShape(m, u)
    ensures opts.algorithm != Types.Naive && ExactSqrt(nm.sqrt) ==> UpperHessenberg(t)
    ensures opts.algorithm == Types.Naive ==>
      (t, u) == QRBasic.NaiveIterate(m, Identity(|m|), opts.iterations, opts.accumulateSimTransforms, nm)
    ensures opts.algorithm == Types.Naive && !opts.accumulateSimTransforms ==> u == Identity(|m|)
    ensures opts.algorithm == Types.Francis && !opts.accumulateSimTransforms ==>
      forall r :: 0 <= r < |m| ==> u[r][0] == (if r == 0 then 1.0 else 0.0)
  {
    u := Identity(|m|);
    match opts.algorithm
    case Francis =>
      var h, hu := Hessenberg.ReduceToHessenbergForm(m, u, nm);
      var f, fu, p, i := Francis.QRAlgorithmFrancis(h, hu, opts, nm);
      t, u := Francis.FrancisBlockReduction(f, fu, opts, nm);
      if ExactSqrt(nm.sqrt) {
        assert UpperHessenberg(f);
        forall r, c | 0 <= c && c + 1 < r < |t|
          ensures t[r][c] == 0.0
        {
          assert t[r][c] == f[r][c];
        }
      }
    case Naive =>
      t, u := QRBasic.QRAlgorithmNaive(m, u, opts, nm);
    case Hessenberg =>
      var h, hu := Hessenberg.ReduceToHessenbergForm(m, u, nm);
      var sweeps;
      t, u, sweeps := Hessenberg.QRAlgorithmHessenberg(h, hu, opts, nm);
    case Symmetric =>
      var h, hu := Hessenberg.ReduceToHessenbergForm(m, u, nm);
      var p, i;
      t, u, p, i := SymmetricQR.QRAlgorithmSymmetric(h, hu, opts, nm);
  }

  /**
   * `schur_form_inplace_opts(m, opts)`: validation, the algorithm's stages,
   * zeroing of `T` when `zeroEntries` is set, then the convergence gate
   * `diff < sqrt(eps)` when the checks are on. `t` is the matrix left in
   * place; on a validation error the input is untouched and the model has
   * no real matrix for it, so `t` is empty.
   *
   * Validation errors come first and are exactly those of `Validate`; after
   * it, the only error is `ConvergenceFailed`, and it is returned exactly
   * when the checks are on and the gate refuses `t`. With an exact square
   * root and a positive `eps`, the Francis path never fails the gate: the
   * reduction leaves `t` upper Hessenberg, and the corrected deviation
   * `Checks.DiffRel` of a Hessenberg matrix from its sub-triangular mask is
   * exactly 0, the zero matrix included.
   */
  method SchurFormInplaceOpts(a: RawMatrix, opts: Types.QROptions, nm: Numerics)
    returns (res: Types.Result<Matrix>, t: Matrix)
    requires Runnable(a, opts) && SizeSupported(a, opts) && Valid(nm)
    ensures var v := Validate(a, opts, true, nm.sqrt);
      v.Err? ==> res == Types.Err(v.error) && t == []
    ensures var v := Validate(a, opts, true, nm.sqrt);
      v.Ok? ==> (
        && SameShape(v.value, t)
        && (res.Ok? ==> SameShape(t, res.value))
        && (res.Ok? <==> !opts.doSafetyChecks || Below(GateDiff(t, opts.algorithm, nm.sqrt), opts.eps, nm.sqrt))
        && (res.Err? ==> res.error == Types.ConvergenceFailed)
        && (opts.zeroEntries ==> NoSubepsEntries(t, opts.eps)))
    ensures !opts.doSafetyChecks ==> res.Ok?
    ensures opts.algorithm == Types.Naive && !opts.accumulateSimTransforms && res.Ok? ==> res.value == Identity(a.rows)
    ensures opts.algorithm == Types.Francis && ExactSqrt(nm.sqrt) && opts.eps > 0.0 ==>
      (res.Ok? <==> Validate(a, opts, true, nm.sqrt).Ok?) && (res.Ok? ==> UpperHessenberg(t))
  {
    var v := ValidateInput(a, opts, true, nm.sqrt);
    if v.Err? {
      return Types.Err(v.error), [];
    }
    var u;
    t, u := RunAlgorithm(v.value, opts, nm);
    if opts.zeroEntries {
      Common.ZeroSubepsLeavesNoSubeps(t, opts.eps);
      if opts.algorithm == Types.Francis && ExactSqrt(nm.sqrt) {
        ZeroSubepsKeepsHessenberg(t, opts.eps);
      }
      t := Common.ZeroSubeps(t, opts.eps);
    }
    if opts.doSafetyChecks {
      if opts.algorithm == Types.Francis && ExactSqrt(nm.sqrt) && opts.eps > 0.0 {
        HessenbergPassesGate(t, opts.eps, nm.sqrt);
      }
      var diff := GateDiff(t, opts.algorithm, nm.sqrt);
      if !Below(diff, opts.eps, nm.sqrt) {
        return Types.Err(Types.ConvergenceFailed), t;
      }
    }
    return Types.Ok(u), t;
  }

  /** `schur_form_inplace(m)`: the default options, so Francis with the checks on. */
  method SchurFormInplace(a: RawMatrix, nm: Numerics) returns (res: Types.Result<Matrix>, t: Matrix)
    requires a.WellFormed() && (a.rows >= 1 || !a.IsSquareShape()) && Valid(nm)
    ensures res.Err? && res.error != Types.ConvergenceFailed <==> !AllFinite(a) || !a.IsSquareShape()
    ensures ExactSqrt(nm.sqrt) ==> (res.Ok? <==> AllFinite(a) && a.IsSquareShape())
    ensures res.Ok? ==> IsSquare(t) && |t| == a.rows && NoSubepsEntries(t, Types.Eps)
  {
    res, t := SchurFormInplaceOpts(a, Types.DefaultOpts, nm);
  }

  /** `schur_form_opts(m, opts)`: the in-place form on a copy, returning `(T, U)`. */
  method SchurFormOpts(a: RawMatrix, opts: Types.QROptions, nm: Numerics) returns (res: Types.Result<(Matrix, Matrix)>)
    requires Runnable(a, opts) && SizeSupported(a, opts) && Valid(nm)
    ensures var v := Validate(a, opts, true, nm.sqrt);
      v.Err? ==> res == Types.Err(v.error)
    ensures res.Ok? ==>
      AllFinite(a) && a.IsSquareShape() && IsSquare(res.value.0) && |res.value.0| == a.rows && SameShape(res.value.0, res.value.1)
    ensures res.Ok? && opts.doSafetyChecks ==> Below(GateDiff(res.value.0, opts.algorithm, nm.sqrt), opts.eps, nm.sqrt)
    ensures res.Ok? && opts.zeroEntries ==> NoSubepsEntries(res.value.0, opts.eps)
    ensures res.Err? && Validate(a, opts, true, nm.sqrt).Ok? ==> res.error == Types.ConvergenceFailed
    ensures !opts.doSafetyChecks ==> res.Ok?
    ensures opts.algorithm == Types.Francis && ExactSqrt(nm.sqrt) && opts.eps > 0.0 ==>
      (res.Ok? <==> Validate(a, opts, true, nm.sqrt).Ok?) && (res.Ok? ==> UpperHessenberg(res.value.0))
  {
    var r, t := SchurFormInplaceOpts(a, opts, nm);
    if r.Err? {
      return Types.Err(r.error);
    }
    return Types.Ok((t, r.value));
  }

  /**
   * `schur_form(m)`: the default options. Only a non-finite or non-square
   * input is refused for its shape or entries; with an exact square root
   * every other input succeeds in the model, in Hessenberg form with no
   * sub-eps entry. That rests on the corrected `Checks.DiffRel` and
   * `Hessenberg.ReductionSteps`.
   */
  method SchurForm(a: RawMatrix, nm: Numerics) returns (res: Types.Result<(Matrix, Matrix)>)
    requires a.WellFormed() && (a.rows >= 1 || !a.IsSquareShape()) && Valid(nm)
    ensures res.Err? && res.error != Types.ConvergenceFailed <==> !AllFinite(a) || !a.IsSquareShape()
    ensures res.Err? && !AllFinite(a) ==> res.error == Types.NotFinite
    ensures ExactSqrt(nm.sqrt) ==> (res.Ok? <==> AllFinite(a) && a.IsSquareShape())
    ensures res.Ok? ==> IsSquare(res.value.0) && |res.value.0| == a.rows
    ensures ExactSqrt(nm.sqrt) && res.Ok? ==> UpperHessenberg(res.value.0) && NoSubepsEntries(res.value.0, Types.Eps)
  {
    res := SchurFormOpts(a, Types.DefaultOpts, nm);
  }

  /**
   * `eigenvalues_opts(m, opts)`: the Schur form, then the eigenvalue walk
   * (with the trailing entry and the sign under the square root of the
   * pair's imaginary part corrected, see `Common.EigenWalk`). One value per
   * row.
   */
  method EigenvaluesOpts(a: RawMatrix, opts: Types.QROptions, nm: Numerics) returns (res: Types.Result<seq<Common.Complex>>)
    requires Runnable(a, opts) && SizeSupported(a, opts) && Valid(nm)
    ensures var v := Validate(a, opts, true, nm.sqrt);
      v.Err? ==> res == Types.Err(v.error)
    ensures res.Err? && Validate(a, opts, true, nm.sqrt).Ok? ==> res.error == Types.ConvergenceFailed
    ensures res.Ok? ==> |res.value| == a.rows
    ensures !opts.doSafetyChecks ==> res.Ok?
    ensures opts.algorithm == Types.Francis && ExactSqrt(nm.sqrt) && opts.eps > 0.0 ==>
      (res.Ok? <==> Validate(a, opts, true, nm.sqrt).Ok?)
  {
    var s := SchurFormOpts(a, opts, nm);
    if s.Err? {
      return Types.Err(s.error);
    }
    var eigs := Common.ExtractEigenvalues(s.value.0, nm.sqrt);
    return Types.Ok(eigs);
  }

  /** `eigenvalues(m)`: the eigenvalue options (Francis, checks on, no zeroing, no `U`). */
  method Eigenvalues(a: RawMatrix, nm: Numerics) returns (res: Types.Result<seq<Common.Complex>>)
    requires a.WellFormed() && (a.rows >= 1 || !a.IsSquareShape()) && Valid(nm)
    ensures res.Err? && res.error != Types.ConvergenceFailed <==> !AllFinite(a) || !a.IsSquareShape()
    ensures ExactSqrt(nm.sqrt) ==> (res.Ok? <==> AllFinite(a) && a.IsSquareShape())
    ensures res.Ok? ==> |res.value| == a.rows
  {
    res := EigenvaluesOpts(a, Types.EigenvalueOpts, nm);
  }

  /**
   * `hessenberg_form_inplace_opts(m, opts)`: validation without the symmetry
   * test, the reduction (which always reflects `U`), zeroing of `H` only.
   * There is no gate, so every validated input succeeds. `U` keeps its first
   * column `e_0`; a matrix smaller than 2x2 is left as it was.
   */
  method HessenbergFormInplaceOpts(a: RawMatrix, opts: Types.QROptions, nm: Numerics)
    returns (res: Types.Result<Matrix>, t: Matrix)
    requires Runnable(a, opts)
    ensures var v := Validate(a, opts, false, nm.sqrt);
      (v.Err? ==> res == Types.Err(v.error) && t == [])
      && (v.Ok? ==> res.Ok? && SameShape(v.value, t) && SameShape(t, res.value))
    ensures res.Ok? && ExactSqrt(nm.sqrt) ==> UpperHessenberg(t)
    ensures res.Ok? ==> forall i :: 0 <= i < |t| ==> res.value[i][0] == (if i == 0 then 1.0 else 0.0)
    ensures res.Ok? && opts.zeroEntries ==> NoSubepsEntries(t, opts.eps)
    ensures res.Ok? && a.rows < 2 ==>
      res.value == Identity(a.rows) && t == (if opts.zeroEntries then Common.ZeroSubeps(ToReal(a), opts.eps) else ToReal(a))
  {
    var v := ValidateInput(a, opts, false, nm.sqrt);
    if v.Err? {
      return Types.Err(v.error), [];
    }
    var u;
    t, u := Hessenberg.ReduceToHessenbergForm(v.value, Identity(|v.value|), nm);
    if opts.zeroEntries {
      Common.ZeroSubepsLeavesNoSubeps(t, opts.eps);
      if ExactSqrt(nm.sqrt) {
        ZeroSubepsKeepsHessenberg(t, opts.eps);
      }
      t := Common.ZeroSubeps(t, opts.eps);
    }
    return Types.Ok(u), t;
  }

  /** `hessenberg_form_inplace(m)`: the default options; only a non-finite or non-square input fails. */
  method HessenbergFormInplace(a: RawMatrix, nm: Numerics) returns (res: Types.Result<Matrix>, t: Matrix)
    requires a.WellFormed()
    ensures res.Ok? <==> AllFinite(a) && a.IsSquareShape()
    ensures res.Err? ==> res.error == (if AllFinite(a) then Types.NotSquare else Types.NotFinite) && t == []
    ensures res.Ok? ==> SameShape(t, res.value) && |t| == a.rows && NoSubepsEntries(t, Types.Eps)
    ensures res.Ok? && ExactSqrt(nm.sqrt) ==> UpperHessenberg(t)
  {
    res, t := HessenbergFormInplaceOpts(a, Types.DefaultOpts, nm);
  }

  /** `hessenberg_form_opts(m, opts)`: the in-place form on a copy, returning `(H, U)`. */
  method HessenbergFormOpts(a: RawMatrix, opts: Types.QROptions, nm: Numerics) returns (res: Types.Result<(Matrix, Matrix)>)
    requires Runnable(a, opts)
    ensures var v := Validate(a, opts, false, nm.sqrt);
      (v.Err? ==> res == Types.Err(v.error)) && (v.Ok? ==> res.Ok? && SameShape(v.value, res.value.0) && SameShape(v.value, res.value.1))
    ensures res.Ok? && ExactSqrt(nm.sqrt) ==> UpperHessenberg(res.value.0)
  {
    var r, t := HessenbergFormInplaceOpts(a, opts, nm);
    if r.Err? {
      return Types.Err(r.error);
    }
    return Types.Ok((t, r.value));
  }

  /** `hessenberg_form(m)`: the default options; only a non-finite or non-square input fails. */
  method HessenbergForm(a: RawMatrix, nm: Numerics) returns (res: Types.Result<(Matrix, Matrix)>)
    requires a.WellFormed()
    ensures res.Ok? <==> AllFinite(a) && a.IsSquareShape()
    ensures res.Err? ==> res.error == (if AllFinite(a) then Types.NotSquare else Types.NotFinite)
    ensures res.Ok? ==> IsSquare(res.value.0) && |res.value.0| == a.rows
    ensures res.Ok? && ExactSqrt(nm.sqrt) ==> UpperHessenberg(res.value.0)
  {
    res := HessenbergFormOpts(a, Types.DefaultOpts, nm);
  }

  /**
   * `qr_decomposition_opts(m, opts)`: validation without the symmetry test,
   * Gram-Schmidt `Q` and its `R`, then zeroing of `Q` only. `R` is computed
   * from the unzeroed `Q`, and is not itself zeroed.
   */
  method QRDecompositionOpts(a: RawMatrix, opts: Types.QROptions, nm: Numerics) returns (res: Types.Result<(Matrix, Matrix)>)
    requires Runnable(a, opts)
    ensures var v := Validate(a, opts, false, nm.sqrt);
      (v.Err? ==> res == Types.Err(v.error)) && (v.Ok? <==> res.Ok?)
    ensures res.Ok? ==>
      var m := ToReal(a);
      var q0 := QRBasic.GramSchmidtQ(m, nm);
      && SameShape(m, res.value.0) && SameShape(m, res.value.1) && QRBasic.IsRFactor(res.value.1, q0, m)
      && forall i, j :: 0 <= i < |m| && 0 <= j < |m| ==>
        res.value.0[i][j] == (if opts.zeroEntries && Abs(q0[i][j]) < opts.eps then 0.0 else q0[i][j])
  {
    var v := ValidateInput(a, opts, false, nm.sqrt);
    if v.Err? {
      return Types.Err(v.error);
    }
    var q, r := QRBasic.QRDecomposition(v.value, nm);
    if opts.zeroEntries {
      q := Common.ZeroSubeps(q, opts.eps);
    }
    return Types.Ok((q, r));
  }

  /** `qr_decomposition(m)`: the default options; only a non-finite or non-square input fails. */
  method QRDecomposition(a: RawMatrix, nm: Numerics) returns (res: Types.Result<(Matrix, Matrix)>)
    requires a.WellFormed()
    ensures res.Ok? <==> AllFinite(a) && a.IsSquareShape()
    ensures res.Ok? ==>
      var m := ToReal(a); SameShape(m, res.value.1) && QRBasic.IsRFactor(res.value.1, QRBasic.GramSchmidtQ(m, nm), m)
  {
    res := QRDecompositionOpts(a, Types.DefaultOpts, nm);
  }
}

=== FILE: types.dfy ===
/**
 * Algorithm selection, options and the error taxonomy of the public interface.
 */
module Types {

  /** The closed set of QR algorithm variants; equality is structural. */
  datatype QRAlgorithm = Naive | Hessenberg | Francis | Symmetric

  /**
   * `eps`: entries below it count as zero; `iterations`: the QR iteration
   * budget; `doSafetyChecks`: input validation and the convergence gate;
   * `zeroEntries`: zero sub-eps entries of the result;
   * `accumulateSimTransforms`: accumulate the similarity transform `U`.
   */
  datatype QROptions = QROptions(
    eps: real,
    iterations: nat,
    algorithm: QRAlgorithm,
    doSafetyChecks: bool,
    zeroEntries: bool,
    accumulateSimTransforms: bool)

  datatype QRError = NotFinite | NotSquare | NotSymmetric | ConvergenceFailed

  datatype Result<T> = Ok(value: T) | Err(error: QRError)

  const Eps: real := 0.00000001

  const DefaultOpts: QROptions := QROptions(Eps, 100000, Francis, true, true, true)

  const SymmetricOpts: QROptions := QROptions(Eps, 100000, Symmetric, true, true, true)

  const EigenvalueOpts: QROptions := QROptions(Eps, 100000, Francis, true, false, false)

  lemma DefaultOptsValues()
    ensures DefaultOpts.eps == 1.0 / 100000000.0 && DefaultOpts.iterations == 100000
    ensures DefaultOpts.algorithm == Francis
    ensures DefaultOpts.doSafetyChecks && DefaultOpts.zeroEntries && DefaultOpts.accumulateSimTransforms
  {
  }

  /** The symmetric preset is the default one with only the algorithm changed. */
  lemma SymmetricOptsOnlyChangeAlgorithm()
    ensures SymmetricOpts == DefaultOpts.(algorithm := Symmetric)
    ensures SymmetricOpts != DefaultOpts
  {
  }

  /** The eigenvalue preset keeps the checks but neither zeroes entries nor accumulates `U`. */
  lemma EigenvalueOptsOnlyDropOutputs()
    ensures EigenvalueOpts == DefaultOpts.(zeroEntries := false, accumulateSimTransforms := false)
    ensures EigenvalueOpts.algorithm == Francis && EigenvalueOpts.doSafetyChecks
  {
  }
}
